=== FILE: README.md ===
# A verified model of the interpreter's text core

The interpreter is a small C program. It has a raw-mode command line with history and Tab completion, a console that trims, splits and dispatches commands, a string queue, a buffered reader (RIO), and a tiny HTTP file server and client. This project models the text-level core of those parts as immutable Dafny datatypes and pure functions, and proves the properties the code promises.

Module layout, one per component:

| module | file | models |
|---|---|---|
| `Text` | text.dfy | C-string helpers shared by everything: `strchr`, the C string at the front of a buffer, `strncpy`, decimal numerals, `strcmp` order |
| `LineEditor` | line_editor.dfy | `CmdLineState` and the editing primitives, and `Refresh` as a byte serialiser |
| `KeyDecoder` | key_decoder.dfy | the key switch of `CmdLineEdit`: bytes to keys, with an encoder as its inverse |
| `History` | history.dfy | `AddHistoryCmd`, `SaveHistoryCmd`, `LoadHistory`, `HistoryCmd` |
| `EditSession` | edit_session.dfy | `CmdLineEdit` together with `CompleteCmdLine`, as a machine run on an input byte string |
| `Console` | console.dfy | `TrimSpace`, `TrimNewLine`, `SplitCmd`, `AddCmd`, `ConsoleInit`, prefix dispatch, the `RunConsole` loop, `RandomString` |
| `Lists` | lists.dfy | list reversal and the merge sort shared by both queues |
| `Queue` | queue.dfy | interpreter_queue.c |
| `LegacyQueue` | legacy_queue.dfy | queue.c, the earlier variant with a copy-out buffer |
| `Rio` | rio.dfy | `RioReadInit`, `RioRead`, `RioReadLine`, `WriteNum`, driven by scripted `read()`/`write()` results |
| `HttpServer` | http_server.dfy | request-target mapping, `Range:` scanning, the header loop, and response heads and listing rows |
| `HttpClient` | http_client.dfy | `IsDir`, `GetName`, `CompletePath`, request text, `AddNameToList` |

**Modelling choices.**
- A `string` stands for a byte sequence, one `char` per byte.
- A NULL pointer is `None`.
- The terminal width, the input bytes, the results of each `read()`/`write()` call, and the values `rand()` returns are parameters.
- The line editor keeps the whole `g_max_line + 1` byte buffer, not only `buf[..len]`. `CmdLineEdit` returns the C string at the front of the buffer, and some quirks leave stale bytes past `len`, so the difference is observable.
- The completion scan pointer `g_cmd_list_ptr` is global and outlives a single line read. It is a `scan` index carried by the session.

**Behaviour modelled as written.** These follow the source even where the prose around it suggests otherwise:
- End does nothing when the cursor is at column 0.
- On a line wider than the terminal with the cursor at its end, `col - plen - 1` bytes are shown.
- Up never shows the oldest history entry `g_history[0]`.
- Up past the end sets `len = pos = 0` and leaves the bytes alone.
- Ctrl-C during completion only leaves completion, so editing continues.
- The completion copy shares its buffer with the line. After Tab runs off the table, Enter still returns the last candidate shown (`EditSession.ExhaustedKeepsCandidate`).
- Dispatch runs the first command whose name starts with `argv[0]`, not the command whose name equals it.

## Model

| member | source | states |
|---|---|---|
| Text.IndexOf | interpreter_command_line.c:593-595 | the first position holding `c`, or the length when there is none, as `strchr` finds it |
| Text.CStr | interpreter_command_line.c:424-425 | what C reads at the front of a buffer: a NUL-free prefix ended by a NUL or by the buffer's end; a NUL-free buffer reads whole |
| Text.StrncpyWhole | interpreter_command_line.c:632-634 | `strncpy` of a whole NUL-free source copies it unchanged |
| Text.DecRoundTrip | interpreter_command_line.c:173-174 | the decimal numeral `%d`/`%lu` print reads back as the same number |
| Text.LexTotal | interpreter_queue.c:167 | `strcmp` order is total: of two different strings one sorts first |
| Text.LexTrans | interpreter_queue.c:167 | `strcmp` order is transitive |
| LineEditor.Fresh | interpreter_command_line.c:388-399 | the editor starts on a zeroed buffer: empty line, cursor 0, history index 0, empty C string |
| LineEditor.Insert | interpreter_command_line.c:181-199 | below the limit the byte goes in at the cursor, the rest shifts right, and cursor and length grow by one, with the NUL kept after the line; at `g_max_line` nothing changes |
| LineEditor.Backspace | interpreter_command_line.c:219-229 | with the cursor past 0 the byte before it is removed and cursor and length drop by one; at column 0 only the bell rings |
| LineEditor.Delete | interpreter_command_line.c:231-242 | only for `0 < pos < len` is the byte under the cursor removed; otherwise nothing changes; the bell rings at column 0 or when the cursor ends at the end |
| LineEditor.MoveLeft | interpreter_command_line.c:201-208 | moves one left inside the line, otherwise rings the bell and changes nothing |
| LineEditor.MoveRight | interpreter_command_line.c:210-217 | moves one right inside the line, otherwise rings the bell and changes nothing |
| LineEditor.MoveHome | interpreter_command_line.c:244-249 | sets the cursor to 0, redrawing only when it moved |
| LineEditor.MoveEnd | interpreter_command_line.c:251-256 | moves the cursor to the end only when it is not at column 0 |
| LineEditor.ComputeWindow | interpreter_command_line.c:146-161 | the shown window contains the cursor, fits beside the prompt (`plen + pos' < col`, `plen + len' <= col`), starts as far left as it can, and shows as much of the line as fits |
| LineEditor.RefreshShowsWindow | interpreter_command_line.c:146-178 | the redraw bytes are CR, the prompt, exactly the window's slice of the line, ECMA-48 EL (`ESC[0K`), CR and CUF to the cursor column (`ESC[nC`) |
| LineEditor.InsertBackspace | interpreter_command_line.c:181-229 | inserting a byte and then pressing Backspace restores the line and the cursor |
| LineEditor.TypeAllAppends | interpreter_command_line.c:181-199 | typing bytes with the cursor at the end appends them to the line |
| LineEditor.TypeThenErase | interpreter_command_line.c:181-229 | typing n bytes at the end and then pressing Backspace n times gives back the line |
| KeyDecoder.DecodeKey | interpreter_command_line.c:403-481 | a non-control byte is inserted as itself; input that ends inside an escape sequence is undecided; at most four bytes are used |
| KeyDecoder.DecodeKeyBytes | interpreter_command_line.c:403-481 | each key decodes from the bytes a terminal sends for it (Ctrl-B/C/F, Tab, Enter, Backspace, `ESC [ A/B/H/F`, `ESC [ 3 ~`, one unbound `ESC [` sequence and one other escape), using exactly those bytes whatever follows |
| KeyDecoder.OtherEscapes | interpreter_command_line.c:426-478 | `ESC [ C` and `ESC [ D` move right and left, `ESC O H` and `ESC O F` are Home and End; every other `ESC [ x`, `ESC O x` or `ESC [ digit x` is consumed without effect, and ESC before any byte other than `[` or `O` consumes three bytes |
| KeyDecoder.DecodeAllRoundTrip | interpreter_command_line.c:403-481 | decoding the encoding of a list of keys gives back that list, with nothing left over |
| History.AddHistory | interpreter_command_line.c:521-555 | refused, with no change, exactly when the command equals the newest entry; otherwise the command becomes the newest entry, and at 200 entries the oldest is dropped |
| History.AddKeepsWellFormed | interpreter_command_line.c:521-555 | adding keeps the history at no more than 200 entries, with no two adjacent entries equal |
| History.AddTwiceRefused | interpreter_command_line.c:532-536 | adding the same command twice in a row refuses the second time and leaves the history as after the first |
| History.AddAllDistinct | interpreter_command_line.c:544-553 | adding distinct commands keeps the newest 200 of all of them, in order |
| History.EvictsOldest | interpreter_command_line.c:544-553 | after 201 distinct commands the history holds 200 entries and the first command is gone |
| History.AddHistoryAsWritten | interpreter_command_line.c:521-555 | as written, a refused repeat changes nothing; an accepted command becomes the newest slot; the buffer of the last slot is sized, when first allocated, for the command stored there; on a full table the copy writes past that buffer exactly when the new command is longer than it allows |
| History.FillsFullTable | interpreter_command_line.c:534-555 | entering distinct commands until the table is full stores each in its own slot, in order, and leaves the last buffer sized for the 200th command |
| History.AsWrittenLosesNewest | interpreter_command_line.c:545-553 | on 200 distinct entries, the eviction as written overflows the reused buffer exactly when the new command is longer than the newest entry, and otherwise loses that entry, which the intended eviction keeps |
| History.AsWrittenRepeatsAdjacent | interpreter_command_line.c:521-555 | as written, entering the second newest of 200 distinct entries again overflows when it is longer than the newest, and otherwise leaves it in the last two slots; the intended eviction leaves no such repeat |
| History.AsWrittenOverflows | interpreter_command_line.c:551-552 | with "a" as the newest of 200 entries, the command "abc" is written past the two-byte buffer |
| History.SaveHistory | interpreter_command_line.c:559-573 | the file starts with the oldest entry and a newline, and the rest of it is the save of the other entries: each entry followed by a newline, in order |
| History.CutLine | interpreter_command_line.c:592-597 | a line read back ends at its first CR, or else at its first LF |
| History.LoadHistory | interpreter_command_line.c:585-602 | false, with the history untouched, exactly when the file cannot be opened |
| History.SaveLoadRoundTrip | interpreter_command_line.c:559-602 | loading a saved history into an empty one gives back the same entries, when entries are shorter than `g_max_line` and have no CR or LF |
| History.Navigate | interpreter_command_line.c:605-640 | with no history only the bell rings; the index stays in range; a redrawn index k > 0 shows entry n - k (never entry 0) with the cursor at its end; Down back to index 0 empties the line |
| History.UpWalksBack | interpreter_command_line.c:621-636 | from a fresh line, k presses of Up show the k-th newest entry, for 1 <= k < n |
| History.UpPastOldest | interpreter_command_line.c:622-628 | the n-th press of Up rings the bell with no redraw and sets length and cursor to 0, index n - 1; the buffer keeps its bytes, so the oldest entry shown, `g_history[1]`, is still at its front |
| EditSession.EditingKey | interpreter_command_line.c:403-481 | in the main loop, exactly Ctrl-C and Enter end the read: Enter returns the buffer's C string and Ctrl-C returns NULL; Tab starts a completion walk |
| EditSession.ShowingKey | interpreter_command_line.c:273-367 | while a candidate is shown, only Enter ends the read, returning the candidate line cut at its length, as the terminator written at 296-301 cuts it; Ctrl-C returns to editing; Tab resumes the walk one command further on |
| EditSession.ScanStep | interpreter_command_line.c:265-373 | one turn of the walk either skips a command, shows a candidate extending the typed line, or ends at the table's end with the line redrawn and the pointer back at the head |
| EditSession.EditLine | interpreter_command_line.c:380-482 | the reader writes the prompt first; an accepted line is a C string of at most `g_max_line` bytes |
| EditSession.TypedLineAccepted | interpreter_command_line.c:403-478 | typing non-control, non-NUL bytes and pressing Enter returns exactly those bytes |
| EditSession.CancelDiscards | interpreter_command_line.c:410-413 | whatever was edited before, Ctrl-C in the editor ends the read with NULL |
| EditSession.FirstMatch | interpreter_command_line.c:265-267 | the first command at or after the scan pointer whose name starts with the typed line; every command skipped does not |
| EditSession.TabEnterAccepts | interpreter_command_line.c:258-374 | on a line starting with a letter, Tab then Enter returns the first matching command from the scan pointer on, and leaves the pointer on it |
| EditSession.TabNoMatch | interpreter_command_line.c:262-287 | Tab with no match, or on a line not starting with a letter, only redraws the line and sends the scan pointer to the head |
| EditSession.TabCycles | interpreter_command_line.c:293-369 | while a candidate is shown, Tab resumes the walk from the next command |
| EditSession.TabExhausts | interpreter_command_line.c:265-373 | when the walk runs off the table, the line is redrawn at its typed length and the pointer returns to the head |
| EditSession.ExhaustedKeepsCandidate | interpreter_command_line.c:263-374 | after the walk runs off the table, the shared buffer still holds the last candidate, so Enter returns it |
| Console.TrimSpace | interpreter_console.c:113-153 | NULL for NULL; "" for an all-space string; otherwise a copy without the leading and trailing `isspace` runs; the caller's buffer is cut after the last non-space byte |
| Console.TrimIdempotent | interpreter_console.c:113-153 | trimming a trimmed string changes nothing |
| Console.TrimNewLine | interpreter_console.c:155-167 | the result has no newline and is a prefix of the input, ending where the input has its first newline; without a newline the input is returned whole |
| Console.TrimNewLineIdempotent | interpreter_console.c:155-167 | cutting at the newline twice is cutting once |
| Console.Tokens | interpreter_console.c:174-207 | the tokens `strtok` with " " finds are non-empty and hold no space |
| Console.SplitCmd | interpreter_console.c:174-207 | argv holds the first min(k, 8) tokens in order, argc counts them (1 when there are none), and later tokens keep their first line only, except after "server"/"client" |
| Console.TokensOfJoin | interpreter_console.c:174-207 | words joined by single spaces split back into the same words |
| Console.SplitJoin | interpreter_console.c:174-207 | splitting words joined by spaces gives argc = min(k, 8) and exactly those first words |
| Console.AddCmd | interpreter_console.c:560-607 | refused, with no change, when any argument is NULL; otherwise the command is appended last and the table before it is kept |
| Console.RegisterAllAppends | interpreter_console.c:560-607 | registering commands one by one leaves them in registration order |
| Console.ConsoleInit | interpreter_console.c:39-108 | succeeds exactly when the history file loads; the table is then the built-in commands in order, and the history is what the file loads |
| Console.Dispatch | interpreter_console.c:699-701 | the first registered command whose name starts with `argv[0]`; None exactly when no name does |
| Console.DispatchFirst | interpreter_console.c:699-701 | dispatch is determined by its contract: a command with the prefix, no earlier one having it, is the one chosen |
| Console.DispatchS | interpreter_console.c:43-100 | with the built-in table, "s" runs size |
| Console.DispatchSe | interpreter_console.c:43-100 | with the built-in table, "se" runs server |
| Console.DispatchR | interpreter_console.c:43-100 | with the built-in table, "r" runs rh |
| Console.DispatchUnknown | interpreter_console.c:711-721 | a word no name starts with runs nothing |
| Console.Lookup | interpreter_console.c:695-701 | the call made for a trimmed line: none exactly when no registered name starts with `argv[0]`, otherwise the first such command, given SplitCmd's `argc` and `argv` |
| Console.ConsoleStep | interpreter_console.c:642-724 | a missing line ends the run (true only at end of file in file mode); blank or `#` lines are skipped unrecorded; only interactive lines are recorded and saved; a saved file is the history after the step; a call happens only once the line reaches the command list walk (always in file mode, in interactive mode after it is recorded and saved), and then the call is the one Lookup finds for the trimmed line; an interactive command ends the run only when it is quit; quit ends the run with true in either mode |
| Console.InteractiveRecords | interpreter_console.c:680-694 | an interactive line that is not a repeat becomes the newest history entry before dispatch |
| Console.RepeatEndsRun | interpreter_console.c:683-687 | an interactive line equal to the newest entry ends the run with false and the history unchanged |
| Console.Accept | interpreter_console.c:680-721 | for a trimmed line: in interactive mode the history becomes AddHistory's, a refused repeat or a failed save ends the run with false and nothing saved or called, and otherwise the file is rewritten with the new history; in file mode the history is untouched and the run ends with the handler's result, or false when nothing is called; once the walk is reached the call is the one Lookup finds |
| Console.FileModeEnds | interpreter_console.c:699-721 | in file mode the first line that is not blank or a comment ends the run, with the handler's result (true for quit) when a registered name starts with its first word, and with false, running nothing, exactly when none does |
| Console.FileModeUnknownFails | interpreter_console.c:711-721 | the script line "x" against the built-in commands runs nothing and ends the run with false |
| Console.FileModeRunsSize | interpreter_console.c:695-710 | the script line "s 3" runs size with `argc` 2 and `argv` ["s", "3"] and ends the run with size's result |
| Console.QuitFreesTwice | interpreter_console.c:544-556 | as written, a turn that runs the quit handler frees the command list twice: once in the handler, again in the `QuitOperation` call on the way out (702-708 in file mode, 725 interactively) |
| Console.FixedFreesOnce | interpreter_console.c:544-556 | with `g_cmd_list` reset after the free, a turn frees the list exactly when it ends the run, and then once; quit ends it with true |
| Console.DispatchQuit | interpreter_console.c:43-100 | with the built-in table, "quit" runs the quit handler |
| Console.RunKeepsWellFormed | interpreter_console.c:642-724 | with the intended eviction, every history a run builds stays bounded with no adjacent repeats; file mode never changes it |
| Console.RandomString | interpreter_console.c:303-326 | the string has 5 to 10 bytes, all in 'a'..'z' |
| Console.RandomStringReaches | interpreter_console.c:303-326 | every such string is produced by some `rand()` results |
| Lists.Rev | interpreter_queue.c:134-152 | the reference reversal: element i is the input's element n - 1 - i |
| Lists.RevRev | interpreter_queue.c:134-152 | reversing twice gives the list back |
| Lists.ReverseNodes | interpreter_queue.c:139-151 | the pointer-reversal loop computes the reference reversal |
| Lists.Merge | interpreter_queue.c:155-176 | the merge is a permutation of both inputs, and ascending when both are |
| Lists.Sort | interpreter_queue.c:178-193 | the merge sort is an ascending permutation of its input |
| Lists.SortIsTheSortedPermutation | interpreter_queue.c:178-193 | the sort equals any ascending rearrangement of its input, so sorting a sorted list changes nothing |
| Queue.QueueNew | interpreter_queue.c:5-16 | an empty queue with NULL tail and size 0 |
| Queue.InsertHead | interpreter_queue.c:37-72 | false, with no change, exactly for a NULL queue or string; otherwise the string is first and the invariant holds |
| Queue.InsertTail | interpreter_queue.c:74-108 | false, with no change, exactly for a NULL queue or string; otherwise the string is last and the invariant holds |
| Queue.RemoveHead | interpreter_queue.c:110-125 | false, with no change, exactly for a NULL or empty queue; otherwise the first element is gone, and the tail is NULL once the queue is empty |
| Queue.Size | interpreter_queue.c:127-132 | 0 for NULL, otherwise the element count |
| Queue.Reverse | interpreter_queue.c:134-152 | the elements in reverse order, with the invariant kept |
| Queue.Sort | interpreter_queue.c:195-206 | an ascending permutation, with the tail on the last node |
| Queue.InsertHeadThenRemove | interpreter_queue.c:37-125 | removing the head just inserted restores the queue exactly, tail included |
| Queue.TailAndHeadCommute | interpreter_queue.c:74-125 | on a non-empty queue, appending and removing the head commute (first in, first out) |
| Queue.ReverseTwice | interpreter_queue.c:134-152 | reversing twice restores the queue |
| Queue.SortTwice | interpreter_queue.c:195-206 | sorting is idempotent |
| Queue.SortSorted | interpreter_queue.c:195-206 | a valid queue already in ascending order is left exactly as it is, tail included |
| LegacyQueue.New | queue.c:8-19 | an empty queue in the shape every operation keeps |
| LegacyQueue.InsertHead | queue.c:44-78 | false exactly for a NULL queue; otherwise the string is first, and a valid queue stays valid |
| LegacyQueue.InsertTail | queue.c:83-117 | writes through a freed tail exactly when the tail is stale; otherwise false only for NULL, and on success the string is appended last and the queue is valid |
| LegacyQueue.Size | queue.c:142-148 | 0 for NULL, otherwise the element count |
| LegacyQueue.Reverse | queue.c:151-170 | on a non-empty queue with a stale tail it returns with the head on the freed node, keeping the counter, the tail on the old first node and the reversed nodes unreachable from the head; otherwise the elements are reversed and a valid queue stays valid |
| LegacyQueue.Sort | queue.c:174-228 | an ascending permutation; valid once non-empty, since the tail is found by walking |
| LegacyQueue.RemoveHead | queue.c:122-138 | false only when empty; otherwise the first element is gone, and removing the last element leaves the tail on the freed node |
| LegacyQueue.CopyOutKeepsStaleByte | queue.c:129-132 | the copy-out as written leaves the caller's byte at `bufsize - 2`, so "abc" into "zzz" with bufsize 3 reads "az" |
| LegacyQueue.CopyOutFixed | queue.c:129-132 | the intended copy-out reads back as the first `bufsize - 1` bytes of the value |
| LegacyQueue.RemoveHeadFixed | queue.c:122-138 | the corrected removal keeps the queue valid and hands out the intended copy |
| LegacyQueue.StaleTailFaults | queue.c:44-138 | insert at the head, remove it, then insert at the tail: the last step writes through freed memory |
| LegacyQueue.StaleTailReverseLosesHead | queue.c:122-170 | insert at the head, remove it, insert two more, then reverse: the head is left on the freed node |
| LegacyQueue.FixedTailAppends | queue.c:44-138 | with the tail reset the same steps give the one-element queue |
| LegacyQueue.FixedStaysValid | queue.c:44-170 | from a valid queue every corrected operation gives a valid queue |
| Rio.RioReadInit | interpreter_rio.c:60-64 | nothing buffered and the buffer pointer at the start |
| Rio.RioRead | interpreter_rio.c:33-58 | a non-empty buffer is used without calling `read()`, giving min(num, rio_cnt) bytes; an empty one is refilled, retrying on EINTR; 0 at end of file and -1 on error carry no bytes; bytes taken plus what remains is the stream before |
| Rio.ReadLine | interpreter_rio.c:66-89 | at most max_len - 1 bytes are stored, a newline only as the last of them; the stored bytes followed by what is still to come are the whole stream; the counter is one past the stored bytes unless the last is a newline |
| Rio.ReadLineReadsLine | interpreter_rio.c:66-89 | when every read delivers data and the first newline ahead is at offset k, the call succeeds and stores the stream up to and including that newline, or its first max_len - 1 bytes when the line is longer |
| Rio.ReadsNextByte | interpreter_rio.c:33-58 | a one-byte read while data lies ahead hands out the next byte of the stream and leaves the rest of it ahead |
| Rio.LinePrefix | interpreter_rio.c:71-86 | a newline is stored only as the last byte of the line |
| Rio.FixedRetIsStored | interpreter_rio.c:71-88 | the corrected return value is the stored count on every line |
| Rio.RetOverCountsAtEof | interpreter_rio.c:77-88 | "a" then end of file stores one byte and returns 2 as written, 1 corrected |
| Rio.RetOverCountsWhenFull | interpreter_rio.c:71-88 | with max_len 2, "ab" stores one byte and returns 2 as written, 1 corrected |
| Rio.ReadLines | interpreter_rio.c:66-89 | lines from successive calls, then what is still buffered and to come, make up the whole stream |
| Rio.LinesArePrefix | interpreter_rio.c:33-89 | the lines delivered so far are a prefix of the stream |
| Rio.WriteFrom | interpreter_rio.c:6-24 | the write loop returns the length with everything sent, or -1 with something unsent |
| Rio.WriteNum | interpreter_rio.c:6-24 | the method's loop computes the reference write loop; a result other than -1 is the full length, all sent |
| Rio.InterruptIsRetried | interpreter_rio.c:12-15 | an EINTR failure in front changes nothing but the number of calls |
| HttpServer.Wrap | interpreter_server.c:155-158 | an `unsigned long` result is the exact value reduced modulo 2^64 |
| HttpServer.RequestTarget | interpreter_server.c:149 | the second `%s` word of the request line: non-empty, without white space |
| HttpServer.TargetOfRequestLine | interpreter_server.c:149 | the request target of "METHOD TARGET ..." is TARGET |
| HttpServer.MapUri | interpreter_server.c:161-176 | a target without a leading '/' is used whole; "/" is "."; otherwise the '/' is dropped and the name is cut at the first '?' |
| HttpServer.MapUriOfPath | interpreter_server.c:161-176 | "/" followed by a path without '?' maps to the path |
| HttpServer.MapUriDropsQuery | interpreter_server.c:169-174 | "/a?b" names "a"; "/?x" names the empty file |
| HttpServer.ScanULongOfDec | interpreter_server.c:154 | `%lu` reads a decimal numeral followed by a non-digit as its value |
| HttpServer.ScanRange | interpreter_server.c:154 | only a line starting "Range:" can change the range; offset and end stay in `unsigned long` |
| HttpServer.RangeRoundTrip | interpreter_server.c:153-159 | "Range: bytes=a-b" sets offset a and exclusive end b + 1, for b + 1 below 2^64; b = 0 leaves end 0, which later means the file's end |
| HttpServer.OpenRange | interpreter_server.c:153-159 | "Range: bytes=a-" sets the offset; an end of 0 stays 0, and any other earlier end goes up by one, modulo 2^64 |
| HttpServer.ReadHeaders | interpreter_server.c:150-160 | the loop as written stops only on a buffer whose byte 0 or 1 is '\n' |
| HttpServer.HeadersEndAtFirstBlankLine | interpreter_server.c:150-160 | while lines arrive, the loop reads exactly up to the first line that ends the headers |
| HttpServer.EndOfStreamNeverEndsHeaders | interpreter_server.c:150-152 | a stream that ends before the empty line keeps the loop reading, however many reads follow |
| HttpServer.TruncatedRequestSpins | interpreter_server.c:147-152 | "GET / HTTP/1.1" followed by end of file never leaves the header loop |
| HttpServer.FixedEndsAtEndOfStream | interpreter_server.c:150-160 | the corrected loop ends at the first read that returns 0 or -1 |
| HttpServer.FixedAgreesOnLines | interpreter_server.c:150-160 | while every read delivers a line, the corrected loop equals the loop as written |
| HttpServer.ParseRequest | interpreter_server.c:136-188 | with the header loop as written: never gives up for want of a request; never finished when only end-of-file reads follow a first read that leaves no newline at byte 0 or 1 of the buffer (for a line: one that is not the empty line), whatever that first read returned; once finished, no target exactly when the request line has no second word, otherwise the file name is the mapped target and the range is in `unsigned long` |
| HttpServer.ParseRequestFixed | interpreter_server.c:136-188 | corrected: gives up with no request exactly when the first read returns 0 or -1; finished once any later read returns 0 or -1, with the same target and name statements |
| HttpServer.ClosedBeforeRequestLine | interpreter_server.c:147-160 | a connection closed before the request line leaves the parse as written reading the buffer's earlier contents for ever, unless they hold a newline at byte 0 or 1; corrected, the parse gives up at once |
| HttpServer.ParseFixedAgrees | interpreter_server.c:136-188 | while every read delivers a line, the corrected parse equals the parse as written; a first read that is not a line is where they part |
| HttpServer.TruncatedRequestNeverParses | interpreter_server.c:136-160 | "GET / HTTP/1.1" followed only by end of file is never parsed as written; corrected, the first such read serves "." with no range |
| HttpServer.ParsesRangeRequest | interpreter_server.c:136-188 | a request line, a "Ran" header and the empty line give the mapped target and that header's range |
| HttpServer.ParseHeadOf | interpreter_server.c:190-215 | a status line, header fields and the empty line split back into code, reason, fields and body |
| HttpServer.ErrorIsFramed | interpreter_server.c:190-197 | an error response splits into its status and reason, one Content-length field equal to the body's length, and the body |
| HttpServer.FileHeadFramed | interpreter_server.c:199-215 | the file head splits into 206 "Partial" with Content-Range for a positive offset, else 200 "OK" with Accept-Ranges, then Cache-Control, Content-length and Content-type |
| HttpServer.AsWrittenOverstates | interpreter_server.c:205-212 | as written, Content-Range names the exclusive end, announcing one byte more than Content-length |
| HttpServer.FileHeadFixedFramed | interpreter_server.c:199-215 | the corrected head splits the same way, with the last byte position in Content-Range |
| HttpServer.FixedRangeMatchesLength | interpreter_server.c:205-212 | in the corrected head, Content-Range covers exactly Content-length bytes |
| HttpServer.ListedEntries | interpreter_server.c:245-285 | the entries that get a row, in order: not "." or "..", opened, and a regular file or a directory |
| HttpServer.RowPerListedEntry | interpreter_server.c:245-285 | the listing has one row per listed entry, in directory order |
| HttpServer.ListingIsFramed | interpreter_server.c:227-289 | a listing splits into a 200 head with one Content-Type field and the HTML page |
| HttpServer.Respond | interpreter_server.c:291-324 | 404 "Not found" when the name cannot be opened; 400 "Error" for a special file; a listing for a directory; for a regular file 206 when the offset is positive, else 200, with the head as written, whose end defaults to the size |
| HttpServer.RespondFixed | interpreter_server.c:291-324 | the same status and text except that a regular file gets the corrected head; every other response is unchanged |
| HttpServer.RespondFixedDiffers | interpreter_server.c:199-215 | a whole-file response is the same either way; a partial one has the same code and field count and differs only in the Content-Range field |
| HttpServer.StatusIsSent | interpreter_server.c:291-324 | the status Process records is the one its response carries, as written and corrected |
| HttpClient.IsDir | client/interpreter_client.c:104-118 | false for NULL; on a non-empty path, true exactly when it ends in '/' |
| HttpClient.WithSlashOnce | client/interpreter_client.c:121-143 | appending the '/' is idempotent, and adds nothing exactly when the name ends in '/' |
| HttpClient.GetFile | client/interpreter_client.c:83-101 | nothing is sent for NULL or a failed connection; otherwise "GET name HTTP/1.1" and an empty line |
| HttpClient.GetDir | client/interpreter_client.c:121-143 | like GetFile, for the name with a '/' appended when missing; the name keeps its bytes as a prefix |
| HttpClient.GetDirIn | client/interpreter_client.c:121-143 | on a caller buffer of `cap` bytes: the write goes past the end only for a name without its '/' in a buffer with no spare byte; otherwise the same request as GetDir, and the name with its '/' fits |
| HttpClient.RunClientBufferOverflows | client/interpreter_client.c:136-138 | the `-d` buffer RunClient allocates (519-521) has no spare byte, so GetDir writes past it for every name not ending in '/', "dir" among them |
| HttpClient.RoomForSlash | client/interpreter_client.c:136-138 | with one spare byte the write stays inside the buffer and sends the request GetDir describes |
| HttpClient.ServerReadsRequest | client/interpreter_client.c:83-101 | the server parses the client's request back into the requested name, with no range |
| HttpClient.GetName | client/interpreter_client.c:215-239 | None unless the line starts with the row prefix; otherwise the bytes from offset 17 up to the next '"', at most `g_buf_max_size` of them |
| HttpClient.GetNameOfRow | client/interpreter_client.c:215-239 | on a listing row GetName returns the linked name, and IsDir of it is true exactly for a directory |
| HttpClient.ListingRoundTrip | client/interpreter_client.c:356-360 | reading a listing's rows gives back, in order, the linked name of each listed entry |
| HttpClient.PageLinesHaveNoName | client/interpreter_client.c:215-239 | the listing's head and tail lines carry no name |
| HttpClient.CompletePath | client/interpreter_client.c:245-265 | NULL exactly when either part is; otherwise the directory followed by the file name, with no separator added |
| HttpClient.CompletePathAfterGetDir | client/interpreter_client.c:245-265 | after GetDir's slash the path is the directory, one '/', then the name; a directory without the slash is followed directly by the name's first byte |
| HttpClient.AddNameToList | client/interpreter_client.c:281-298 | false, with no change, for a NULL list, NULL name or empty name; otherwise the name is in slot `idx` and no other slot changes |
| HttpClient.FilledListReadsBack | client/interpreter_client.c:281-298 | filling an all-NULL list from slot 0 and walking it to the first NULL gives the names back |

## Left out

- Terminal control is left out: raw mode, `GetColumns`, `CmdLineRaw`, `CmdLineNoTTY` and `CmdLine`. The width and the input bytes are parameters, and the bell is an output event.
- LineEditor.Refresh: requires the terminal to be wider than the prompt. At width 0 the first loop of `Refresh` never fails its test and moves the start without end. At a width from 1 to the prompt length the `size_t` cursor counter wraps below zero before the loop stops; the start then lies past the cursor, and with the cursor at the end of the line the wrapped length makes the append read past the buffer. Neither is behaviour worth a model.
- KeyDecoder.DecodeKey: `read()` failures are not modelled. Input that ends inside an escape sequence leaves the key undecided, because the source would block waiting for the next byte.
- Allocation is taken to succeed everywhere. The `malloc` failure branches of `AddHistoryCmd`, `CmdLineEdit`, `TrimSpace`, the queues, `AddCmd` and the client are not modelled.
- `int` counters are unbounded. History and queue sizes never approach `INT_MAX`.
- File contents are strings. `fopen`, `fgets`, `fprintf`, `umask` and file permissions are not modelled; an unopenable file is None.
- Console.ConsoleStep: recording a line uses the intended eviction, History.AddHistory; the program evicts as History.AddHistoryAsWritten does (see the first row of Findings). A turn does not record memory releases. ListFrees counts the frees of the command list as written (QuitFreesTwice) and ListFreesFixed counts them with the pointer reset (FixedFreesOnce). Handler results are inputs, and whether saving the history file succeeds is an input. The queue command handlers, `HelpOperation`, `QueueShowOperation`, `ServerOperation`, `ClientOperation` and the body of `QuitOperation` other than its list free are left out: they are printing glue, processes and signals. After an interactive quit, line 726 calls `fclose` on `input_file_ptr`, which is still NULL in interactive mode; that call is not modelled.
- History.AddHistoryAsWritten: the table array is allocated with 201 slots and line 529 clears only the first 200, so the test of `g_history[200]` at 537 on a full history reads an uninitialised pointer; the model takes that slot to be unused, and does not model the buffer line 538 may allocate for it, which is never freed. Failures of `malloc` are not modelled.
- Console.RunKeepsWellFormed: holds with the intended eviction (History.AddHistory) only. The program evicts as History.AddHistoryAsWritten does, which can leave the same command in the last two slots (History.AsWrittenRepeatsAdjacent) and loses the previous newest entry (History.AsWrittenLosesNewest).
- Console.ConsoleInit: the history file is loaded with the intended eviction; a file of more than 200 lines evicts, in the program, as History.AddHistoryAsWritten does.
- History.LoadHistory: each line is added with the intended eviction, History.AddHistory, not the eviction as written.
- Console.FileModeEnds: states the run's result only. The second free of the command list after a dispatched quit (the `QuitOperation` call at 707) is stated by Console.QuitFreesTwice.
- Console.RandomString: the successive `rand()` results are a parameter, and `srand(time(NULL))` is left out.
- `QueueFree`, `q_free` and `FreeHistory` only release memory.
- `%lu` scanning follows `strtoul`: leading white space, an optional sign, saturation at 2^64 - 1 and negation of a `-` numeral modulo 2^64. Locale-specific numerals are not modelled.
- HttpServer.ParseRequest: the source never returns from a header loop that has hit end of file; the model reports that as Incomplete once the reads given run out. A first read that returns 0 leaves the buffer with its earlier contents, which are a parameter, since the source never initialises them. An uninitialised `uri` (no second word on the request line) is modelled as NoTarget. A failed `malloc` of the name is not modelled.
- HttpServer.Respond: `open` returning descriptor 0 counts as a failure, as written. The `sendfile` body transfer and `close` are not modelled.
- `FormatSize` (floating point) and `strftime` are left out. The size and time strings of a listing row are fields of the directory entry.
- HttpClient.IsDir: on an empty path the source decrements the pointer before the string and reads `path[-1]` (client/interpreter_client.c:114), which is undefined; the model answers false there and promises nothing about that byte.
- HttpClient.GetDir: assumes the caller's buffer has a byte to spare for the '/'. GetDirIn models the buffer size and the write past its end.
- HttpClient.GetName: a row prefix with no '"' after offset 17 makes the C scan run past the buffer. This is modelled as None, and the 16-byte compare skipping 17 bytes is kept.
- Sockets and transfers are left out: `ServerSocketToListen`, `ConnectToServer`, `DownloadFile`, `DownloadDir`'s loops, `BuildDir`, `RunServer`, `RunClient` and the signal handlers. A failed connection is the descriptor -1.
- `DoubleSize` is left out: it takes `sizeof` of a pointer and inverts its own success check, so it has no usable contract.
- Logging (`ShowMsg`, log files) and the `errno` bookkeeping beyond EINTR are left out.

## Findings

| source | as written | input that shows it | evidently intended | confidence | as-written member | corrected member |
|---|---|---|---|---|---|---|
| interpreter_command_line.c:545-553 | `memmove` moves `g_history_max_len - 1` = 199 bytes, not 199 pointers, and the new command is copied over the previous newest entry's buffer, which was allocated for that entry and overflows when the new command is longer | a full history of 200 distinct entries, then one more distinct command (newest entry "a", new command "abc" for the overflow) | drop the oldest entry and keep the other 199 in order, as the comment at 546 says | not executed | History.AsWrittenLosesNewest | History.AddHistory |
| queue.c:122-138 | removing the last element leaves `tail` on the freed node | `q_insert_head(q, "a")`, `q_remove_head`, then `q_insert_tail(q, "b")` writes through freed memory | reset `tail` to NULL once the queue is empty, as interpreter_queue.c:121-123 does | not executed | LegacyQueue.StaleTailFaults | LegacyQueue.FixedTailAppends |
| queue.c:129-132 | `strncpy(sp, value, bufsize - 2)` then `sp[bufsize - 1] = '\0'` leaves byte `bufsize - 2` as the caller had it | value "abc", buffer "zzz", bufsize 3 reads back "az" | copy at most `bufsize - 1` bytes and terminate, giving "ab" | not executed | LegacyQueue.CopyOutKeepsStaleByte | LegacyQueue.RemoveHeadFixed |
| interpreter_rio.c:71-88 | returns the loop counter, one more than the bytes stored when the line is cut by end of file or by `max_len` | "a" then end of file returns 2 after storing 1 byte; max_len 2 on "ab" returns 2 after storing 1 | return the number of bytes read, as interpreter_rio.h:25-28 states | not executed | Rio.RetOverCountsAtEof | Rio.FixedRetIsStored |
| interpreter_server.c:205-212 | Content-Range names `end`, the exclusive end | "Range: bytes=1-5" on a 10-byte file sends "Content-Range: bytes 1-6/10" with "Content-length: 5" | the last byte position, "bytes 1-5/10", as section 4.2 of RFC 7233 defines | not executed | HttpServer.AsWrittenOverstates | HttpServer.FixedRangeMatchesLength |
| interpreter_server.c:150-152 | at end of file `RioReadLine` returns 0 and leaves the buffer as it was, so the header loop never stops | a client that sends "GET / HTTP/1.1\r\n" and closes | end the headers when a read returns 0 or -1 | not executed | HttpServer.TruncatedRequestSpins | HttpServer.FixedEndsAtEndOfStream |
| interpreter_server.c:148-151 | the first `RioReadLine` result is not checked: `sscanf` and the header loop run on whatever the buffer held before | a client that connects and closes without sending, while the buffer's earlier contents have no newline at byte 0 or 1 | give up on the request when the first read returns 0 or -1 | not executed | HttpServer.ClosedBeforeRequestLine | HttpServer.ParseRequestFixed |
| interpreter_console.c:544-556 | `QuitOperation` frees `g_cmd_list` without resetting it, and `RunConsole` calls `QuitOperation` again on every return | the line "quit", interactive or in file mode | free the list once, resetting the pointer after the free | not executed | Console.QuitFreesTwice | Console.FixedFreesOnce |
| client/interpreter_client.c:136-138 | `strcat(dir_name, "/")` writes into the `-d` buffer RunClient sized `strlen + 1` at 519-521 | `-d dir` on a connected socket writes the terminator one byte past the 4-byte buffer | allocate one more byte for the '/' | not executed | HttpClient.RunClientBufferOverflows | HttpClient.RoomForSlash |

=== FILE: console.dfy ===
/** Console line processing (interpreter_console.c): trimming, the
    tokeniser, the command registry and prefix dispatch, one turn of the
    RunConsole loop, and the random string generator. Handler effects
    (queue printing, server and client processes) are outside the model: a
    turn reports which handler it calls, and the handler's result is an
    input. */
module Console {
  import opened Text
  import opened History

  // -----------------------------------------------------------------------
  // TrimSpace and TrimNewLine

  /** The backwards walk of TrimSpace: from the last byte down to `a`,
      stopping at the first byte that is not isspace. */
  function LastNonSpace(s: string, a: nat): (e: nat)
    requires a < |s| && !IsSpace(s[a])
    ensures a <= e < |s| && !IsSpace(s[e])
    ensures forall i :: e < i < |s| ==> IsSpace(s[i])
    decreases |s|
  {
    if |s| - 1 > a && IsSpace(s[|s| - 1]) then LastNonSpace(s[..|s| - 1], a) else |s| - 1
  }

  /** The copy TrimSpace returns, and the caller's buffer afterwards (a
      terminator is written right after the last non-space byte). */
  datatype Trimmed = Trimmed(copy: string, buf: string)

  /** TrimSpace on a C string (None is NULL). */
  function TrimSpace(s: Option<string>): (r: Option<Trimmed>)
    requires s.Some? ==> NoNul(s.value)
    ensures r.None? <==> s.None?
    ensures r.Some? ==> Trims(s.value, r.value)
    ensures r.Some? && AllSpace(s.value) ==> r.value.copy == [] && r.value.buf == s.value
  {
    match s
    case None => None
    case Some(str) =>
      var a := LeadingSpaces(str);
      if a == |str| then
        BlankTrims(str);
        Some(Trimmed([], str))
      else
        var e := LastNonSpace(str, a);
        var buf := if e + 1 < |str| then str[..e + 1] + ['\0'] + str[e + 2..] else str;
        TrimFacts(str, a, e, buf);
        Some(Trimmed(str[a..e + 1], buf))
  }

  /** What TrimSpace promises of a copy and buffer: the copy is the string
      with its leading and trailing spaces cut, and the buffer reads, as a C
      string, the string up to the copy's end. */
  predicate Trims(str: string, r: Trimmed) {
    var t := r.copy;
    && NoNul(t) && |r.buf| == |str|
    && (|t| > 0 ==> !IsSpace(t[0]) && !IsSpace(t[|t| - 1]))
    && (exists a :: 0 <= a <= |str| - |t| && str[a..a + |t|] == t
                    && AllSpace(str[..a]) && AllSpace(str[a + |t|..]))
    && CStr(r.buf) == str[..LeadingSpaces(str) + |t|]
  }

  lemma BlankTrims(str: string)
    requires NoNul(str) && LeadingSpaces(str) == |str|
    ensures AllSpace(str) && Trims(str, Trimmed([], str))
  {
    var a := |str|;
    assert str[a..a] == [] && str[..a] == str;
    CStrOf(str + ['\0'], |str|);
    assert str[..a] == str;
    assert AllSpace(str[..a]) && AllSpace(str[a..]);
  }

  lemma TrimFacts(str: string, a: nat, e: nat, buf: string)
    requires NoNul(str) && a <= e < |str| && !IsSpace(str[e])
    requires forall i :: e < i < |str| ==> IsSpace(str[i])
    requires buf == if e + 1 < |str| then str[..e + 1] + ['\0'] + str[e + 2..] else str
    requires a == LeadingSpaces(str)
    ensures Trims(str, Trimmed(str[a..e + 1], buf))
  {
    var t := str[a..e + 1];
    SpacesAround(str, a, e);
    CopyFacts(str, a, e);
    CutBuffer(str, e, buf);
    assert AllSpace(str[..a]) && AllSpace(str[a + |t|..]);
  }

  lemma SpacesAround(str: string, a: nat, e: nat)
    requires a <= e < |str| && a == LeadingSpaces(str)
    requires forall i :: e < i < |str| ==> IsSpace(str[i])
    ensures AllSpace(str[..a]) && AllSpace(str[e + 1..])
  {
    var head := str[..a];
    forall i | 0 <= i < |head| ensures IsSpace(head[i]) {
      assert head[i] == str[i];
    }
    var tail := str[e + 1..];
    forall i | 0 <= i < |tail| ensures IsSpace(tail[i]) {
      assert tail[i] == str[e + 1 + i];
    }
  }

  lemma CopyFacts(str: string, a: nat, e: nat)
    requires NoNul(str) && a <= e < |str| && !IsSpace(str[e]) && a == LeadingSpaces(str)
    ensures var t := str[a..e + 1];
      && NoNul(t) && !IsSpace(t[0]) && !IsSpace(t[|t| - 1])
      && a + |t| == e + 1 && str[a..a + |t|] == t
  {
    var t := str[a..e + 1];
    assert t[0] == str[a] && t[|t| - 1] == str[e];
    assert forall i :: 0 <= i < |t| ==> t[i] == str[a + i];
  }

  lemma CutBuffer(str: string, e: nat, buf: string)
    requires NoNul(str) && e < |str|
    requires buf == if e + 1 < |str| then str[..e + 1] + ['\0'] + str[e + 2..] else str
    ensures |buf| == |str| && CStr(buf) == str[..e + 1]
  {
    if e + 1 < |str| {
      assert buf[..e + 1] == str[..e + 1];
      CStrOf(buf, e + 1);
    } else {
      assert str[..e + 1] == str;
    }
  }

  predicate AllSpace(s: string) {
    forall i :: 0 <= i < |s| ==> IsSpace(s[i])
  }

  /** A trimmed string trims to itself. */
  lemma TrimIdempotent(s: string)
    requires NoNul(s)
    ensures var t := TrimSpace(Some(s)).value.copy;
      TrimSpace(Some(t)).value.copy == t
  {
    var t := TrimSpace(Some(s)).value.copy;
    if |t| > 0 {
      assert LeadingSpaces(t) == 0;
      assert LastNonSpace(t, 0) == |t| - 1;
      assert t[0..|t|] == t;
    }
  }

  /** TrimNewLine: cut in place at the first newline. */
  function TrimNewLine(s: Option<string>): (r: Option<string>)
    requires s.Some? ==> NoNul(s.value)
    ensures r.None? <==> s.None?
    ensures r.Some? ==> '\n' !in r.value && StartsWith(s.value, r.value)
    ensures r.Some? && '\n' !in s.value ==> r.value == s.value
    ensures r.Some? && |r.value| < |s.value| ==> s.value[|r.value|] == '\n'
  {
    match s
    case None => None
    case Some(str) => Some(str[..IndexOf(str, '\n')])
  }

  lemma TrimNewLineIdempotent(s: string)
    requires NoNul(s)
    ensures TrimNewLine(TrimNewLine(Some(s))) == TrimNewLine(Some(s))
  {
  }

  // -----------------------------------------------------------------------
  // SplitCmd

  /** strtok(cmd, " ") repeated: the maximal runs of bytes other than ' '. */
  function Tokens(s: string): (ts: seq<string>)
    ensures forall i :: 0 <= i < |ts| ==> |ts[i]| > 0 && ' ' !in ts[i]
    ensures NoNul(s) ==> forall i :: 0 <= i < |ts| ==> NoNul(ts[i])
    decreases |s|
  {
    if |s| == 0 then []
    else if s[0] == ' ' then Tokens(s[1..])
    else
      var k := IndexOf(s, ' ');
      [s[..k]] + Tokens(s[k..])
  }

  /** args_max_num */
  const MaxArgs: nat := 8

  /** What SplitCmd returns: argc and the non-NULL entries of argv. */
  datatype Split = Split(argc: nat, argv: seq<string>)

  /** Tokens after the first keep their first line only, except on a line
      starting with "server" or "client". */
  predicate KeepsNewlines(cmd: string) {
    StartsWith(cmd, "server") || StartsWith(cmd, "client")
  }

  /** SplitCmd: argc counts the tokens found, stopping at MaxArgs; with no
      token at all it is still 1 while argv[0] is NULL. */
  function SplitCmd(cmd: string): (r: Split)
    requires NoNul(cmd)
    ensures |r.argv| == Min(|Tokens(cmd)|, MaxArgs)
    ensures r.argc == if |r.argv| == 0 then 1 else |r.argv|
    ensures |r.argv| > 0 ==> r.argv[0] == Tokens(cmd)[0]
    ensures forall i :: 0 <= i < |r.argv| ==>
              r.argv[i] == (if i == 0 || KeepsNewlines(cmd) then Tokens(cmd)[i]
                            else TrimNewLine(Some(Tokens(cmd)[i])).value)
  {
    var ts := Tokens(cmd);
    var n := Min(|ts|, MaxArgs);
    var argv := seq(n, i requires 0 <= i < n =>
                  if i == 0 || KeepsNewlines(cmd) then ts[i] else TrimNewLine(Some(ts[i])).value);
    Split(if n == 0 then 1 else n, argv)
  }

  function Min(a: nat, b: nat): nat {
    if a < b then a else b
  }

  /** Words separated by single spaces. */
  function Join(ws: seq<string>): string {
    if |ws| == 0 then [] else if |ws| == 1 then ws[0] else ws[0] + " " + Join(ws[1..])
  }

  predicate Word(w: string) {
    |w| > 0 && ' ' !in w && '\n' !in w && NoNul(w)
  }

  lemma {:induction false} TokensOfJoin(ws: seq<string>)
    requires forall i :: 0 <= i < |ws| ==> Word(ws[i])
    ensures Tokens(Join(ws)) == ws
    decreases |ws|
  {
    if |ws| == 1 {
      TokensOfWord(ws[0]);
    } else if |ws| > 1 {
      var tail := ws[1..];
      assert Join(ws) == ws[0] + " " + Join(tail);
      TokensOfWordThen(ws[0], Join(tail));
      assert forall i :: 0 <= i < |tail| ==> tail[i] == ws[i + 1];
      TokensOfJoin(tail);
      assert [ws[0]] + tail == ws;
    }
  }

  /** A word alone is one token. */
  lemma TokensOfWord(w: string)
    requires Word(w)
    ensures Tokens(w) == [w]
  {
    assert IndexOf(w, ' ') == |w|;
    assert w[..|w|] == w && w[|w|..] == [];
  }

  /** A word and a space, then more: the word is the first token. */
  lemma TokensOfWordThen(w: string, rest: string)
    requires Word(w)
    ensures Tokens(w + " " + rest) == [w] + Tokens(rest)
  {
    var s := w + " " + rest;
    assert IndexOf(s, ' ') == |w| by {
      assert s[|w|] == ' ';
      assert forall i :: 0 <= i < |w| ==> s[i] == w[i];
    }
    assert s[..|w|] == w;
    assert s[|w|..] == " " + rest;
    assert (" " + rest)[1..] == rest;
  }

  /** Splitting words joined by spaces gives back the words, cut at MaxArgs. */
  lemma SplitJoin(ws: seq<string>)
    requires forall i :: 0 <= i < |ws| ==> Word(ws[i])
    requires |ws| > 0
    ensures NoNul(Join(ws))
    ensures SplitCmd(Join(ws)) == Split(Min(|ws|, MaxArgs), ws[..Min(|ws|, MaxArgs)])
  {
    JoinNoNul(ws);
    TokensOfJoin(ws);
    var r := SplitCmd(Join(ws));
    var n := Min(|ws|, MaxArgs);
    forall i | 0 <= i < n ensures r.argv[i] == ws[i] {
      WordKeepsLine(ws[i]);
    }
    assert r.argv == ws[..n];
  }

  lemma WordKeepsLine(w: string)
    requires Word(w)
    ensures TrimNewLine(Some(w)) == Some(w)
  {
  }

  lemma {:induction false} JoinNoNul(ws: seq<string>)
    requires forall i :: 0 <= i < |ws| ==> Word(ws[i])
    ensures NoNul(Join(ws))
    decreases |ws|
  {
    if |ws| > 1 {
      JoinNoNul(ws[1..]);
      var s := ws[0] + " " + Join(ws[1..]);
      forall i | 0 <= i < |s| ensures s[i] != '\0' {
        if i > |ws[0]| {
          assert s[i] == Join(ws[1..])[i - |ws[0]| - 1];
        }
      }
    }
  }

  // -----------------------------------------------------------------------
  // The command registry

  /** The handlers, as opaque identifiers. */
  datatype Op = Help | New | Free | InsertHead | InsertTail | RemoveHead | Size
              | Reverse | Sort | Show | Server | Client | Quit

  datatype Command = Command(name: string, doc: string, op: Op)

  /** AddCmd: a NULL argument is refused; otherwise the command goes last. */
  function AddCmd(table: seq<Command>, cmd: Option<string>, doc: Option<string>, op: Option<Op>)
    : (r: (bool, seq<Command>))
    ensures r.0 <==> cmd.Some? && doc.Some? && op.Some?
    ensures !r.0 ==> r.1 == table
    ensures r.0 ==> |r.1| == |table| + 1 && r.1[..|table|] == table
                    && r.1[|table|] == Command(cmd.value, doc.value, op.value)
  {
    if cmd.None? || doc.None? || op.None? then (false, table)
    else (true, table + [Command(cmd.value, doc.value, op.value)])
  }

  /** Registers each command in order. */
  function RegisterAll(table: seq<Command>, cs: seq<Command>): (r: seq<Command>)
    decreases |cs|
  {
    if |cs| == 0 then table
    else RegisterAll(AddCmd(table, Some(cs[0].name), Some(cs[0].doc), Some(cs[0].op)).1, cs[1..])
  }

  /** Registration preserves order: the table is the commands in the order
      they were added. */
  lemma {:induction false} RegisterAllAppends(table: seq<Command>, cs: seq<Command>)
    ensures RegisterAll(table, cs) == table + cs
    decreases |cs|
  {
    if |cs| > 0 {
      RegisterAllAppends(table + [cs[0]], cs[1..]);
      assert table + [cs[0]] + cs[1..] == table + cs;
    }
  }

  /** The commands ConsoleInit registers, in its order. */
  function Builtins(): (t: seq<Command>)
    ensures |t| == |BuiltinNames|
    ensures forall i :: 0 <= i < |t| ==> t[i] == Command(BuiltinNames[i], Doc(BuiltinOps[i]), BuiltinOps[i])
  {
    seq(|BuiltinNames|, i requires 0 <= i < |BuiltinNames| =>
      Command(BuiltinNames[i], Doc(BuiltinOps[i]), BuiltinOps[i]))
  }

  /** The handlers of the built-in commands, in table order. */
  const BuiltinOps: seq<Op> :=
    [Help, New, Free, InsertHead, InsertTail, RemoveHead, Size, Reverse, Sort, Show, Server, Client, Quit]

  /** The documentation string registered with each built-in command. */
  function Doc(op: Op): string {
    match op
    case Help => "\t#Show documents"
    case New => "\t#Create a queue"
    case Free => "\t#Delete a queue"
    case InsertHead => " str [n]\t#Insert n times of str at head, n>=1. Generate a string if str is RAND"
    case InsertTail => " str [n]\t#Insert n times of str at tail, n>=1. Generate a string if str is RAND"
    case RemoveHead => "\t#Remove the first element"
    case Size => "\t#Show the size of queue"
    case Reverse => "\t#Reverse the queue"
    case Sort => "\t#Sort the queue"
    case Show => "\t#Show the queue"
    case Server => "\t#Activate server"
    case Client => "\t#Activate client"
    case Quit => "\t#Exit program"
  }

  datatype Init = Init(ok: bool, table: seq<Command>, h: seq<string>)

  /** ConsoleInit: registers the built-in commands, then loads the history
      file; a history file that cannot be opened makes it fail. */
  function ConsoleInit(historyFile: Option<string>): (r: Init)
    ensures r.ok <==> historyFile.Some?
    ensures r.ok ==> r.table == Builtins() && r.h == LoadHistory(historyFile, []).h
  {
    var table := RegisterAll([], Builtins());
    RegisterAllAppends([], Builtins());
    var loaded := LoadHistory(historyFile, []);
    Init(loaded.ok, table, loaded.h)
  }

  /** The names of the built-in commands, in table order. */
  const BuiltinNames: seq<string> :=
    ["help", "new", "free", "ih", "it", "rh", "size", "reverse", "sort", "show", "server", "client", "quit"]

  lemma BuiltinNamesAre()
    ensures |Builtins()| == |BuiltinNames|
    ensures forall i :: 0 <= i < |BuiltinNames| ==> Builtins()[i].name == BuiltinNames[i]
  {
  }

  /** Dispatch over the built-in table, read off its names. */
  lemma DispatchBuiltin(word: string, i: nat)
    requires i < |BuiltinNames| && StartsWith(BuiltinNames[i], word)
    requires forall j :: 0 <= j < i ==> !StartsWith(BuiltinNames[j], word)
    ensures Dispatch(Builtins(), word) == Some(i)
  {
    BuiltinNamesAre();
    DispatchFirst(Builtins(), word, i);
  }

  /** No built-in name starts with `word`. */
  lemma DispatchNone(word: string)
    requires forall j :: 0 <= j < |BuiltinNames| ==> !StartsWith(BuiltinNames[j], word)
    ensures Dispatch(Builtins(), word) == None
  {
    BuiltinNamesAre();
  }

  /** Prefix dispatch: the first command whose name starts with argv[0]. */
  function Dispatch(table: seq<Command>, word: string): (r: Option<nat>)
    ensures r.Some? ==> r.value < |table| && StartsWith(table[r.value].name, word)
    ensures r.Some? ==> forall j :: 0 <= j < r.value ==> !StartsWith(table[j].name, word)
    ensures r.None? ==> forall j :: 0 <= j < |table| ==> !StartsWith(table[j].name, word)
    decreases |table|
  {
    if |table| == 0 then None
    else if StartsWith(table[0].name, word) then Some(0)
    else match Dispatch(table[1..], word)
      case None => None
      case Some(i) => Some(i + 1)
  }

  /** Dispatch is determined by its contract: the first name with the prefix. */
  lemma DispatchFirst(table: seq<Command>, word: string, i: nat)
    requires i < |table| && StartsWith(table[i].name, word)
    requires forall j :: 0 <= j < i ==> !StartsWith(table[j].name, word)
    ensures Dispatch(table, word) == Some(i)
  {
  }

  /** A name that differs from the word at some position the two share
      does not start with it. */
  lemma Differs(name: string, word: string, k: nat)
    requires k < |name| && k < |word| && name[k] != word[k]
    ensures !StartsWith(name, word)
  {
    if |word| <= |name| {
      assert name[..|word|][k] == name[k];
    }
  }

  /** Abbreviations resolve by table order: "s" is size, before sort, show
      and server. */
  lemma DispatchS()
    ensures Dispatch(Builtins(), "s") == Some(6) && Builtins()[6].op == Size
  {
    var n := BuiltinNames;
    forall j | 0 <= j < 6 ensures !StartsWith(n[j], "s") {
      if j == 0 { Differs(n[0], "s", 0); }
      else if j == 1 { Differs(n[1], "s", 0); }
      else if j == 2 { Differs(n[2], "s", 0); }
      else if j == 3 { Differs(n[3], "s", 0); }
      else if j == 4 { Differs(n[4], "s", 0); }
      else { Differs(n[5], "s", 0); }
    }
    DispatchBuiltin("s", 6);
  }

  /** "se" skips size, sort and show and selects server. */
  lemma DispatchSe()
    ensures Dispatch(Builtins(), "se") == Some(10) && Builtins()[10].op == Server
  {
    var n := BuiltinNames;
    forall j | 0 <= j < 10 ensures !StartsWith(n[j], "se") {
      if j == 0 { Differs(n[0], "se", 0); }
      else if j == 1 { Differs(n[1], "se", 0); }
      else if j == 2 { Differs(n[2], "se", 0); }
      else if j == 3 { Differs(n[3], "se", 0); }
      else if j == 4 { Differs(n[4], "se", 0); }
      else if j == 5 { Differs(n[5], "se", 0); }
      else if j == 6 { Differs(n[6], "se", 1); }
      else if j == 7 { Differs(n[7], "se", 0); }
      else if j == 8 { Differs(n[8], "se", 1); }
      else { Differs(n[9], "se", 1); }
    }
    DispatchBuiltin("se", 10);
  }

  /** "r" is rh, before reverse. */
  lemma DispatchR()
    ensures Dispatch(Builtins(), "r") == Some(5) && Builtins()[5].op == RemoveHead
  {
    var n := BuiltinNames;
    forall j | 0 <= j < 5 ensures !StartsWith(n[j], "r") {
      if j == 0 { Differs(n[0], "r", 0); }
      else if j == 1 { Differs(n[1], "r", 0); }
      else if j == 2 { Differs(n[2], "r", 0); }
      else if j == 3 { Differs(n[3], "r", 0); }
      else { Differs(n[4], "r", 0); }
    }
    DispatchBuiltin("r", 5);
  }

  /** A word no name starts with selects nothing. */
  lemma DispatchUnknown()
    ensures Dispatch(Builtins(), "x") == None
  {
    var n := BuiltinNames;
    forall j | 0 <= j < |n| ensures !StartsWith(n[j], "x") {
      Differs(n[j], "x", 0);
    }
    DispatchNone("x");
  }

  // -----------------------------------------------------------------------
  // RunConsole

  /** Where lines come from: the raw-mode editor, or a script file. */
  datatype Mode = Interactive | FromFile

  /** One line read: CmdLine()/getline() returned a line, or nothing (NULL
      from the editor, -1 from getline with `eof` when errno stayed 0). */
  datatype LineIn = Got(text: string) | NoLine(eof: bool)

  datatype Call = Call(op: Op, argc: nat, argv: seq<string>)

  /** After one turn: `done` is the value RunConsole returns when it returns
      in this turn; `saved` is the history file text written, if any. */
  datatype Turn = Turn(done: Option<bool>, h: seq<string>, saved: Option<string>, call: Option<Call>)

  /** One turn of the RunConsole loop. `saveOk` is whether the history file
      can be written, `ret` the result the called handler returns. The quit
      handler returns true and ends the run in either mode; RunConsole then
      returns true. The turn is the one the loop takes once QuitOperation
      leaves no dangling command list behind (see ListFrees below). */
  function ConsoleStep(mode: Mode, table: seq<Command>, h: seq<string>, line: LineIn,
                       saveOk: bool, ret: bool): (r: Turn)
    requires |h| <= HistoryMax
    requires line.Got? ==> NoNul(line.text)
    ensures |r.h| <= HistoryMax
    ensures mode == FromFile ==> r.h == h && r.saved.None?
    ensures line.NoLine? ==> r == Turn(Some(mode == FromFile && line.eof), h, None, None)
    ensures r.call.Some? ==> line.Got? && !Ignored(line.text)
    ensures line.Got? && Ignored(line.text) ==> r == Turn(None, h, None, None)
    ensures r.saved.Some? ==> r.saved.value == SaveHistory(r.h)
    ensures mode == Interactive && r.call.Some? ==>
      (r.done.Some? <==> r.call.value.op == Quit) && r.done != Some(false)
    ensures r.call.Some? && r.call.value.op == Quit ==> r.done == Some(true)
    ensures line.Got? && !Ignored(line.text) ==>
      && (r.call.Some? ==> ReachesDispatch(mode, h, Trim(line.text), saveOk))
      && (ReachesDispatch(mode, h, Trim(line.text), saveOk) ==> r.call == Lookup(table, Trim(line.text)))
  {
    match line
    case NoLine(eof) => Turn(Some(mode == FromFile && eof), h, None, None)
    case Got(text) =>
      if Ignored(text) then Turn(None, h, None, None)
      else Accept(mode, table, h, Trim(text), saveOk, ret)
  }

  /** The rest of a turn for a trimmed line that is neither blank nor a
      comment: in interactive mode it is recorded, refused as a repeat, and
      the history file rewritten; then the command list is walked and the
      command found is run. */
  function Accept(mode: Mode, table: seq<Command>, h: seq<string>, t: string,
                  saveOk: bool, ret: bool): (r: Turn)
    requires |h| <= HistoryMax && NoNul(t)
    ensures |r.h| <= HistoryMax
    ensures mode == FromFile ==> r.h == h && r.saved.None?
    ensures mode == Interactive ==> r.h == AddHistory(h, t).h
    ensures mode == Interactive && !ReachesDispatch(mode, h, t, saveOk) ==> r == Turn(Some(false), r.h, None, None)
    ensures r.saved.Some? <==> mode == Interactive && ReachesDispatch(mode, h, t, saveOk)
    ensures r.saved.Some? ==> r.saved.value == SaveHistory(r.h)
    ensures mode == FromFile ==> r.done == Some(r.call.Some? && (ret || r.call.value.op == Quit))
    ensures mode == Interactive && r.call.Some? ==>
      (r.done.Some? <==> r.call.value.op == Quit) && r.done != Some(false)
    ensures r.call.Some? && r.call.value.op == Quit ==> r.done == Some(true)
    ensures r.call.Some? ==> ReachesDispatch(mode, h, t, saveOk)
    ensures ReachesDispatch(mode, h, t, saveOk) ==> r.call == Lookup(table, t)
  {
    var added := if mode == Interactive then AddHistory(h, t) else Added(true, h);
    if !added.ok then Turn(Some(false), h, None, None)
    else if mode == Interactive && !saveOk then Turn(Some(false), added.h, None, None)
    else
      var saved := if mode == Interactive then Some(SaveHistory(added.h)) else None;
      match Lookup(table, t)
      case None => Turn(if mode == FromFile then Some(false) else None, added.h, saved, None)
      case Some(call) =>
        var done := if call.op == Quit then Some(true)
                    else if mode == FromFile then Some(ret) else None;
        Turn(done, added.h, saved, Some(call))
  }

  /** The word the loop looks up in the command list: argv[0], or the empty
      word when the line splits into no tokens. */
  function CommandWord(s: Split): string {
    if |s.argv| > 0 then s.argv[0] else []
  }

  /** The copy TrimSpace makes of a line. */
  function Trim(text: string): (t: string)
    requires NoNul(text)
    ensures NoNul(t)
  {
    TrimSpace(Some(text)).value.copy
  }

  /** The call the command list walk makes for a trimmed line: the first
      registered command whose name starts with argv[0], given argc and
      argv, or none. */
  function Lookup(table: seq<Command>, t: string): (c: Option<Call>)
    requires NoNul(t)
    ensures var w := CommandWord(SplitCmd(t));
      c.None? <==> forall j :: 0 <= j < |table| ==> !StartsWith(table[j].name, w)
    ensures var s := SplitCmd(t);
      c.Some? ==> exists i :: && 0 <= i < |table| && StartsWith(table[i].name, CommandWord(s))
                             && (forall j :: 0 <= j < i ==> !StartsWith(table[j].name, CommandWord(s)))
                             && c.value == Call(table[i].op, s.argc, s.argv)
  {
    var s := SplitCmd(t);
    match Dispatch(table, CommandWord(s))
    case None => None
    case Some(i) => Some(Call(table[i].op, s.argc, s.argv))
  }

  /** A trimmed line gets as far as the command list walk: always in file
      mode, and in interactive mode once it is recorded and the history file
      is saved. */
  predicate ReachesDispatch(mode: Mode, h: seq<string>, t: string, saveOk: bool)
    requires |h| <= HistoryMax
  {
    mode == FromFile || (AddHistory(h, t).ok && saveOk)
  }

  /** A line that is blank or a comment once trimmed. */
  predicate Ignored(text: string)
    requires NoNul(text)
  {
    var t := Trim(text);
    |t| == 0 || t[0] == '#'
  }

  /** In interactive mode an accepted line is recorded in the history and
      the history file is rewritten before the command runs. */
  lemma InteractiveRecords(table: seq<Command>, h: seq<string>, text: string, saveOk: bool, ret: bool)
    requires |h| <= HistoryMax && NoNul(text) && !Ignored(text)
    requires |h| == 0 || h[|h| - 1] != Trim(text)
    ensures var r := ConsoleStep(Interactive, table, h, Got(text), saveOk, ret);
      && r.h == AddHistory(h, Trim(text)).h && |r.h| > 0 && r.h[|r.h| - 1] == Trim(text)
      && (saveOk ==> r.saved == Some(SaveHistory(r.h)))
  {
    var t := Trim(text);
    var added := AddHistory(h, t);
    assert added.ok && |added.h| > 0 && added.h[|added.h| - 1] == t;
    assert ConsoleStep(Interactive, table, h, Got(text), saveOk, ret) == Accept(Interactive, table, h, t, saveOk, ret);
  }

  /** The same line twice in a row ends an interactive run with false. */
  lemma RepeatEndsRun(table: seq<Command>, h: seq<string>, text: string, saveOk: bool, ret: bool)
    requires |h| <= HistoryMax && NoNul(text) && !Ignored(text)
    requires |h| > 0 && h[|h| - 1] == Trim(text)
    ensures ConsoleStep(Interactive, table, h, Got(text), saveOk, ret) == Turn(Some(false), h, None, None)
  {
  }

  /** In file mode every line that is not blank or a comment ends the run:
      with the handler's result (true for quit), or false for an unknown
      command. */
  lemma FileModeEnds(table: seq<Command>, h: seq<string>, text: string, saveOk: bool, ret: bool)
    requires |h| <= HistoryMax && NoNul(text) && !Ignored(text)
    ensures var r := ConsoleStep(FromFile, table, h, Got(text), saveOk, ret);
      r.done == Some(r.call.Some? && (ret || r.call.value.op == Quit)) && r.h == h
    ensures ConsoleStep(FromFile, table, h, Got(text), saveOk, ret).call.None? <==>
      Dispatch(table, CommandWord(SplitCmd(Trim(text)))).None?
  {
  }

  /** A script line naming no command ends the run with false: "x" against
      the built-in table. */
  lemma FileModeUnknownFails(h: seq<string>, saveOk: bool, ret: bool)
    requires |h| <= HistoryMax
    ensures ConsoleStep(FromFile, Builtins(), h, Got("x"), saveOk, ret) == Turn(Some(false), h, None, None)
  {
    TrimPlain("x");
    assert !Ignored("x");
    assert Join(["x"]) == "x";
    SplitJoin(["x"]);
    assert CommandWord(SplitCmd("x")) == "x";
    DispatchUnknown();
    FileModeEnds(Builtins(), h, "x", saveOk, ret);
  }

  /** A script line "s 3" runs size with both words. */
  lemma FileModeRunsSize(h: seq<string>, saveOk: bool, ret: bool)
    requires |h| <= HistoryMax
    ensures var r := ConsoleStep(FromFile, Builtins(), h, Got("s 3"), saveOk, ret);
      r.call == Some(Call(Size, 2, ["s", "3"])) && r.done == Some(ret)
  {
    SplitSize();
    DispatchS();
    FileModeEnds(Builtins(), h, "s 3", saveOk, ret);
  }

  /** "s 3" is a plain line of two words. */
  lemma SplitSize()
    ensures NoNul("s 3") && !Ignored("s 3") && TrimSpace(Some("s 3")).value.copy == "s 3"
    ensures SplitCmd("s 3") == Split(2, ["s", "3"]) && CommandWord(SplitCmd("s 3")) == "s"
  {
    TrimPlain("s 3");
    SizeWords();
    SplitJoin(["s", "3"]);
  }

  /** "s" and "3" are words, and joined they are "s 3". */
  lemma SizeWords()
    ensures Join(["s", "3"]) == "s 3"
    ensures forall i :: 0 <= i < |["s", "3"]| ==> Word(["s", "3"][i])
  {
    var ws := ["s", "3"];
    assert Word(ws[0]) && Word(ws[1]);
    forall i | 0 <= i < |ws| ensures Word(ws[i]) {
      if i == 0 { assert ws[i] == ws[0]; } else { assert ws[i] == ws[1]; }
    }
  }

  /** A string with no space at either end trims to itself. */
  lemma TrimPlain(str: string)
    requires NoNul(str) && |str| > 0 && !IsSpace(str[0]) && !IsSpace(str[|str| - 1])
    ensures TrimSpace(Some(str)).value.copy == str
  {
    assert LeadingSpaces(str) == 0;
    assert LastNonSpace(str, 0) == |str| - 1;
    assert str[0..|str|] == str;
  }

  /** Calls of FreeCmdList on the registered command list in one turn, as
      written. The quit handler frees the list but leaves g_cmd_list
      pointing at it, and every return from RunConsole goes through
      QuitOperation, which frees it again: after the loop in interactive
      mode, on the return path of a dispatched line in file mode. */
  function ListFrees(t: Turn): (n: nat)
    ensures n <= 2
  {
    (if t.call.Some? && t.call.value.op == Quit then 1 else 0) + (if t.done.Some? then 1 else 0)
  }

  /** The same count once the quit handler resets g_cmd_list after freeing
      it, so that a later QuitOperation frees nothing. */
  function ListFreesFixed(t: Turn): (n: nat)
    ensures n <= 1
  {
    if (t.call.Some? && t.call.value.op == Quit) || t.done.Some? then 1 else 0
  }

  /** As written, every turn that runs the quit handler frees the command
      list twice. */
  lemma QuitFreesTwice(mode: Mode, table: seq<Command>, h: seq<string>, text: string,
                       saveOk: bool, ret: bool)
    requires |h| <= HistoryMax && NoNul(text)
    requires var r := ConsoleStep(mode, table, h, Got(text), saveOk, ret);
      r.call.Some? && r.call.value.op == Quit
    ensures ListFrees(ConsoleStep(mode, table, h, Got(text), saveOk, ret)) == 2
  {
  }

  /** With the reset, a turn frees the list exactly when it ends the run, and
      then once; quit ends it with true. */
  lemma FixedFreesOnce(mode: Mode, table: seq<Command>, h: seq<string>, line: LineIn,
                       saveOk: bool, ret: bool)
    requires |h| <= HistoryMax && (line.Got? ==> NoNul(line.text))
    ensures var r := ConsoleStep(mode, table, h, line, saveOk, ret);
      (ListFreesFixed(r) == 1 <==> r.done.Some?)
      && (r.call.Some? && r.call.value.op == Quit ==> r.done == Some(true))
  {
  }

  /** The line "quit" selects the quit handler of the built-in table. */
  lemma DispatchQuit()
    ensures Dispatch(Builtins(), "quit") == Some(12) && Builtins()[12].op == Quit
  {
    var n := BuiltinNames;
    forall j | 0 <= j < 12 ensures !StartsWith(n[j], "quit") {
      if j == 0 { Differs(n[0], "quit", 0); }
      else if j == 1 { Differs(n[1], "quit", 0); }
      else if j == 2 { Differs(n[2], "quit", 0); }
      else if j == 3 { Differs(n[3], "quit", 0); }
      else if j == 4 { Differs(n[4], "quit", 0); }
      else if j == 5 { Differs(n[5], "quit", 0); }
      else if j == 6 { Differs(n[6], "quit", 0); }
      else if j == 7 { Differs(n[7], "quit", 0); }
      else if j == 8 { Differs(n[8], "quit", 0); }
      else if j == 9 { Differs(n[9], "quit", 0); }
      else if j == 10 { Differs(n[10], "quit", 0); }
      else { Differs(n[11], "quit", 0); }
    }
    DispatchBuiltin("quit", 12);
  }

  /** The loop over a sequence of lines, with the per-line save outcome and
      handler result; None when the lines run out before it returns. */
  function RunConsole(mode: Mode, table: seq<Command>, h: seq<string>, lines: seq<LineIn>,
                      saveOk: seq<bool>, rets: seq<bool>): (r: (Option<bool>, seq<string>))
    requires |h| <= HistoryMax && |saveOk| == |lines| == |rets|
    requires forall i :: 0 <= i < |lines| && lines[i].Got? ==> NoNul(lines[i].text)
    ensures |r.1| <= HistoryMax
    decreases |lines|
  {
    if |lines| == 0 then (None, h)
    else
      var t := ConsoleStep(mode, table, h, lines[0], saveOk[0], rets[0]);
      if t.done.Some? then (t.done, t.h)
      else RunConsole(mode, table, t.h, lines[1..], saveOk[1..], rets[1..])
  }

  /** Every history an interactive run builds is well formed: bounded, and
      never the same command twice in a row. */
  lemma {:induction false} RunKeepsWellFormed(mode: Mode, table: seq<Command>, h: seq<string>,
                                              lines: seq<LineIn>, saveOk: seq<bool>, rets: seq<bool>)
    requires WellFormed(h) && |saveOk| == |lines| == |rets|
    requires forall i :: 0 <= i < |lines| && lines[i].Got? ==> NoNul(lines[i].text)
    ensures WellFormed(RunConsole(mode, table, h, lines, saveOk, rets).1)
    ensures mode == FromFile ==> RunConsole(mode, table, h, lines, saveOk, rets).1 == h
    decreases |lines|
  {
    if |lines| > 0 {
      var t := ConsoleStep(mode, table, h, lines[0], saveOk[0], rets[0]);
      StepKeepsWellFormed(mode, table, h, lines[0], saveOk[0], rets[0]);
      RunStep(mode, table, h, lines, saveOk, rets);
      if t.done.None? {
        var tl := lines[1..];
        assert forall i :: 0 <= i < |tl| ==> tl[i] == lines[i + 1];
        RunKeepsWellFormed(mode, table, t.h, tl, saveOk[1..], rets[1..]);
      }
    }
  }

  /** One turn keeps the history well formed. */
  lemma StepKeepsWellFormed(mode: Mode, table: seq<Command>, h: seq<string>, line: LineIn,
                            saveOk: bool, ret: bool)
    requires WellFormed(h) && (line.Got? ==> NoNul(line.text))
    ensures WellFormed(ConsoleStep(mode, table, h, line, saveOk, ret).h)
  {
    if line.Got? && !Ignored(line.text) && mode == Interactive {
      var t := Trim(line.text);
      if |h| > 0 && h[|h| - 1] == t {
        RepeatEndsRun(table, h, line.text, saveOk, ret);
      } else {
        InteractiveRecords(table, h, line.text, saveOk, ret);
        AddKeepsWellFormed(h, t);
      }
    }
  }

  /** The loop's first turn. */
  lemma RunStep(mode: Mode, table: seq<Command>, h: seq<string>, lines: seq<LineIn>,
                saveOk: seq<bool>, rets: seq<bool>)
    requires |h| <= HistoryMax && |saveOk| == |lines| == |rets| && |lines| > 0
    requires forall i :: 0 <= i < |lines| && lines[i].Got? ==> NoNul(lines[i].text)
    ensures var t := ConsoleStep(mode, table, h, lines[0], saveOk[0], rets[0]);
      RunConsole(mode, table, h, lines, saveOk, rets)
      == if t.done.Some? then (t.done, t.h) else RunConsole(mode, table, t.h, lines[1..], saveOk[1..], rets[1..])
  {
  }

  // -----------------------------------------------------------------------
  // RandomString

  /** The 26 lower-case letters, in order. */
  const Alphabet: string := seq(26, i requires 0 <= i < 26 => ('a' as int + i) as char)
  const MinRandom: nat := 5
  const MaxRandom: nat := 10

  /** RandomString with the successive rand() results as `draws`: the length
      is redrawn as `rand() % 11` until it is at least 5, then each byte is
      `Alphabet[rand() % 26]`. None when the draws run out first. */
  function RandomString(draws: seq<nat>): (r: Option<string>)
    ensures r.Some? ==> MinRandom <= |r.value| <= MaxRandom
    ensures r.Some? ==> forall i :: 0 <= i < |r.value| ==> 'a' <= r.value[i] <= 'z'
    decreases |draws|
  {
    if |draws| == 0 then None
    else
      var len := draws[0] % (MaxRandom + 1);
      if len < MinRandom then RandomString(draws[1..])
      else if |draws| - 1 < len then None
      else Some(seq(len, i requires 0 <= i < len => Alphabet[draws[1 + i] % 26]))
  }

  /** Every string RandomString can return is reached by some draws. */
  lemma RandomStringReaches(s: string)
    requires MinRandom <= |s| <= MaxRandom
    requires forall i :: 0 <= i < |s| ==> 'a' <= s[i] <= 'z'
    ensures RandomString([|s|] + seq(|s|, i requires 0 <= i < |s| => (s[i] as int - 'a' as int) as nat)) == Some(s)
  {
    var d := [|s|] + seq(|s|, i requires 0 <= i < |s| => (s[i] as int - 'a' as int) as nat);
    assert d[0] % (MaxRandom + 1) == |s|;
    assert d[1..] == seq(|s|, i requires 0 <= i < |s| => (s[i] as int - 'a' as int) as nat);
    var r := seq(|s|, i requires 0 <= i < |s| => Alphabet[d[1 + i] % 26]);
    forall i | 0 <= i < |s| ensures r[i] == s[i] {
      assert d[1 + i] % 26 == s[i] as int - 'a' as int;
    }
    assert r == s;
  }
}

=== FILE: edit_session.dfy ===
/** One raw-mode line read: CmdLineEdit and the Tab completion it calls,
    CompleteCmdLine (interpreter_command_line.c). The terminal is a finite
    sequence of input bytes; what the program writes is a sequence of
    outputs. When the input runs out the read is left pending (the source
    would block in read()).

    Completion walks the command table with a scan pointer that outlives the
    call (g_cmd_list_ptr): it is reset to the head only when the walk runs
    off the end of the table and when a byte is typed or erased while a
    candidate is shown. While a candidate is shown the source edits a copy of
    the line state (cls_var) whose buffer is the SAME buffer as the line's,
    so the candidate's bytes land in the caller's buffer at once. */
module EditSession {
  import opened Text
  import opened LineEditor
  import opened History
  import KeyDecoder

  /** The prompt CmdLineEdit writes first and Refresh redraws. */
  const Prompt: string := "cmd> "

  /** What the program writes: a Refresh (or the initial prompt) on standard
      output, or the bell (CmdLineBeep) on standard error. */
  datatype Out = Screen(bytes: string) | Bell

  /** Where the reader is.
      Editing:  the main loop of CmdLineEdit on line state `cls`.
      Scanning: the outer loop of CompleteCmdLine, looking at the command
                under the scan pointer; `v` is cls_var.
      Showing:  the inner loop of CompleteCmdLine, candidate shown in `v`. */
  datatype Phase =
    | Editing(cls: EditState)
    | Scanning(cls: EditState, v: EditState)
    | Showing(cls: EditState, v: EditState)

  /** `scan` is the scan pointer as an index into the command table; the
      table's length stands for NULL. */
  datatype Machine = Machine(phase: Phase, scan: nat, out: seq<Out>)

  /** Accepted: CmdLineEdit returns the C string at the start of the buffer.
      Cancelled: Ctrl-C, CmdLineEdit returns NULL. Pending: input ran out. */
  datatype Outcome = Accepted(line: string) | Cancelled | Pending

  datatype Result = Result(outcome: Outcome, m: Machine)

  /** The command names completion offers, in table order. */
  ghost predicate Commands(cmds: seq<string>) {
    forall i :: 0 <= i < |cmds| ==> NoNul(cmds[i]) && |cmds[i]| <= MaxLine
  }

  /** A line state the reader can work on: well formed, history index in
      range, and a terminal wider than the prompt. */
  ghost predicate Good(s: EditState, h: seq<string>) {
    Valid(s) && IndexInRange(s, h) && s.col > |Prompt|
  }

  ghost predicate Inv(h: seq<string>, cmds: seq<string>, m: Machine) {
    m.scan <= |cmds| &&
    match m.phase
    case Editing(cls) => Good(cls, h)
    case Scanning(cls, v) => Good(cls, h) && Good(v, h) && cls.buf == v.buf
    case Showing(cls, v) => Good(cls, h) && Good(v, h) && cls.buf == v.buf && m.scan < |cmds|
  }

  /** The keys that call one editing primitive in both loops. */
  predicate IsEditKey(k: KeyDecoder.Key) {
    k.Insert? || k.Left? || k.Right? || k.Backspace? || k.Delete? || k.Home?
    || k.End? || k.HistoryUp? || k.HistoryDown? || k.Unbound?
  }

  /** The primitive an editing key calls. */
  function Apply(s: EditState, k: KeyDecoder.Key, h: seq<string>): (r: Step)
    requires Good(s, h) && Loadable(h) && IsEditKey(k)
    ensures Good(r.st, h) && r.st.col == s.col
    ensures k.Insert? && s.pos == s.len < MaxLine ==>
              Line(r.st) == Line(s) + [k.c] && r.st.pos == r.st.len == s.len + 1
              && r.st.buf[r.st.len] == '\0'
    ensures k.Unbound? ==> r == Step(s, false, false)
  {
    match k
    case Insert(c) => LineEditor.Insert(s, c)
    case Left => MoveLeft(s)
    case Right => MoveRight(s)
    case Backspace => LineEditor.Backspace(s)
    case Delete => LineEditor.Delete(s)
    case Home => MoveHome(s)
    case End => MoveEnd(s)
    case HistoryUp => Navigate(s, Up, h)
    case HistoryDown => Navigate(s, Down, h)
    case Unbound => Step(s, false, false)
  }

  /** The writes a primitive makes: its Refresh, then its bell. */
  function Emit(r: Step): (o: seq<Out>)
    requires Valid(r.st) && r.st.col > |Prompt|
    ensures |o| == (if r.redraw then 1 else 0) + (if r.beep then 1 else 0)
    ensures r.redraw ==> o[0] == Screen(Refresh(r.st, Prompt))
    ensures r.beep ==> o[|o| - 1] == Bell
  {
    (if r.redraw then [Screen(Refresh(r.st, Prompt))] else [])
    + (if r.beep then [Bell] else [])
  }

  /** `cls->buf[n] = '\0'` */
  function Terminate(b: string, n: nat): (r: string)
    requires n <= MaxLine && |b| == MaxLine + 1 && b[MaxLine] == '\0'
    ensures |r| == |b| && r[n] == '\0' && r[MaxLine] == '\0'
    ensures r[..n] == b[..n]
  {
    b[..n] + ['\0'] + b[n + 1..]
  }

  /** Scanning steps consume no input; they are bounded by the table. */
  function Measure(cmds: seq<string>, m: Machine): nat {
    if m.phase.Scanning? && m.scan <= |cmds| then |cmds| - m.scan + 1 else 0
  }

  /** The output only grows. */
  ghost predicate Extends(m': Machine, m: Machine) {
    |m.out| <= |m'.out| && m'.out[..|m.out|] == m.out
  }

  /** One turn of the outer loop of CompleteCmdLine. */
  function ScanStep(h: seq<string>, cmds: seq<string>, m: Machine): (r: Machine)
    requires Loadable(h) && Commands(cmds) && Inv(h, cmds, m) && m.phase.Scanning?
    ensures Inv(h, cmds, r) && Extends(r, m) && Measure(cmds, r) < Measure(cmds, m)
    ensures r.phase.Scanning? ==> r.phase == m.phase && r.out == m.out
    ensures r.phase.Editing? ==> r.phase.cls == m.phase.cls && r.scan == 0
    ensures r.phase.Showing? ==>
              StartsWith(cmds[r.scan], Line(m.phase.cls)) && Line(r.phase.v) == cmds[r.scan]
              && Line(r.phase.cls) == Line(m.phase.cls)
  {
    var cls := m.phase.cls;
    var v := m.phase.v;
    if !IsAlpha(cls.buf[0]) || m.scan == |cmds| then
      // the walk is over: pointer back to the head, line redrawn as typed
      Machine(Editing(cls), 0, m.out + [Screen(Refresh(cls, Prompt))])
    else if StartsWith(cmds[m.scan], Line(cls)) then
      var w := LoadEntry(v, cmds[m.scan], v.historyIdx);
      assert w.buf[..cls.len] == cmds[m.scan][..cls.len];
      Machine(Showing(cls.(buf := w.buf), w), m.scan, m.out + [Screen(Refresh(w, Prompt))])
    else
      m.(scan := m.scan + 1)
  }

  /** What a key does: the read ends (Stop) or goes on (Go). */
  datatype Next = Stop(outcome: Outcome, m: Machine) | Go(m: Machine)

  /** A key in the main loop of CmdLineEdit. */
  function EditingKey(h: seq<string>, cmds: seq<string>, m: Machine, k: KeyDecoder.Key): (r: Next)
    requires Loadable(h) && Commands(cmds) && Inv(h, cmds, m) && m.phase.Editing?
    ensures Inv(h, cmds, r.m) && Extends(r.m, m)
    ensures r.Stop? <==> k.Cancel? || k.Accept?
    ensures r.Stop? ==> r.m == m
    ensures r.Stop? && k.Accept? ==> r.outcome == Accepted(CStr(m.phase.cls.buf))
    ensures r.Stop? && k.Cancel? ==> r.outcome == Cancelled
    ensures k.Complete? ==> r == Go(m.(phase := Scanning(m.phase.cls, m.phase.cls)))
  {
    var cls := m.phase.cls;
    match k
    case Cancel => Stop(Cancelled, m)
    case Accept => Stop(Accepted(CStr(cls.buf)), m)
    case Complete => Go(m.(phase := Scanning(cls, cls)))
    case EscOther => Go(m)
    case _ =>
      var st := Apply(cls, k, h);
      Go(Machine(Editing(st.st), m.scan, m.out + Emit(st)))
  }

  /** A key in the inner loop of CompleteCmdLine. */
  function ShowingKey(h: seq<string>, cmds: seq<string>, m: Machine, k: KeyDecoder.Key): (r: Next)
    requires Loadable(h) && Commands(cmds) && Inv(h, cmds, m) && m.phase.Showing?
    ensures Inv(h, cmds, r.m) && Extends(r.m, m)
    ensures r.Stop? <==> k.Accept?
    ensures r.Stop? ==> r.outcome == Accepted(CStr(Line(m.phase.v)))
    ensures k.Cancel? ==> r == Go(m.(phase := Editing(m.phase.cls)))
    ensures k.Complete? ==> r == Go(m.(phase := Scanning(m.phase.cls, m.phase.v), scan := m.scan + 1))
  {
    var cls := m.phase.cls;
    var v := m.phase.v;
    match k
    case Cancel => Go(m.(phase := Editing(cls)))
    case Complete => Go(Machine(Scanning(cls, v), m.scan + 1, m.out))
    case Accept =>
      var a := AcceptCandidate(h, cmds, m);
      CutReads(v.buf, v.len);
      Stop(Accepted(CStr(a.phase.cls.buf)), a)
    case EscOther => Go(Abandon(h, cmds, m))
    case _ => Go(EditCandidate(h, cmds, m, k))
  }

  /** An escape sequence that is not an arrow key while a candidate is
      shown: back to the caller's line as it was typed, redrawn. */
  function Abandon(h: seq<string>, cmds: seq<string>, m: Machine): (r: Machine)
    requires Loadable(h) && Commands(cmds) && Inv(h, cmds, m) && m.phase.Showing?
    ensures Inv(h, cmds, r) && Extends(r, m)
    ensures r.phase == Editing(m.phase.cls) && r.scan == m.scan
  {
    var cls := m.phase.cls;
    Machine(Editing(cls), m.scan, m.out + [Screen(Refresh(cls, Prompt))])
  }

  /** Enter while a candidate is shown: the shared buffer, which already
      holds the candidate, is cut at the candidate's length, and the
      caller's line takes that length and is redrawn. */
  function AcceptCandidate(h: seq<string>, cmds: seq<string>, m: Machine): (r: Machine)
    requires Loadable(h) && Commands(cmds) && Inv(h, cmds, m) && m.phase.Showing?
    ensures Inv(h, cmds, r) && Extends(r, m) && r.phase.Editing?
    ensures Line(r.phase.cls) == Line(m.phase.v) && r.phase.cls.buf[r.phase.cls.len] == '\0'
    ensures r.phase.cls.pos == r.phase.cls.len
  {
    var v := m.phase.v;
    var c := m.phase.cls.(buf := Terminate(v.buf, v.len), len := v.len, pos := v.len);
    Machine(Editing(c), m.scan, m.out + [Screen(Refresh(c, Prompt))])
  }

  /** A buffer cut at n reads as the first n bytes read as a C string. */
  lemma CutReads(b: string, n: nat)
    requires n <= MaxLine && |b| == MaxLine + 1 && b[MaxLine] == '\0'
    ensures CStr(Terminate(b, n)) == CStr(b[..n])
  {
    assert Terminate(b, n)[..n] == b[..n];
  }

  /** An editing key while a candidate is shown: it edits the candidate.
      A typed or erased byte also becomes the caller's line, and the scan
      pointer goes back to the head of the table. */
  function EditCandidate(h: seq<string>, cmds: seq<string>, m: Machine, k: KeyDecoder.Key): (r: Machine)
    requires Loadable(h) && Commands(cmds) && Inv(h, cmds, m) && m.phase.Showing? && IsEditKey(k)
    ensures Inv(h, cmds, r) && Extends(r, m) && r.phase.Showing?
    ensures r.phase.v.buf == Apply(m.phase.v, k, h).st.buf || k.Insert? || k.Backspace?
    ensures (k.Insert? || k.Backspace?) ==> r.scan == 0 && r.phase.cls.len == r.phase.v.len
    ensures !(k.Insert? || k.Backspace?) ==> r.scan == m.scan && r.phase.cls.len == m.phase.cls.len
  {
    var cls := m.phase.cls;
    var st := Apply(m.phase.v, k, h);
    if k.Insert? || k.Backspace? then
      var b := Terminate(st.st.buf, st.st.len);
      var w := st.st.(buf := b);
      Machine(Showing(cls.(buf := b, len := w.len, pos := w.len), w), 0, m.out + Emit(st))
    else
      Machine(Showing(cls.(buf := st.st.buf), st.st), m.scan, m.out + Emit(st))
  }

  function KeyStep(h: seq<string>, cmds: seq<string>, m: Machine, k: KeyDecoder.Key): (r: Next)
    requires Loadable(h) && Commands(cmds) && Inv(h, cmds, m) && !m.phase.Scanning?
    ensures Inv(h, cmds, r.m) && Extends(r.m, m)
    ensures r.Stop? && r.outcome.Accepted? ==> NoNul(r.outcome.line) && |r.outcome.line| <= MaxLine
  {
    if m.phase.Editing? then EditingKey(h, cmds, m, k) else ShowingKey(h, cmds, m, k)
  }

  lemma ExtendsTrans(a: Machine, b: Machine, c: Machine)
    requires Extends(b, a) && Extends(c, b)
    ensures Extends(c, a)
  {
    assert c.out[..|a.out|] == c.out[..|b.out|][..|a.out|];
  }

  /** The reader run on `input`. */
  function Run(h: seq<string>, cmds: seq<string>, m: Machine, input: string): (r: Result)
    requires Loadable(h) && Commands(cmds) && Inv(h, cmds, m)
    ensures Inv(h, cmds, r.m) && !r.m.phase.Scanning? && Extends(r.m, m)
    ensures r.outcome.Accepted? ==> NoNul(r.outcome.line) && |r.outcome.line| <= MaxLine
    decreases |input|, Measure(cmds, m)
  {
    if m.phase.Scanning? then
      var m1 := ScanStep(h, cmds, m);
      var r := Run(h, cmds, m1, input);
      ExtendsTrans(m, m1, r.m);
      r
    else if |input| == 0 then Result(Pending, m)
    else match KeyDecoder.DecodeKey(input)
      case None => Result(Pending, m)
      case Some(d) =>
        var next := KeyStep(h, cmds, m, d.key);
        if next.Stop? then Result(next.outcome, next.m)
        else
          var r := Run(h, cmds, next.m, input[d.used..]);
          ExtendsTrans(m, next.m, r.m);
          r
  }

  /** One key of input, when the reader is not walking the table. */
  lemma RunKey(h: seq<string>, cmds: seq<string>, m: Machine, k: KeyDecoder.Key, rest: string)
    requires Loadable(h) && Commands(cmds) && Inv(h, cmds, m) && !m.phase.Scanning?
    requires k.Insert? ==> !KeyDecoder.IsAction(k.c)
    ensures Run(h, cmds, m, KeyDecoder.KeyBytes(k) + rest)
         == var next := KeyStep(h, cmds, m, k);
            if next.Stop? then Result(next.outcome, next.m) else Run(h, cmds, next.m, rest)
  {
    var input := KeyDecoder.KeyBytes(k) + rest;
    KeyDecoder.DecodeKeyBytes(k, rest);
    assert input[|KeyDecoder.KeyBytes(k)|..] == rest;
  }

  /** CmdLineEdit: a zeroed buffer, the prompt, then the reader. */
  function EditLine(h: seq<string>, cmds: seq<string>, scan: nat, col: nat, input: string): (r: Result)
    requires Loadable(h) && Commands(cmds) && scan <= |cmds| && col > |Prompt|
    ensures |r.m.out| > 0 && r.m.out[0] == Screen(Prompt)
    ensures r.outcome.Accepted? ==> NoNul(r.outcome.line) && |r.outcome.line| <= MaxLine
  {
    Run(h, cmds, Machine(Editing(Fresh(col)), scan, [Screen(Prompt)]), input)
  }

  // -----------------------------------------------------------------------
  // Typing a line

  predicate Typable(cs: string) {
    forall i :: 0 <= i < |cs| ==> !KeyDecoder.IsAction(cs[i])
  }

  lemma {:induction false} RunTyped(h: seq<string>, cmds: seq<string>, m: Machine, cs: string)
    requires Loadable(h) && Commands(cmds) && Inv(h, cmds, m) && m.phase.Editing?
    requires Typable(cs) && m.phase.cls.pos == m.phase.cls.len
    requires m.phase.cls.len + |cs| <= MaxLine
    ensures var r := Run(h, cmds, m, cs + [KeyDecoder.Enter]);
      r.outcome == Accepted(CStr(TypeAll(m.phase.cls, cs).buf)) && r.m.scan == m.scan
    decreases |cs|
  {
    var cls := m.phase.cls;
    if |cs| == 0 {
      assert cs + [KeyDecoder.Enter] == KeyDecoder.KeyBytes(KeyDecoder.Accept) + [];
      RunKey(h, cmds, m, KeyDecoder.Accept, []);
    } else {
      var k := KeyDecoder.Insert(cs[0]);
      var more := cs[1..] + [KeyDecoder.Enter];
      assert cs + [KeyDecoder.Enter] == KeyDecoder.KeyBytes(k) + more;
      RunKey(h, cmds, m, k, more);
      var st := Apply(cls, k, h);
      var m1 := Machine(Editing(st.st), m.scan, m.out + Emit(st));
      assert KeyStep(h, cmds, m, k) == Go(m1);
      assert Typable(cs[1..]) by {
        forall i | 0 <= i < |cs[1..]| ensures !KeyDecoder.IsAction(cs[1..][i]) {
          assert cs[1..][i] == cs[i + 1];
        }
      }
      RunTyped(h, cmds, m1, cs[1..]);
    }
  }

  /** Typing bytes that are not editing commands and pressing Enter returns
      exactly those bytes, provided none of them is a zero byte (a typed zero
      byte would end the returned C string early). */
  lemma TypedLineAccepted(h: seq<string>, cmds: seq<string>, scan: nat, col: nat, cs: string)
    requires Loadable(h) && Commands(cmds) && scan <= |cmds| && col > |Prompt|
    requires Typable(cs) && NoNul(cs) && |cs| <= MaxLine
    ensures var r := EditLine(h, cmds, scan, col, cs + [KeyDecoder.Enter]);
      r.outcome == Accepted(cs) && r.m.scan == scan
  {
    var s := Fresh(col);
    RunTyped(h, cmds, Machine(Editing(s), scan, [Screen(Prompt)]), cs);
    TypeAllAppends(s, cs);
    var t := TypeAll(s, cs);
    assert t.buf[..|cs|] == cs;
    CStrOf(t.buf, |cs|);
  }

  // -----------------------------------------------------------------------
  // Ctrl-C

  /** Keys that neither end the read nor start a completion. */
  predicate Plain(ks: seq<KeyDecoder.Key>) {
    forall i :: 0 <= i < |ks| ==>
      (IsEditKey(ks[i]) || ks[i].EscOther?) && (ks[i].Insert? ==> !KeyDecoder.IsAction(ks[i].c))
  }

  /** Whatever was edited before it, Ctrl-C ends the read with NULL. */
  lemma {:induction false} CancelDiscards(h: seq<string>, cmds: seq<string>, m: Machine,
                                          ks: seq<KeyDecoder.Key>, rest: string)
    requires Loadable(h) && Commands(cmds) && Inv(h, cmds, m) && m.phase.Editing?
    requires Plain(ks)
    ensures Run(h, cmds, m, KeyDecoder.EncodeAll(ks) + [KeyDecoder.CtrlC] + rest).outcome == Cancelled
    decreases |ks|
  {
    if |ks| == 0 {
      assert KeyDecoder.EncodeAll(ks) + [KeyDecoder.CtrlC] + rest
          == KeyDecoder.KeyBytes(KeyDecoder.Cancel) + rest;
      RunKey(h, cmds, m, KeyDecoder.Cancel, rest);
    } else {
      var k := ks[0];
      var more := KeyDecoder.EncodeAll(ks[1..]) + [KeyDecoder.CtrlC] + rest;
      assert KeyDecoder.EncodeAll(ks) + [KeyDecoder.CtrlC] + rest == KeyDecoder.KeyBytes(k) + more;
      RunKey(h, cmds, m, k, more);
      assert Plain(ks[1..]) by {
        forall i | 0 <= i < |ks[1..]|
          ensures (IsEditKey(ks[1..][i]) || ks[1..][i].EscOther?)
                  && (ks[1..][i].Insert? ==> !KeyDecoder.IsAction(ks[1..][i].c))
        {
          assert ks[1..][i] == ks[i + 1];
        }
      }
      var next := KeyStep(h, cmds, m, k);
      assert next.Go? && next.m.phase.Editing?;
      CancelDiscards(h, cmds, next.m, ks[1..], rest);
    }
  }

  // -----------------------------------------------------------------------
  // Completion

  /** The first command at or after `from` that extends the typed prefix `p`
      (the table's length when there is none). */
  function FirstMatch(cmds: seq<string>, p: string, from: nat): (i: nat)
    requires from <= |cmds|
    ensures from <= i <= |cmds|
    ensures i < |cmds| ==> StartsWith(cmds[i], p)
    ensures forall j :: from <= j < i ==> !StartsWith(cmds[j], p)
    decreases |cmds| - from
  {
    if from == |cmds| || StartsWith(cmds[from], p) then from else FirstMatch(cmds, p, from + 1)
  }

  lemma RunScan(h: seq<string>, cmds: seq<string>, m: Machine, input: string)
    requires Loadable(h) && Commands(cmds) && Inv(h, cmds, m) && m.phase.Scanning?
    ensures Run(h, cmds, m, input) == Run(h, cmds, ScanStep(h, cmds, m), input)
  {
  }

  /** The walk passes over every command that does not extend the prefix. */
  lemma {:induction false} ScanSkips(h: seq<string>, cmds: seq<string>, cls: EditState,
                                     v: EditState, j: nat, out: seq<Out>, input: string)
    requires Loadable(h) && Commands(cmds) && Inv(h, cmds, Machine(Scanning(cls, v), j, out))
    requires IsAlpha(cls.buf[0])
    ensures var i := FirstMatch(cmds, Line(cls), j);
      Run(h, cmds, Machine(Scanning(cls, v), j, out), input)
      == Run(h, cmds, Machine(Scanning(cls, v), i, out), input)
    decreases |cmds| - j
  {
    if j < |cmds| && !StartsWith(cmds[j], Line(cls)) {
      var m := Machine(Scanning(cls, v), j, out);
      RunScan(h, cmds, m, input);
      assert ScanStep(h, cmds, m) == m.(scan := j + 1);
      ScanSkips(h, cmds, cls, v, j + 1, out, input);
    }
  }

  /** Where the walk stops: on the next command extending the prefix, which
      is copied into the shared buffer and shown, or at the end of the table,
      where the line is redrawn as typed and the pointer returns to the head. */
  lemma ScanResult(h: seq<string>, cmds: seq<string>, cls: EditState, v: EditState,
                   j: nat, out: seq<Out>, input: string)
    requires Loadable(h) && Commands(cmds) && Inv(h, cmds, Machine(Scanning(cls, v), j, out))
    ensures var i := FirstMatch(cmds, Line(cls), j);
      Run(h, cmds, Machine(Scanning(cls, v), j, out), input)
      == if !IsAlpha(cls.buf[0]) || i == |cmds| then
           Run(h, cmds, Machine(Editing(cls), 0, out + [Screen(Refresh(cls, Prompt))]), input)
         else
           var w := LoadEntry(v, cmds[i], v.historyIdx);
           Run(h, cmds, Machine(Showing(cls.(buf := w.buf), w), i,
                                out + [Screen(Refresh(w, Prompt))]), input)
  {
    if IsAlpha(cls.buf[0]) {
      ScanSkips(h, cmds, cls, v, j, out, input);
    }
    var i := FirstMatch(cmds, Line(cls), j);
    RunScan(h, cmds, Machine(Scanning(cls, v), i, out), input);
  }

  /** The walk runs off the table: the line is redrawn as typed. */
  lemma ScanRunsOff(h: seq<string>, cmds: seq<string>, cls: EditState, v: EditState,
                    j: nat, out: seq<Out>, input: string)
    requires Loadable(h) && Commands(cmds) && Inv(h, cmds, Machine(Scanning(cls, v), j, out))
    requires !IsAlpha(cls.buf[0]) || FirstMatch(cmds, Line(cls), j) == |cmds|
    ensures Run(h, cmds, Machine(Scanning(cls, v), j, out), input)
         == Run(h, cmds, Machine(Editing(cls), 0, out + [Screen(Refresh(cls, Prompt))]), input)
  {
    ScanResult(h, cmds, cls, v, j, out, input);
  }

  /** Enter while a candidate is shown accepts the candidate's line. */
  lemma EnterAcceptsShown(h: seq<string>, cmds: seq<string>, m: Machine, rest: string)
    requires Loadable(h) && Commands(cmds) && Inv(h, cmds, m) && m.phase.Showing?
    ensures var r := Run(h, cmds, m, [KeyDecoder.Enter] + rest);
      r.outcome == Accepted(CStr(Line(m.phase.v))) && r.m.scan == m.scan
  {
    RunKey(h, cmds, m, KeyDecoder.Accept, rest);
  }

  /** The candidate Tab shows: the first command, from the scan pointer
      on, that extends the typed line. */
  function Shown(h: seq<string>, cmds: seq<string>, m: Machine, i: nat): (r: Machine)
    requires Loadable(h) && Commands(cmds) && Inv(h, cmds, m) && m.phase.Editing? && i < |cmds|
    ensures Inv(h, cmds, r) && r.scan == i && r.phase.Showing? && CStr(r.phase.v.buf) == cmds[i]
    ensures Line(r.phase.v) == cmds[i]
  {
    var cls := m.phase.cls;
    var w := LoadEntry(cls, cmds[i], cls.historyIdx);
    assert w.buf[..|cmds[i]|] == cmds[i];
    CStrOf(w.buf, |cmds[i]|);
    Machine(Showing(cls.(buf := w.buf), w), i, m.out + [Screen(Refresh(w, Prompt))])
  }

  lemma TabShows(h: seq<string>, cmds: seq<string>, m: Machine, input: string)
    requires Loadable(h) && Commands(cmds) && Inv(h, cmds, m) && m.phase.Editing?
    requires IsAlpha(m.phase.cls.buf[0])
    requires FirstMatch(cmds, Line(m.phase.cls), m.scan) < |cmds|
    ensures var i := FirstMatch(cmds, Line(m.phase.cls), m.scan);
      Run(h, cmds, m, [KeyDecoder.Tab] + input) == Run(h, cmds, Shown(h, cmds, m, i), input)
  {
    var cls := m.phase.cls;
    TabStartsWalk(h, cmds, m, input);
    ScanResult(h, cmds, cls, cls, m.scan, m.out, input);
  }

  /** Tab on the line editor starts the walk at the scan pointer. */
  lemma TabStartsWalk(h: seq<string>, cmds: seq<string>, m: Machine, input: string)
    requires Loadable(h) && Commands(cmds) && Inv(h, cmds, m) && m.phase.Editing?
    ensures Run(h, cmds, m, [KeyDecoder.Tab] + input)
         == Run(h, cmds, Machine(Scanning(m.phase.cls, m.phase.cls), m.scan, m.out), input)
  {
    assert KeyStep(h, cmds, m, KeyDecoder.Complete) == Go(Machine(Scanning(m.phase.cls, m.phase.cls), m.scan, m.out));
    RunKey(h, cmds, m, KeyDecoder.Complete, input);
  }

  /** Tab then Enter accepts the first command, from the scan pointer on,
      that extends the typed line, and leaves the pointer on it. */
  lemma TabEnterAccepts(h: seq<string>, cmds: seq<string>, m: Machine, rest: string)
    requires Loadable(h) && Commands(cmds) && Inv(h, cmds, m) && m.phase.Editing?
    requires IsAlpha(m.phase.cls.buf[0])
    requires FirstMatch(cmds, Line(m.phase.cls), m.scan) < |cmds|
    ensures var i := FirstMatch(cmds, Line(m.phase.cls), m.scan);
      var r := Run(h, cmds, m, [KeyDecoder.Tab, KeyDecoder.Enter] + rest);
      r.outcome == Accepted(cmds[i]) && r.m.scan == i
  {
    var i := FirstMatch(cmds, Line(m.phase.cls), m.scan);
    var enter := [KeyDecoder.Enter] + rest;
    TwoKeys(KeyDecoder.Tab, KeyDecoder.Enter, rest);
    TabShows(h, cmds, m, enter);
    var shown := Shown(h, cmds, m, i);
    EnterAcceptsShown(h, cmds, shown, rest);
  }

  /** Tab with nothing to offer (no command extends the line, or the line
      does not start with a letter) only redraws the line and sends the scan
      pointer back to the head. */
  lemma TabNoMatch(h: seq<string>, cmds: seq<string>, m: Machine, rest: string)
    requires Loadable(h) && Commands(cmds) && Inv(h, cmds, m) && m.phase.Editing?
    requires !IsAlpha(m.phase.cls.buf[0]) || FirstMatch(cmds, Line(m.phase.cls), m.scan) == |cmds|
    ensures Run(h, cmds, m, [KeyDecoder.Tab] + rest)
         == Run(h, cmds, Machine(m.phase, 0, m.out + [Screen(Refresh(m.phase.cls, Prompt))]), rest)
  {
    var cls := m.phase.cls;
    TabStartsWalk(h, cmds, m, rest);
    ScanRunsOff(h, cmds, cls, cls, m.scan, m.out, rest);
  }

  /** While a candidate is shown, Tab resumes the walk one command further
      on, keeping the candidate's buffer and the line's length. */
  lemma TabCycles(h: seq<string>, cmds: seq<string>, m: Machine, rest: string)
    requires Loadable(h) && Commands(cmds) && Inv(h, cmds, m) && m.phase.Showing?
    ensures var cls := m.phase.cls;
      Run(h, cmds, m, [KeyDecoder.Tab] + rest)
      == Run(h, cmds, Machine(Scanning(cls, m.phase.v), m.scan + 1, m.out), rest)
  {
    var next := KeyStep(h, cmds, m, KeyDecoder.Complete);
    assert next == Go(Machine(Scanning(m.phase.cls, m.phase.v), m.scan + 1, m.out));
    RunKey(h, cmds, m, KeyDecoder.Complete, rest);
  }

  /** When Tab walks off the end of the table, the line is redrawn with
      its typed length and the scan pointer returns to the head. */
  lemma TabExhausts(h: seq<string>, cmds: seq<string>, m: Machine, input: string)
    requires Loadable(h) && Commands(cmds) && Inv(h, cmds, m) && m.phase.Showing?
    requires IsAlpha(m.phase.cls.buf[0])
    requires FirstMatch(cmds, Line(m.phase.cls), m.scan + 1) == |cmds|
    ensures Run(h, cmds, m, [KeyDecoder.Tab] + input)
         == Run(h, cmds, Machine(Editing(m.phase.cls), 0, m.out + [Screen(Refresh(m.phase.cls, Prompt))]), input)
  {
    var scanning := Machine(Scanning(m.phase.cls, m.phase.v), m.scan + 1, m.out);
    assert Inv(h, cmds, scanning);
    TabCycles(h, cmds, m, input);
    ScanRunsOff(h, cmds, m.phase.cls, m.phase.v, m.scan + 1, m.out, input);
  }

  /** After the walk runs off the table the shared buffer still holds the
      last candidate shown: Enter then returns that candidate, while the
      screen was last redrawn with the line as typed. */
  lemma ExhaustedKeepsCandidate(h: seq<string>, cmds: seq<string>, m: Machine, rest: string)
    requires Loadable(h) && Commands(cmds) && Inv(h, cmds, m) && m.phase.Showing?
    requires IsAlpha(m.phase.cls.buf[0])
    requires FirstMatch(cmds, Line(m.phase.cls), m.scan + 1) == |cmds|
    ensures var r := Run(h, cmds, m, [KeyDecoder.Tab, KeyDecoder.Enter] + rest);
      && r.outcome == Accepted(CStr(m.phase.v.buf))
      && r.m.scan == 0
      && r.m.out == m.out + [Screen(Refresh(m.phase.cls, Prompt))]
  {
    var cls := m.phase.cls;
    var enter := [KeyDecoder.Enter] + rest;
    var edited := Machine(Editing(cls), 0, m.out + [Screen(Refresh(cls, Prompt))]);
    TwoKeys(KeyDecoder.Tab, KeyDecoder.Enter, rest);
    TabExhausts(h, cmds, m, enter);
    AcceptWhileEditing(h, cmds, edited, rest);
  }

  /** Enter on the line editor returns the buffer's C string. */
  lemma AcceptWhileEditing(h: seq<string>, cmds: seq<string>, m: Machine, rest: string)
    requires Loadable(h) && Commands(cmds) && Inv(h, cmds, m) && m.phase.Editing?
    ensures Run(h, cmds, m, [KeyDecoder.Enter] + rest) == Result(Accepted(CStr(m.phase.cls.buf)), m)
  {
    RunKey(h, cmds, m, KeyDecoder.Accept, rest);
  }

  lemma TwoKeys(a: char, b: char, rest: string)
    ensures [a, b] + rest == [a] + ([b] + rest)
  {
  }
}

=== FILE: history.dfy ===
/** The command history of interpreter_command_line.c: AddHistoryCmd,
    SaveHistoryCmd, LoadHistory and the Up/Down navigation HistoryCmd.
    The global array g_history / g_history_len is a sequence, oldest first;
    the history file is its text. */
module History {
  import opened Text
  import opened LineEditor

  /** g_history_max_len */
  const HistoryMax: nat := 200

  /** The `n` passed to fgets in LoadHistory (g_max_line): a line read from
      the file holds at most FgetsMax - 1 bytes. */
  const FgetsMax: nat := MaxLine

  /** What every history the program builds satisfies: bounded, made of C
      strings, and never the same command twice in a row. */
  ghost predicate WellFormed(h: seq<string>) {
    && |h| <= HistoryMax
    && (forall i :: 0 <= i < |h| ==> NoNul(h[i]))
    && NoAdjacentDup(h)
  }

  predicate NoAdjacentDup(h: seq<string>) {
    forall i :: 0 < i < |h| ==> h[i - 1] != h[i]
  }

  datatype Added = Added(ok: bool, h: seq<string>)

  /** AddHistoryCmd with the eviction its comment describes: a command equal
      to the newest entry is refused; otherwise it is appended, and when the
      history is full the oldest entry is dropped first. (The source's
      eviction moves bytes rather than pointers; see AddHistoryAsWritten.) */
  function AddHistory(h: seq<string>, cmd: string): (r: Added)
    requires |h| <= HistoryMax
    ensures |r.h| <= HistoryMax
    ensures r.ok <==> (|h| == 0 || h[|h| - 1] != cmd)
    ensures !r.ok ==> r.h == h
    ensures r.ok ==> |r.h| > 0 && r.h[|r.h| - 1] == cmd
    ensures r.ok && |h| < HistoryMax ==> r.h == h + [cmd]
    ensures r.ok && |h| == HistoryMax ==> r.h == h[1..] + [cmd] && |r.h| == HistoryMax
  {
    if |h| > 0 && h[|h| - 1] == cmd then Added(false, h)
    else if |h| == HistoryMax then Added(true, h[1..] + [cmd])
    else Added(true, h + [cmd])
  }

  /** Adding keeps a history well formed. */
  lemma AddKeepsWellFormed(h: seq<string>, cmd: string)
    requires WellFormed(h) && NoNul(cmd)
    ensures WellFormed(AddHistory(h, cmd).h)
  {
    var r := AddHistory(h, cmd);
    if r.ok {
      var base := if |h| == HistoryMax then h[1..] else h;
      assert r.h == base + [cmd];
      forall i | 0 < i < |r.h|
        ensures r.h[i - 1] != r.h[i]
      {
        if i < |r.h| - 1 {
          assert r.h[i - 1] == base[i - 1] && r.h[i] == base[i];
        } else {
          assert r.h[i - 1] == h[|h| - 1];
        }
      }
    }
  }

  /** Adding the same command twice in a row leaves the second call refused
      and the length unchanged. */
  lemma AddTwiceRefused(h: seq<string>, cmd: string)
    requires |h| <= HistoryMax
    ensures var once := AddHistory(h, cmd).h;
      !AddHistory(once, cmd).ok && AddHistory(once, cmd).h == once
  {
  }

  /** Adds every command of `cmds` in order. */
  function AddAll(h: seq<string>, cmds: seq<string>): (r: seq<string>)
    requires |h| <= HistoryMax
    ensures |r| <= HistoryMax
    decreases |cmds|
  {
    if |cmds| == 0 then h else AddAll(AddHistory(h, cmds[0]).h, cmds[1..])
  }

  predicate Distinct(s: seq<string>) {
    forall i, j :: 0 <= i < j < |s| ==> s[i] != s[j]
  }

  /** Appending distinct commands keeps the newest HistoryMax of them. */
  lemma {:induction false} AddAllDistinct(h: seq<string>, cmds: seq<string>)
    requires |h| <= HistoryMax && Distinct(h + cmds)
    ensures var all := h + cmds;
      AddAll(h, cmds) == if |all| <= HistoryMax then all else all[|all| - HistoryMax..]
    decreases |cmds|
  {
    var all := h + cmds;
    if |cmds| > 0 {
      var h1 := AddHistory(h, cmds[0]).h;
      AddDistinct(h, cmds);
      AddAllDistinct(h1, cmds[1..]);
      KeepNewest(all, if |h| == HistoryMax then 1 else 0);
    } else {
      assert all == h;
    }
  }

  /** Dropping the oldest of more than HistoryMax entries keeps the same
      newest HistoryMax. */
  lemma KeepNewest(all: seq<string>, drop: nat)
    requires drop <= 1 && drop <= |all| && (drop == 1 ==> |all| > HistoryMax)
    ensures var rest := all[drop..];
      (if |rest| <= HistoryMax then rest else rest[|rest| - HistoryMax..])
      == (if |all| <= HistoryMax then all else all[|all| - HistoryMax..])
  {
    var rest := all[drop..];
    if |rest| > HistoryMax {
      assert rest[|rest| - HistoryMax..] == all[|all| - HistoryMax..];
    }
  }

  /** One distinct command is appended, the oldest entry going when the
      history is full. */
  lemma AddDistinct(h: seq<string>, cmds: seq<string>)
    requires |h| <= HistoryMax && |cmds| > 0 && Distinct(h + cmds)
    ensures var h1 := AddHistory(h, cmds[0]).h;
      var drop := if |h| == HistoryMax then 1 else 0;
      && h1 + cmds[1..] == (h + cmds)[drop..]
      && Distinct(h1 + cmds[1..])
  {
    var all := h + cmds;
    var h1 := AddHistory(h, cmds[0]).h;
    if |h| > 0 {
      assert h[|h| - 1] == all[|h| - 1] && cmds[0] == all[|h|];
    }
    assert h1 == (if |h| == HistoryMax then h[1..] else h) + [cmds[0]];
    var drop := if |h| == HistoryMax then 1 else 0;
    assert h1 + cmds[1..] == all[drop..];
    DistinctSuffix(all, drop);
  }

  lemma DistinctSuffix(s: seq<string>, d: nat)
    requires Distinct(s) && d <= |s|
    ensures Distinct(s[d..])
  {
    var t := s[d..];
    forall i, j | 0 <= i < j < |t| ensures t[i] != t[j] {
      assert t[i] == s[i + d] && t[j] == s[j + d];
    }
  }

  /** Eviction: after HistoryMax + 1 distinct commands, the history holds
      HistoryMax entries and the first command is gone. */
  lemma EvictsOldest(cmds: seq<string>)
    requires |cmds| == HistoryMax + 1
    requires forall i, j :: 0 <= i < j < |cmds| ==> cmds[i] != cmds[j]
    ensures |AddAll([], cmds)| == HistoryMax && cmds[0] !in AddAll([], cmds)
  {
    assert [] + cmds == cmds;
    AddAllDistinct([], cmds);
    assert AddAll([], cmds) == cmds[1..];
  }

  // -----------------------------------------------------------------------
  // The history as the source writes it (AddHistoryCmd, lines 544-553)

  /** A slot of the g_history pointer array. `Spliced` is a pointer whose
      bytes were assembled from two different pointers. */
  datatype Slot = Entry(s: string) | Spliced

  /** Pointers are 8 bytes wide (LP64). */
  const PointerSize: nat := 8

  /** The pointer table as written: its slots, and `room`, the size of the
      buffer g_history[HistoryMax - 1] points to. That buffer is allocated
      at line 538 for the command first stored in the last slot, sized to
      it, and every eviction copies the new command into it again. */
  datatype Table = Table(slots: seq<Slot>, room: nat)

  /** The outcome of AddHistoryCmd as written: the boolean it returns with
      the table after it, or a write past the end of the reused buffer. */
  datatype Stored = Stored(ok: bool, t: Table) | Overflow

  /** The eviction as written: `memmove(g_history, g_history + 1,
      g_history_max_len - 1)` moves 199 BYTES, i.e. the first 24 pointers
      and 7 bytes of the 25th; g_history_len then drops to 199 and the new
      command, with its terminator, is copied into g_history[199] — the
      buffer of the previous newest entry, which overflows when the command
      is longer than that buffer was made for. */
  function AddHistoryAsWritten(t: Table, cmd: string): (r: Stored)
    requires |t.slots| <= HistoryMax
    ensures r.Stored? ==> |r.t.slots| <= HistoryMax
    ensures r.Overflow? <==> && |t.slots| == HistoryMax && t.slots[HistoryMax - 1] != Entry(cmd)
                             && |cmd| + 1 > t.room
    ensures r.Stored? && !r.ok ==> r.t == t
    ensures r.Stored? && r.ok ==> |r.t.slots| > 0 && r.t.slots[|r.t.slots| - 1] == Entry(cmd)
    ensures r.Stored? && r.ok && |t.slots| == HistoryMax - 1 ==> r.t.room == |cmd| + 1
    ensures r.Stored? && |t.slots| != HistoryMax - 1 ==> r.t.room == t.room
  {
    var h := t.slots;
    if |h| > 0 && h[|h| - 1] == Entry(cmd) then Stored(false, t)
    else if |h| == HistoryMax then
      if |cmd| + 1 > t.room then Overflow
      else
        var whole := (HistoryMax - 1) / PointerSize;   // 24 pointers moved whole
        Stored(true, Table(h[1..whole + 1] + [Spliced] + h[whole + 1..HistoryMax - 1] + [Entry(cmd)], t.room))
    else if |h| == HistoryMax - 1 then Stored(true, Table(h + [Entry(cmd)], |cmd| + 1))
    else Stored(true, Table(h + [Entry(cmd)], t.room))
  }

  /** The table as written after HistoryMax distinct commands entered into
      an empty history: each slot holds its command, and the last buffer is
      sized for the last command. */
  function FullTable(h: seq<string>): (t: Table)
    requires |h| == HistoryMax
    ensures |t.slots| == HistoryMax && t.room == |h[HistoryMax - 1]| + 1
    ensures forall i :: 0 <= i < HistoryMax ==> t.slots[i] == Entry(h[i])
  {
    Table(Entries(h), |h[HistoryMax - 1]| + 1)
  }

  /** The slots of a table holding exactly the commands `p`, in order. */
  function Entries(p: seq<string>): (e: seq<Slot>)
    ensures |e| == |p| && forall i :: 0 <= i < |p| ==> e[i] == Entry(p[i])
  {
    seq(|p|, i requires 0 <= i < |p| => Entry(p[i]))
  }

  /** AddHistoryCmd as written on each command in turn; None once one of
      them writes past its buffer. */
  function AddAllAsWritten(t: Table, cmds: seq<string>): (r: Option<Table>)
    requires |t.slots| <= HistoryMax
    ensures r.Some? ==> |r.value.slots| <= HistoryMax
    decreases |cmds|
  {
    if |cmds| == 0 then Some(t)
    else match AddHistoryAsWritten(t, cmds[0])
      case Overflow => None
      case Stored(_, t') => AddAllAsWritten(t', cmds[1..])
  }

  /** Filling the last free slots with distinct commands stores each in its
      own buffer, never evicts, and leaves the last buffer sized for the
      last command: 200 distinct commands from an empty history give
      FullTable. */
  lemma {:induction false} FillsFullTable(p: seq<string>, cmds: seq<string>, room: nat)
    requires |cmds| > 0 && |p| + |cmds| == HistoryMax
    requires forall i, j :: 0 <= i < j < |p + cmds| ==> (p + cmds)[i] != (p + cmds)[j]
    ensures AddAllAsWritten(Table(Entries(p), room), cmds) == Some(FullTable(p + cmds))
    decreases |cmds|
  {
    var c := cmds[0];
    var all := p + cmds;
    assert c == all[|p|];
    assert |p| > 0 ==> p[|p| - 1] == all[|p| - 1];
    var t' := Table(Entries(p + [c]), if |p| == HistoryMax - 1 then |c| + 1 else room);
    assert Entries(p) + [Entry(c)] == Entries(p + [c]);
    assert AddHistoryAsWritten(Table(Entries(p), room), c) == Stored(true, t');
    if |cmds| == 1 {
      assert all == p + [c];
    } else {
      assert (p + [c]) + cmds[1..] == all;
      FillsFullTable(p + [c], cmds[1..], t'.room);
    }
  }

  /** On a full history of distinct entries, the eviction as written writes
      past the reused buffer exactly when the new command is longer than the
      newest entry; otherwise it loses that entry, which the intended
      eviction keeps. */
  lemma AsWrittenLosesNewest(h: seq<string>, cmd: string)
    requires |h| == HistoryMax && cmd != h[HistoryMax - 1]
    requires forall i, j :: 0 <= i < j < |h| ==> h[i] != h[j]
    ensures var r := AddHistoryAsWritten(FullTable(h), cmd);
      && (r.Overflow? <==> |cmd| > |h[HistoryMax - 1]|)
      && (r.Stored? ==> Entry(h[HistoryMax - 1]) !in r.t.slots)
    ensures h[HistoryMax - 1] in AddHistory(h, cmd).h
  {
    var t := FullTable(h);
    var r := AddHistoryAsWritten(t, cmd);
    if r.Stored? {
      var slots := t.slots;
      assert r.t.slots == slots[1..25] + [Spliced] + slots[25..199] + [Entry(cmd)];
    }
    assert AddHistory(h, cmd).h[198] == h[199];
  }

  /** On a full history of distinct entries, entering the second newest
      entry again, when it fits the reused buffer, leaves it in the last two
      slots as written, a repeat the intended eviction never produces; when
      it is longer it overflows that buffer. */
  lemma AsWrittenRepeatsAdjacent(h: seq<string>)
    requires |h| == HistoryMax
    requires forall i, j :: 0 <= i < j < |h| ==> h[i] != h[j]
    ensures var r := AddHistoryAsWritten(FullTable(h), h[HistoryMax - 2]);
      && (r.Overflow? <==> |h[HistoryMax - 2]| > |h[HistoryMax - 1]|)
      && (r.Stored? ==> |r.t.slots| == HistoryMax
                        && r.t.slots[HistoryMax - 2] == r.t.slots[HistoryMax - 1] == Entry(h[HistoryMax - 2]))
    ensures var r := AddHistory(h, h[HistoryMax - 2]).h;
      |r| == HistoryMax && r[HistoryMax - 2] != r[HistoryMax - 1]
  {
    var t := FullTable(h);
    var r := AddHistoryAsWritten(t, h[198]);
    if r.Stored? {
      var slots := t.slots;
      assert r.t.slots == slots[1..25] + [Spliced] + slots[25..199] + [Entry(h[198])];
      assert r.t.slots[198] == slots[198];
    }
    assert AddHistory(h, h[198]).h == h[1..] + [h[198]];
  }

  /** A concrete overflow: the newest of 200 entries is "a" and the next
      command is "abc", four bytes copied into a two-byte buffer. */
  lemma AsWrittenOverflows(h: seq<string>)
    requires |h| == HistoryMax && h[HistoryMax - 1] == "a"
    ensures AddHistoryAsWritten(FullTable(h), "abc").Overflow?
  {
  }

  // -----------------------------------------------------------------------
  // The history file

  /** SaveHistoryCmd: each entry followed by a newline. */
  function SaveHistory(h: seq<string>): (text: string)
    ensures |text| >= |h|
    ensures |h| > 0 ==> |text| > |h[0]| && text[..|h[0]| + 1] == h[0] + "\n"
                        && text[|h[0]| + 1..] == SaveHistory(h[1..])
  {
    if |h| == 0 then [] else h[0] + "\n" + SaveHistory(h[1..])
  }

  /** What one fgets(buf, FgetsMax, file) call returns: up to and including
      the first newline, at most FgetsMax - 1 bytes. */
  function FgetsLength(text: string): (k: nat)
    requires |text| > 0
    ensures 0 < k <= |text| && k <= FgetsMax - 1
  {
    var nl := IndexOf(text, '\n');
    var want := if nl < |text| then nl + 1 else |text|;
    if want > FgetsMax - 1 then FgetsMax - 1 else want
  }

  /** LoadHistory's per-line cut: the C string in the buffer, ended at its
      first carriage return, or else at its first newline. */
  function CutLine(chunk: string): (r: string)
    ensures NoNul(r) && StartsWith(chunk, r)
    ensures '\r' in CStr(chunk) ==> r == CStr(chunk)[..IndexOf(CStr(chunk), '\r')]
    ensures '\r' !in CStr(chunk) ==> r == CStr(chunk)[..IndexOf(CStr(chunk), '\n')]
  {
    var c := CStr(chunk);
    var cr := IndexOf(c, '\r');
    var r := if cr < |c| then c[..cr] else c[..IndexOf(c, '\n')];
    assert chunk[..|r|] == r by { assert c[..|r|] == r; }
    r
  }

  /** Feeds every line of `text` through AddHistory, starting from `h`. */
  function LoadText(text: string, h: seq<string>): (r: seq<string>)
    requires |h| <= HistoryMax
    ensures |r| <= HistoryMax
    decreases |text|
  {
    if |text| == 0 then h
    else
      var k := FgetsLength(text);
      LoadText(text[k..], AddHistory(h, CutLine(text[..k])).h)
  }

  /** LoadHistory: false when the file cannot be opened (None). */
  function LoadHistory(file: Option<string>, h: seq<string>): (r: Added)
    requires |h| <= HistoryMax
    ensures !r.ok <==> file.None?
    ensures file.None? ==> r.h == h
  {
    match file
    case None => Added(false, h)
    case Some(text) => Added(true, LoadText(text, h))
  }

  /** The entries a saved file can reproduce: C strings without line breaks
      short enough for one fgets call with their newline. */
  ghost predicate Saveable(e: string) {
    NoNul(e) && '\r' !in e && '\n' !in e && |e| + 1 <= FgetsMax - 1
  }

  lemma {:induction false} LoadSaved(acc: seq<string>, h: seq<string>)
    requires |acc + h| <= HistoryMax && NoAdjacentDup(acc + h)
    requires forall i :: 0 <= i < |h| ==> Saveable(h[i])
    ensures LoadText(SaveHistory(h), acc) == acc + h
    decreases |h|
  {
    if |h| > 0 {
      var e := h[0];
      var tail := h[1..];
      var acc' := acc + [e];
      assert acc' + tail == acc + h;
      assert forall i :: 0 <= i < |tail| ==> tail[i] == h[i + 1];
      LoadSaved(acc', tail);
      if |acc| > 0 {
        assert acc[|acc| - 1] == (acc + h)[|acc| - 1] && e == (acc + h)[|acc|];
      }
      LoadStep(acc, h);
    }
  }

  /** Loading a saved file adds its first entry, then loads the rest. */
  lemma LoadStep(acc: seq<string>, h: seq<string>)
    requires |h| > 0 && Saveable(h[0]) && |acc| < HistoryMax
    requires |acc| > 0 ==> acc[|acc| - 1] != h[0]
    ensures LoadText(SaveHistory(h), acc) == LoadText(SaveHistory(h[1..]), acc + [h[0]])
  {
    FirstSavedLine(h);
  }

  /** The first fgets call on a saved file returns the first entry and its
      newline, which the cut turns back into the entry. */
  lemma FirstSavedLine(h: seq<string>)
    requires |h| > 0 && Saveable(h[0])
    ensures var text := SaveHistory(h);
      && |text| > 0
      && var k := FgetsLength(text);
         CutLine(text[..k]) == h[0] && text[k..] == SaveHistory(h[1..])
  {
    var text := SaveHistory(h);
    var e := h[0];
    assert text == e + "\n" + SaveHistory(h[1..]);
    assert text[|e|] == '\n';
    assert IndexOf(text, '\n') == |e| by {
      assert forall i :: 0 <= i < |e| ==> text[i] == e[i];
    }
    var k := FgetsLength(text);
    assert k == |e| + 1;
    assert text[..k] == e + "\n";
    var c := CStr(e + "\n");
    assert c == e + "\n" by {
      assert NoNul(e + "\n");
    }
    assert IndexOf(c, '\r') == |c| by {
      assert forall i :: 0 <= i < |c| ==> c[i] != '\r';
    }
    assert IndexOf(c, '\n') == |e|;
    assert text[k..] == SaveHistory(h[1..]);
  }

  /** Save/load round trip: loading a saved well-formed history into an
      empty one reproduces it. */
  lemma SaveLoadRoundTrip(h: seq<string>)
    requires WellFormed(h)
    requires forall i :: 0 <= i < |h| ==> Saveable(h[i])
    ensures LoadHistory(Some(SaveHistory(h)), []) == Added(true, h)
  {
    assert [] + h == h;
    LoadSaved([], h);
  }

  // -----------------------------------------------------------------------
  // Navigation

  datatype Direction = Down | Up

  /** The navigation index range HistoryCmd keeps: 0 when not browsing,
      and below the number of entries. */
  ghost predicate IndexInRange(s: EditState, h: seq<string>) {
    0 <= s.historyIdx && (s.historyIdx == 0 || s.historyIdx < |h|)
  }

  /** The entries HistoryCmd can copy into the buffer. */
  ghost predicate Loadable(h: seq<string>) {
    forall i :: 0 <= i < |h| ==> NoNul(h[i]) && |h[i]| <= MaxLine
  }

  /** Replaces the line by entry `e` (strncpy + terminator), cursor at its end. */
  function LoadEntry(s: EditState, e: string, idx: int): (t: EditState)
    requires Valid(s) && |e| <= MaxLine
    ensures Valid(t) && Line(t) == e && t.pos == t.len == |e| && t.historyIdx == idx
    ensures t.col == s.col
  {
    var b := e + ['\0'] + s.buf[|e| + 1..];
    assert b[..|e|] == e;
    s.(buf := b, len := |e|, pos := |e|, historyIdx := idx)
  }

  /** HistoryCmd. Up moves towards older entries: index k shows entry
      |h| - k, so the oldest entry h[0] is never shown; Up past the oldest
      shown entry beeps and sets len = pos = 0 without touching the bytes or
      redrawing. Down back to index 0 empties the line. */
  function Navigate(s: EditState, d: Direction, h: seq<string>): (r: Step)
    requires Valid(s) && IndexInRange(s, h) && Loadable(h)
    ensures Valid(r.st) && IndexInRange(r.st, h) && r.st.col == s.col
    ensures |h| == 0 ==> r == Step(s, false, true)
    ensures r.st.historyIdx > 0 && r.redraw ==>
              1 <= |h| - r.st.historyIdx < |h| && Line(r.st) == h[|h| - r.st.historyIdx]
              && r.st.pos == r.st.len
    ensures r.redraw && r.st.historyIdx == 0 ==> Line(r.st) == [] && CStr(r.st.buf) == []
    ensures r.beep ==> !r.redraw
    ensures |h| > 0 && d == Up && s.historyIdx + 1 >= |h| ==>
              r == Step(s.(len := 0, pos := 0, historyIdx := |h| - 1), false, true)
  {
    var n := |h|;
    if n == 0 then Step(s, false, true)
    else if d == Down then
      var idx := s.historyIdx - 1;
      if idx == 0 then
        Step(s.(buf := ['\0'] + s.buf[1..], len := 0, pos := 0, historyIdx := 0), true, false)
      else if idx < 0 then Step(s.(historyIdx := 0), false, true)
      else Step(LoadEntry(s, h[n - idx], idx), true, false)
    else
      var idx := s.historyIdx + 1;
      if idx >= n then Step(s.(len := 0, pos := 0, historyIdx := n - 1), false, true)
      else Step(LoadEntry(s, h[n - idx], idx), true, false)
  }

  /** `k` presses of Up. */
  function UpN(s: EditState, h: seq<string>, k: nat): (r: EditState)
    requires Valid(s) && IndexInRange(s, h) && Loadable(h)
    ensures Valid(r) && IndexInRange(r, h)
    decreases k
  {
    if k == 0 then s else UpN(Navigate(s, Up, h).st, h, k - 1)
  }

  /** From a fresh line, k presses of Up show the k-th newest entry for
      1 <= k < |h|; one more press beeps and empties the line length, so the
      oldest entry is never reached. */
  lemma {:induction false} UpWalksBack(s: EditState, h: seq<string>, k: nat)
    requires Valid(s) && s.historyIdx == 0 && Loadable(h)
    requires 1 <= k < |h|
    ensures var t := UpN(s, h, k);
      t.historyIdx == k && Line(t) == h[|h| - k] && t.pos == t.len
  {
    if k == 1 {
      assert UpN(s, h, 1) == UpN(Navigate(s, Up, h).st, h, 0);
    } else {
      UpWalksBack(s, h, k - 1);
      UpNSplit(s, h, k - 1);
    }
  }

  lemma {:induction false} UpNSplit(s: EditState, h: seq<string>, k: nat)
    requires Valid(s) && IndexInRange(s, h) && Loadable(h)
    ensures UpN(s, h, k + 1) == Navigate(UpN(s, h, k), Up, h).st
    decreases k
  {
    if k > 0 {
      var s1 := Navigate(s, Up, h).st;
      assert UpN(s, h, k + 1) == UpN(s1, h, k);
      assert UpN(s, h, k) == UpN(s1, h, k - 1);
      UpNSplit(s1, h, k - 1);
    }
  }

  /** The n-th press of Up rings the bell without a redraw, and sets the
      length and cursor to 0 while the bytes of the oldest entry shown stay
      in the buffer. */
  lemma UpPastOldest(s: EditState, h: seq<string>)
    requires Valid(s) && s.historyIdx == 0 && Loadable(h) && |h| > 0
    ensures var t := UpN(s, h, |h|);
      t.historyIdx == |h| - 1 && t.len == 0 && t.pos == 0
    ensures var p := UpN(s, h, |h| - 1);
      var r := Navigate(p, Up, h);
      r.st == UpN(s, h, |h|) && r.beep && !r.redraw && r.st.buf == p.buf
    ensures |h| > 1 ==> UpN(s, h, |h|).buf[..|h[1]|] == h[1]
  {
    UpNSplit(s, h, |h| - 1);
    if |h| > 1 {
      UpWalksBack(s, h, |h| - 1);
    }
  }
}

=== FILE: http_client.dfy ===
/** The text side of client/interpreter_client.c: the request lines the
    client sends, IsDir and GetName, which read the server's directory
    listing back, CompletePath, and AddNameToList. Sockets and files are
    left to the caller; a NULL pointer is None. */
module HttpClient {
  import opened Text
  import HttpServer

  /** g_buf_max_size: the longest name GetName accepts. */
  const BufMaxSize: nat := 1024

  /** The bytes GetName compares with strncmp before it skips 17 bytes. */
  const RowPrefix: string := "<tr><td><a href="

  // -----------------------------------------------------------------------
  // Requests

  /** IsDir: false for NULL, otherwise whether the last byte is '/'. For an
      empty string the source reads the byte before it; the model answers
      false. */
  function IsDir(path: Option<string>): (r: bool)
    ensures r ==> path.Some? && |path.value| > 0
    ensures path.Some? && |path.value| > 0 ==> (r <==> path.value[|path.value| - 1] == '/')
  {
    path.Some? && |path.value| > 0 && path.value[|path.value| - 1] == '/'
  }

  /** GetDir's strcat: a '/' is appended unless the name already ends in
      one. */
  function WithSlash(dir: string): (d: string)
    ensures IsDir(Some(d))
    ensures StartsWith(d, dir) && |dir| <= |d| <= |dir| + 1
  {
    if IsDir(Some(dir)) then dir else dir + "/"
  }

  /** Appending the slash is idempotent, and adds one only when missing. */
  lemma WithSlashOnce(dir: string)
    ensures WithSlash(WithSlash(dir)) == WithSlash(dir)
    ensures IsDir(Some(dir)) <==> WithSlash(dir) == dir
  {
  }

  /** The request line, as RioReadLine hands it to the server. */
  function RequestLine(name: string): string {
    "GET " + name + " HTTP/1.1\r\n"
  }

  /** "GET name HTTP/1.1\r\n\r\n": a request line and an empty header
      section (section 3.1.1 of RFC 7230). */
  function RequestText(name: string): (text: string)
    ensures text == RequestLine(name) + "\r\n"
  {
    "GET " + name + " HTTP/1.1\r\n\r\n"
  }

  /** GetFile: nothing is sent for a NULL name or a failed connection. */
  function GetFile(name: Option<string>, fd: int): (sent: Option<string>)
    ensures sent.Some? <==> name.Some? && fd != -1
    ensures sent.Some? ==> sent.value == RequestText(name.value)
  {
    if name.None? || fd == -1 then None else Some(RequestText(name.value))
  }

  /** What GetDir leaves behind: the caller's name, to which it may have
      appended '/', and the request it sent. */
  datatype DirRequest = DirRequest(dir: string, sent: string)

  /** GetDir: nothing happens for a NULL name or a failed connection;
      otherwise the name gets its trailing '/' in place and is requested.
      The caller's buffer is taken to have room for the '/'; GetDirIn
      below models its size. */
  function GetDir(dir: Option<string>, fd: int): (r: Option<DirRequest>)
    ensures r.Some? <==> dir.Some? && fd != -1
    ensures r.Some? ==> IsDir(Some(r.value.dir)) && StartsWith(r.value.dir, dir.value)
    ensures r.Some? ==> r.value.sent == RequestText(r.value.dir)
  {
    if dir.None? || fd == -1 then None
    else
      var d := WithSlash(dir.value);
      Some(DirRequest(d, RequestText(d)))
  }

  /** GetDir on the caller's buffer: the request, or a write past its end. */
  datatype Written = Written(r: Option<DirRequest>) | Overflow

  /** GetDir on a caller buffer of `cap` bytes holding `dir` and its
      terminator. strcat puts the '/' at offset |dir| and a terminator after
      it, so a name without its '/' needs |dir| + 2 bytes; with fewer the
      terminator is written past the end of the buffer. */
  function GetDirIn(dir: Option<string>, cap: nat, fd: int): (w: Written)
    requires dir.Some? ==> |dir.value| < cap
    ensures w.Overflow? ==> dir.Some? && fd != -1 && !IsDir(dir) && cap == |dir.value| + 1
    ensures w.Written? ==> w.r == GetDir(dir, fd)
    ensures w.Written? && w.r.Some? ==> |w.r.value.dir| < cap
  {
    if dir.None? || fd == -1 then Written(None)
    else
      var d := WithSlash(dir.value);
      if |d| + 1 > cap then Overflow else Written(Some(DirRequest(d, RequestText(d))))
  }

  /** RunClient allocates strlen(name) + 1 bytes for the -d name, so GetDir
      on a connected socket writes past that buffer for every name that does
      not already end in '/', "dir" among them. */
  lemma RunClientBufferOverflows(name: string, fd: int)
    requires fd != -1 && !IsDir(Some(name))
    ensures GetDirIn(Some(name), |name| + 1, fd) == Overflow
    ensures GetDirIn(Some("dir"), 4, fd) == Overflow
  {
  }

  /** With one byte of room for the '/', GetDir never writes past the
      buffer and sends the request for the name with its slash. */
  lemma RoomForSlash(name: string, fd: int)
    ensures GetDirIn(Some(name), |name| + 2, fd) == Written(GetDir(Some(name), fd))
  {
  }

  /** The server reads back the name the client asked for: the request
      line's target, mapped as ParseRequest maps it, with no range. */
  lemma ServerReadsRequest(junk: string, name: string)
    requires |junk| == HttpServer.MaxLine
    requires |name| > 0 && NoNul(name) && forall i :: 0 <= i < |name| ==> !IsSpace(name[i])
    requires |name| < 1000
    ensures HttpServer.ParseRequest(junk, HttpServer.Line(RequestLine(name)), [HttpServer.Line("\r\n")])
         == HttpServer.Parsed(HttpServer.Request(HttpServer.MapUri(name), HttpServer.Range(0, 0)))
  {
    RequestLineTarget(name);
    RequestLineNoNul(name);
    RequestLineStart(name);
    PlainRequest(junk, RequestLine(name));
  }

  lemma NoNulJoin(a: string, b: string, c: string)
    requires NoNul(a) && NoNul(b) && NoNul(c)
    ensures NoNul(a + b + c)
  {
    assert forall i :: 0 <= i < |a + b + c| ==> (a + b + c)[i] in a + b + c;
    assert forall x :: x in a + b + c ==> x in a || x in b || x in c;
  }

  lemma RequestLineNoNul(name: string)
    requires NoNul(name)
    ensures NoNul(RequestLine(name))
  {
    NoNulJoin("GET ", name, " HTTP/1.1\r\n");
  }

  lemma RequestLineTarget(name: string)
    requires |name| > 0 && forall i :: 0 <= i < |name| ==> !IsSpace(name[i])
    ensures HttpServer.RequestTarget(RequestLine(name)) == Some(name)
  {
    assert RequestLine(name) == "GET" + " " + name + " HTTP/1.1\r\n";
    HttpServer.TargetOfRequestLine("GET", name, " HTTP/1.1\r\n");
  }

  lemma RequestLineStart(name: string)
    ensures RequestLine(name)[0] == 'G' && RequestLine(name)[1] == 'E'
    ensures !HttpServer.EndsHeaders(RequestLine(name))
  {
  }

  /** A request line that names a target, then the empty line. */
  lemma PlainRequest(junk: string, first: string)
    requires |junk| == HttpServer.MaxLine
    requires 0 < |first| < HttpServer.MaxLine && NoNul(first) && !HttpServer.EndsHeaders(first)
    requires HttpServer.RequestTarget(first).Some?
    ensures HttpServer.ParseRequest(junk, HttpServer.Line(first), [HttpServer.Line("\r\n")])
         == HttpServer.Parsed(HttpServer.Request(HttpServer.MapUri(HttpServer.RequestTarget(first).value), HttpServer.Range(0, 0)))
  {
    var buf := HttpServer.Store(junk, HttpServer.Line(first));
    HttpServer.StopsOnLine(junk, first);
    HttpServer.BlankLineEnds(buf, HttpServer.Range(0, 0));
    HttpServer.ParseFixedAgrees(junk, HttpServer.Line(first), [HttpServer.Line("\r\n")]);
  }

  /** A name without a leading '/' reaches the server unchanged. */
  lemma RelativeNameUnchanged(name: string)
    requires |name| > 0 && name[0] != '/'
    ensures HttpServer.MapUri(name) == name
  {
  }

  // -----------------------------------------------------------------------
  // Reading the listing

  /** GetName: NULL unless the line starts with RowPrefix; otherwise the
      bytes from offset 17 up to the next '"', or NULL when that name is
      longer than g_buf_max_size. Where the source would scan past the end
      of the string (no '"' after offset 17, or a line of 16 bytes) the
      model answers NULL. */
  function GetName(buf: Option<string>): (name: Option<string>)
    ensures name.Some? ==> buf.Some? && StartsWith(buf.value, RowPrefix)
    ensures name.Some? ==> var n := name.value;
      && |n| <= BufMaxSize && '"' !in n
      && 17 + |n| < |buf.value| && buf.value[17..17 + |n|] == n && buf.value[17 + |n|] == '"'
    ensures (buf.Some? && StartsWith(buf.value, RowPrefix) && 17 <= |buf.value| && '"' in buf.value[17..]
             && name.None?) ==> IndexOf(buf.value[17..], '"') > BufMaxSize
  {
    if buf.None? || !StartsWith(buf.value, RowPrefix) || |buf.value| < 17 then None
    else
      var rest := buf.value[17..];
      var k := IndexOf(rest, '"');
      if k == |rest| || k > BufMaxSize then None
      else
        assert rest[..k] == buf.value[17..17 + k];
        Some(rest[..k])
  }

  /** GetName reads back the linked name of a listing row, and IsDir tells
      directories from files by it. */
  lemma GetNameOfRow(e: HttpServer.Entry)
    requires '"' !in e.name && '/' !in e.name
    requires |HttpServer.Linked(e)| <= BufMaxSize
    ensures GetName(Some(HttpServer.Row(e))) == Some(HttpServer.Linked(e))
    ensures IsDir(GetName(Some(HttpServer.Row(e)))) <==> e.kind == HttpServer.Subdirectory
  {
    var l := HttpServer.Linked(e);
    var tail := HttpServer.RowTail(e);
    Assoc(HttpServer.RowOpen, l, tail);
    assert '"' !in l by {
      assert forall c :: c in l ==> c in e.name || c == '/';
    }
    GetNameAfterOpen(l, tail);
    if e.kind != HttpServer.Subdirectory && |l| > 0 {
      assert l == e.name;
      assert l[|l| - 1] in e.name;
    }
  }

  lemma GetNameAfterOpen(l: string, tail: string)
    requires '"' !in l && |l| <= BufMaxSize && |tail| > 0 && tail[0] == '"'
    ensures GetName(Some(HttpServer.RowOpen + (l + tail))) == Some(l)
  {
    var row := HttpServer.RowOpen + (l + tail);
    Split(HttpServer.RowOpen, l + tail);
    OpenHasPrefix();
    assert row[..16] == HttpServer.RowOpen[..16];
    IndexOfAfter(l, tail, '"');
    Split(l, tail);
  }

  lemma OpenHasPrefix()
    ensures |HttpServer.RowOpen| == 17 && HttpServer.RowOpen[..16] == RowPrefix
  {
  }

  /** The names DownloadDir collects: GetName of each line, NULLs
      skipped. */
  function Names(lines: seq<string>): (names: seq<string>)
    ensures |names| <= |lines|
  {
    if |lines| == 0 then []
    else
      var n := GetName(Some(lines[0]));
      (if n.Some? then [n.value] else []) + Names(lines[1..])
  }

  lemma {:induction false} NamesConcat(a: seq<string>, b: seq<string>)
    ensures Names(a + b) == Names(a) + Names(b)
    decreases |a|
  {
    if |a| > 0 {
      assert (a + b)[0] == a[0] && (a + b)[1..] == a[1..] + b;
      NamesConcat(a[1..], b);
    } else {
      assert a + b == b;
    }
  }

  /** The linked names of the entries, in order. */
  function LinkedNames(es: seq<HttpServer.Entry>): (r: seq<string>)
    ensures |r| == |es|
    ensures forall i :: 0 <= i < |es| ==> r[i] == HttpServer.Linked(es[i])
  {
    if |es| == 0 then [] else [HttpServer.Linked(es[0])] + LinkedNames(es[1..])
  }

  predicate PlainName(e: HttpServer.Entry) {
    '"' !in e.name && '/' !in e.name && |e.name| < BufMaxSize
  }

  /** Reading a listing's rows gives back, in order, the linked name of
      every entry the server lists, and nothing else. */
  lemma {:induction false} ListingRoundTrip(entries: seq<HttpServer.Entry>)
    requires forall i :: 0 <= i < |entries| ==> PlainName(entries[i])
    ensures Names(HttpServer.Rows(entries)) == LinkedNames(HttpServer.ListedEntries(entries))
    decreases |entries|
  {
    if |entries| > 0 {
      var e := entries[0];
      var tail := entries[1..];
      var first := if HttpServer.Listed(e) then [HttpServer.Row(e)] else [];
      var firstListed := if HttpServer.Listed(e) then [e] else [];
      assert HttpServer.Rows(entries) == first + HttpServer.Rows(tail);
      assert HttpServer.ListedEntries(entries) == firstListed + HttpServer.ListedEntries(tail);
      NamesConcat(first, HttpServer.Rows(tail));
      LinkedNamesConcat(firstListed, HttpServer.ListedEntries(tail));
      FirstName(e);
      assert forall i :: 0 <= i < |tail| ==> tail[i] == entries[i + 1];
      ListingRoundTrip(tail);
    }
  }

  /** One entry's row, if it has one, reads back as its linked name. */
  lemma FirstName(e: HttpServer.Entry)
    requires PlainName(e)
    ensures Names(if HttpServer.Listed(e) then [HttpServer.Row(e)] else [])
         == LinkedNames(if HttpServer.Listed(e) then [e] else [])
  {
    if HttpServer.Listed(e) {
      GetNameOfRow(e);
      assert [HttpServer.Row(e)][1..] == [];
    }
  }

  lemma LinkedNamesConcat(a: seq<HttpServer.Entry>, b: seq<HttpServer.Entry>)
    ensures LinkedNames(a + b) == LinkedNames(a) + LinkedNames(b)
  {
    var l := LinkedNames(a + b);
    var r := LinkedNames(a) + LinkedNames(b);
    assert |l| == |r|;
    forall i | 0 <= i < |l| ensures l[i] == r[i] {
      if i < |a| {
        assert (a + b)[i] == a[i];
      } else {
        assert (a + b)[i] == b[i - |a|];
      }
    }
  }

  /** The lines around the rows carry no name. */
  lemma PageLinesHaveNoName()
    ensures GetName(Some(HttpServer.HtmlHead)) == None
    ensures GetName(Some(HttpServer.HtmlTail)) == None
  {
    assert HttpServer.HtmlHead[1] == 'h';
    NotARow(HttpServer.HtmlHead);
    assert HttpServer.HtmlTail[1] == '/';
    NotARow(HttpServer.HtmlTail);
  }

  /** A line whose second byte is not a row's carries no name. */
  lemma NotARow(line: string)
    requires |line| > 1 && line[1] != 't'
    ensures GetName(Some(line)) == None
  {
    assert RowPrefix[1] == 't';
    assert |RowPrefix| <= |line| ==> line[..|RowPrefix|][1] == line[1];
  }

  // -----------------------------------------------------------------------
  // Building the lists

  /** CompletePath: NULL when either part is; otherwise the two joined
      with no separator in between. */
  function CompletePath(dir: Option<string>, file: Option<string>): (path: Option<string>)
    ensures path.None? <==> dir.None? || file.None?
    ensures path.Some? ==> StartsWith(path.value, dir.value) && path.value[|dir.value|..] == file.value
  {
    if dir.None? || file.None? then None else Some(dir.value + file.value)
  }

  /** No separator is added: the directory name must end in '/' already,
      as GetDir has made it. */
  lemma CompletePathAfterGetDir(dir: string, name: string)
    ensures CompletePath(Some(WithSlash(dir)), Some(name)).value
         == (if IsDir(Some(dir)) then dir else dir + "/") + name
    ensures !IsDir(Some(dir)) && |name| > 0 ==>
      CompletePath(Some(dir), Some(name)).value[|dir|] == name[0]
  {
    if !IsDir(Some(dir)) && |name| > 0 {
      Split(dir, name);
    }
  }

  /** A slot of a NULL-terminated `char **` list. */
  type List = seq<Option<string>>

  /** The result of AddNameToList and the list after it. */
  datatype Added = Added(ok: bool, list: Option<List>)

  /** AddNameToList: false for a NULL list, a NULL name or an empty name;
      otherwise a copy of the name goes to slot `idx` and no other slot
      changes. The slot must exist (the source writes without a bound). */
  function AddNameToList(list: Option<List>, idx: nat, name: Option<string>): (r: Added)
    requires list.Some? && name.Some? && |name.value| > 0 ==> idx < |list.value|
    requires name.Some? ==> NoNul(name.value)
    ensures r.ok <==> list.Some? && name.Some? && |name.value| > 0
    ensures !r.ok ==> r.list == list
    ensures r.ok ==> r.list.Some? && |r.list.value| == |list.value| && r.list.value[idx] == name
    ensures r.ok ==> forall j :: 0 <= j < |list.value| && j != idx ==> r.list.value[j] == list.value[j]
  {
    if list.None? || name.None? || |name.value| == 0 then Added(false, list)
    else Added(true, Some(list.value[idx := name]))
  }

  /** The names before the first NULL slot: what DownloadDir's walk over a
      list visits. */
  function UpToNull(list: List): (names: seq<string>)
    ensures |names| <= |list|
  {
    if |list| == 0 || list[0].None? then [] else [list[0].value] + UpToNull(list[1..])
  }

  /** Adding names one after the other at slots idx, idx + 1, ... */
  function AddAll(list: List, idx: nat, names: seq<string>): (r: Added)
    requires idx + |names| <= |list|
    requires forall i :: 0 <= i < |names| ==> |names[i]| > 0 && NoNul(names[i])
    ensures r.ok && r.list.Some? && |r.list.value| == |list|
    decreases |names|
  {
    if |names| == 0 then Added(true, Some(list))
    else
      var a := AddNameToList(Some(list), idx, Some(names[0]));
      AddAll(a.list.value, idx + 1, names[1..])
  }

  lemma {:induction false} AddAllStores(list: List, idx: nat, names: seq<string>)
    requires idx + |names| <= |list|
    requires forall i :: 0 <= i < |names| ==> |names[i]| > 0 && NoNul(names[i])
    ensures var r := AddAll(list, idx, names);
      && r.ok
      && (forall i :: 0 <= i < |names| ==> r.list.value[idx + i] == Some(names[i]))
      && (forall j :: 0 <= j < |list| && !(idx <= j < idx + |names|) ==> r.list.value[j] == list[j])
    decreases |names|
  {
    if |names| > 0 {
      var a := AddNameToList(Some(list), idx, Some(names[0]));
      AddAllStores(a.list.value, idx + 1, names[1..]);
    }
  }

  /** Filling an all-NULL list from slot 0 with names leaves, up to its
      first NULL, exactly those names, provided a NULL slot remains. */
  lemma FilledListReadsBack(list: List, names: seq<string>)
    requires |names| < |list| && forall j :: 0 <= j < |list| ==> list[j].None?
    requires forall i :: 0 <= i < |names| ==> |names[i]| > 0 && NoNul(names[i])
    ensures UpToNull(AddAll(list, 0, names).list.value) == names
  {
    AddAllStores(list, 0, names);
    ReadBack(AddAll(list, 0, names).list.value, names);
  }

  lemma {:induction false} ReadBack(l: List, names: seq<string>)
    requires |names| < |l|
    requires forall i :: 0 <= i < |names| ==> l[i] == Some(names[i])
    requires l[|names|].None?
    ensures UpToNull(l) == names
    decreases |names|
  {
    if |names| > 0 {
      ReadBack(l[1..], names[1..]);
      assert [names[0]] + names[1..] == names;
    }
  }
}

=== FILE: http_server.dfy ===
/** The request handling of interpreter_server.c, as text: reading the
    request line and the header lines, mapping the request-target to a file
    name, the `Range: bytes=` header, the status line and header fields of
    each response, and the rows of a directory listing. The socket, the file
    system and the clock are replaced by the values they hand the server:
    the results of the line reads, the kind and size of the file opened,
    and each directory entry with its formatted time and size. */
module HttpServer {
  import opened Text

  /** MAXLINE: the size of the line buffer. */
  const MaxLine: nat := 1024

  /** `unsigned long` arithmetic is modulo 2^64. */
  const ULongMod: nat := 0x1_0000_0000_0000_0000

  /** The unsigned result of one addition or subtraction of two
      `unsigned long` values: the exact value reduced modulo 2^64. */
  function Wrap(n: int): (u: nat)
    requires -(ULongMod as int) < n < 2 * ULongMod
    ensures u < ULongMod
    ensures u == n || u == n + ULongMod || u == n - ULongMod
  {
    if n < 0 then n + ULongMod else if n >= ULongMod then n - ULongMod else n
  }

  predicate NotSpace(c: char) {
    !IsSpace(c)
  }

  // -----------------------------------------------------------------------
  // The request line

  /** One `%s` conversion of sscanf: skip isspace bytes, then take the run of
      bytes that are not; None when nothing but spaces is left. The second
      component is what follows the word. */
  function ScanWord(s: string): (r: Option<(string, string)>)
    ensures r.None? <==> LeadingSpaces(s) == |s|
    ensures r.Some? ==> var (w, rest) := r.value;
      && |w| > 0 && (forall i :: 0 <= i < |w| ==> !IsSpace(w[i]))
      && s[LeadingSpaces(s)..] == w + rest
      && (|rest| > 0 ==> IsSpace(rest[0]))
  {
    var a := LeadingSpaces(s);
    if a == |s| then None
    else
      var t := s[a..];
      var k := Span(t, NotSpace);
      assert t == t[..k] + t[k..];
      Some((t[..k], t[k..]))
  }

  /** `sscanf(buf, "%1024s %1024s", verb, uri)`: the second word of the
      line. With fewer than two words `uri` is left uninitialised, which
      the model reports as None. (A stored line holds at most 1023 bytes, so
      the field widths never cut a word.) */
  function RequestTarget(line: string): (uri: Option<string>)
    ensures uri.Some? ==> |uri.value| > 0 && forall i :: 0 <= i < |uri.value| ==> !IsSpace(uri.value[i])
  {
    var first := ScanWord(line);
    if first.None? then None
    else
      var second := ScanWord(first.value.1);
      if second.None? then None else Some(second.value.0)
  }

  /** A word, then a space or nothing: ScanWord returns exactly that word. */
  lemma ScanWordOf(w: string, rest: string)
    requires |w| > 0 && forall i :: 0 <= i < |w| ==> !IsSpace(w[i])
    requires |rest| > 0 ==> IsSpace(rest[0])
    ensures ScanWord(w + rest) == Some((w, rest))
  {
    assert LeadingSpaces(w + rest) == 0 by {
      assert (w + rest)[0] == w[0];
    }
    assert (w + rest)[0..] == w + rest;
    SpanOf(w, rest, NotSpace);
    assert (w + rest)[..|w|] == w && (w + rest)[|w|..] == rest;
  }

  /** The request target of "METHOD TARGET..." is TARGET. */
  lemma {:induction false} TargetOfRequestLine(verb: string, target: string, rest: string)
    requires |verb| > 0 && forall i :: 0 <= i < |verb| ==> !IsSpace(verb[i])
    requires |target| > 0 && forall i :: 0 <= i < |target| ==> !IsSpace(target[i])
    requires |rest| > 0 ==> IsSpace(rest[0])
    ensures RequestTarget(verb + " " + target + rest) == Some(target)
  {
    Assoc(verb + " ", target, rest);
    Assoc(verb, " ", target + rest);
    Assoc(" ", target, rest);
    ScanWordOf(verb, " " + (target + rest));
    SpaceThenWord(target, rest);
  }

  lemma SpaceThenWord(target: string, rest: string)
    requires |target| > 0 && forall i :: 0 <= i < |target| ==> !IsSpace(target[i])
    requires |rest| > 0 ==> IsSpace(rest[0])
    ensures ScanWord(" " + (target + rest)) == Some((target, rest))
  {
    var s := " " + (target + rest);
    SpanOf(" ", target + rest, IsSpace);
    Split(" ", target + rest);
    ScanWordOf(target, rest);
  }

  /** ParseRequest's file name: a leading '/' is dropped; an empty remainder
      names the current directory "."; otherwise the name is cut at its
      first '?'. A target not starting with '/' is used as it is. */
  function MapUri(uri: string): (name: string)
    ensures (|uri| == 0 || uri[0] != '/') ==> name == uri
    ensures uri == "/" ==> name == "."
    ensures |uri| > 1 && uri[0] == '/' ==>
      && '?' !in name
      && StartsWith(uri[1..], name)
      && (|name| + 1 == |uri| || uri[|name| + 1] == '?')
  {
    if |uri| == 0 || uri[0] != '/' then uri
    else
      var path := uri[1..];
      if |path| == 0 then "."
      else
        var name := path[..IndexOf(path, '?')];
        assert forall i :: 0 <= i < |name| ==> name[i] == path[i];
        name
  }

  /** An absolute path without a query maps to the relative path. */
  lemma {:induction false} MapUriOfPath(path: string)
    requires |path| > 0 && '?' !in path
    ensures MapUri("/" + path) == path
  {
    var p := ("/" + path)[1..];
    assert p == path;
    assert forall i :: 0 <= i < |p| ==> p[i] != '?';
  }

  /** The query is dropped: "/a?b" names "a", "/?x" names the empty file. */
  lemma MapUriDropsQuery()
    ensures MapUri("/a?b") == "a"
    ensures MapUri("/?x") == ""
  {
    assert MapUri("/a?b") == "/a?b"[1..][..IndexOf("a?b", '?')];
    assert IndexOf("a?b", '?') == 1 by {
      assert "a?b"[1..] == "?b";
    }
    assert "a?b"[..1] == "a";
  }

  // -----------------------------------------------------------------------
  // The Range header

  /** `req->offset` and `req->end`, each an `unsigned long`; `end` is
      exclusive once ParseRequest has incremented it. */
  datatype Range = Range(offset: nat, end: nat)

  predicate RangeOk(r: Range) {
    r.offset < ULongMod && r.end < ULongMod
  }

  /** One `%lu` conversion as glibc performs it: skip isspace bytes, an
      optional sign, then at least one digit. The value saturates at
      ULONG_MAX and a '-' negates it modulo 2^64. The second component is
      the number of bytes consumed. */
  function ScanULong(s: string): (r: Option<(nat, nat)>)
    ensures r.Some? ==> r.value.0 < ULongMod && 0 < r.value.1 <= |s|
    ensures LeadingSpaces(s) == |s| ==> r.None?
  {
    var a := LeadingSpaces(s);
    var t := s[a..];
    var sign := if |t| > 0 && (t[0] == '+' || t[0] == '-') then 1 else 0;
    var u := t[sign..];
    var k := Span(u, IsDigit);
    if k == 0 then None
    else
      assert AllDigits(u[..k]);
      var v := ParseDec(u[..k]);
      var m := if v >= ULongMod then ULongMod - 1
               else if sign == 1 && t[0] == '-' then Wrap(-(v as int))
               else v;
      Some((m, a + sign + k))
  }

  /** A decimal numeral followed by a byte that is not a digit scans as its
      value. */
  lemma ScanULongOfDec(n: nat, rest: string)
    requires n < ULongMod
    requires |rest| > 0 ==> !IsDigit(rest[0])
    ensures ScanULong(Dec(n) + rest) == Some((n, |Dec(n)|))
  {
    var s := Dec(n) + rest;
    assert s[0] == Dec(n)[0];
    assert LeadingSpaces(s) == 0;
    assert s[0..] == s;
    SpanOf(Dec(n), rest, IsDigit);
    Split(Dec(n), rest);
    DecRoundTrip(n);
  }

  /** The conversions after "bytes=": `%lu-%lu`. Each field is assigned only
      when its conversion succeeds, and scanning stops at the first
      mismatch. */
  function ScanBounds(c: string, r: Range): (r': Range)
    requires RangeOk(r)
    ensures RangeOk(r')
  {
    var first := ScanULong(c);
    if first.None? then r
    else
      var d := c[first.value.1..];
      if |d| == 0 || d[0] != '-' then Range(first.value.0, r.end)
      else
        var second := ScanULong(d[1..]);
        if second.None? then Range(first.value.0, r.end)
        else Range(first.value.0, second.value.0)
  }

  /** `sscanf(buf, "Range: bytes=%lu-%lu", &offset, &end)`. The space in the
      format matches any run of isspace bytes, none included. */
  function ScanRange(line: string, r: Range): (r': Range)
    requires RangeOk(r)
    ensures RangeOk(r')
    ensures !StartsWith(line, "Range:") ==> r' == r
  {
    if !StartsWith(line, "Range:") then r
    else
      var a := line[6..];
      var b := a[LeadingSpaces(a)..];
      if !StartsWith(b, "bytes=") then r else ScanBounds(b[6..], r)
  }

  /** What ParseRequest does with a header line starting "Ran": scan it,
      then turn a non-zero inclusive end into an exclusive one. */
  function RangeLine(line: string, r: Range): (r': Range)
    requires RangeOk(r)
    ensures RangeOk(r')
  {
    var s := ScanRange(line, r);
    if s.end != 0 then Range(s.offset, Wrap(s.end + 1)) else s
  }

  lemma ScanRangePrefix(x: string, r: Range)
    requires RangeOk(r)
    ensures ScanRange("Range: bytes=" + x, r) == ScanBounds(x, r)
  {
    var b := "bytes=" + x;
    var a := " " + b;
    assert "Range: bytes=" + x == "Range:" + a;
    Split("Range:", a);
    SpanOf(" ", b, IsSpace);
    Split(" ", b);
    Split("bytes=", x);
  }

  lemma BoundsOf(a: nat, b: nat, crlf: string, r: Range)
    requires a < ULongMod && b < ULongMod && RangeOk(r)
    requires |crlf| > 0 ==> !IsDigit(crlf[0])
    ensures ScanBounds(Dec(a) + "-" + Dec(b) + crlf, r) == Range(a, b)
  {
    var d := "-" + (Dec(b) + crlf);
    assert Dec(a) + "-" + Dec(b) + crlf == Dec(a) + d;
    ScanULongOfDec(a, d);
    Split(Dec(a), d);
    Split("-", Dec(b) + crlf);
    ScanULongOfDec(b, crlf);
  }

  lemma OpenBoundsOf(a: nat, crlf: string, r: Range)
    requires a < ULongMod && RangeOk(r)
    requires forall i :: 0 <= i < |crlf| ==> IsSpace(crlf[i])
    ensures ScanBounds(Dec(a) + "-" + crlf, r) == Range(a, r.end)
  {
    var d := "-" + crlf;
    assert Dec(a) + "-" + crlf == Dec(a) + d;
    ScanULongOfDec(a, d);
    Split(Dec(a), d);
    Split("-", crlf);
    SpanOf(crlf, [], IsSpace);
    assert crlf + [] == crlf;
  }

  /** "Range: bytes=a-b" sets offset a and exclusive end b + 1; a last
      position of 0 leaves end 0, which later reads as "to the end of the
      file". */
  lemma RangeRoundTrip(a: nat, b: nat, crlf: string, r: Range)
    requires a < ULongMod && b + 1 < ULongMod && RangeOk(r)
    requires |crlf| > 0 ==> !IsDigit(crlf[0])
    ensures RangeLine("Range: bytes=" + Dec(a) + "-" + Dec(b) + crlf, r)
         == Range(a, if b == 0 then 0 else b + 1)
  {
    var p := "Range: bytes=";
    var x := Dec(a) + "-" + Dec(b) + crlf;
    Assoc(p, Dec(a), "-");
    Assoc(p, Dec(a) + "-", Dec(b));
    Assoc(p, Dec(a) + "-" + Dec(b), crlf);
    ScanRangePrefix(x, r);
    BoundsOf(a, b, crlf, r);
    assert ScanRange(p + x, r) == Range(a, b);
  }

  /** "Range: bytes=a-" sets the offset and keeps the end, which an earlier
      non-zero end then pushes up by one more. */
  lemma OpenRange(a: nat, crlf: string, r: Range)
    requires a < ULongMod && RangeOk(r)
    requires forall i :: 0 <= i < |crlf| ==> IsSpace(crlf[i])
    ensures RangeLine("Range: bytes=" + Dec(a) + "-" + crlf, r)
         == Range(a, if r.end == 0 then 0 else Wrap(r.end + 1))
  {
    var p := "Range: bytes=";
    var x := Dec(a) + "-" + crlf;
    Assoc(p, Dec(a), "-");
    Assoc(p, Dec(a) + "-", crlf);
    ScanRangePrefix(x, r);
    OpenBoundsOf(a, crlf, r);
    assert ScanRange(p + x, r) == Range(a, r.end);
  }

  // -----------------------------------------------------------------------
  // Reading the header lines

  /** What one RioReadLine call does to the caller's buffer: a line is
      stored with a terminator after it; end of file before any byte leaves
      the buffer alone; a read error leaves the bytes read so far, with no
      terminator. */
  datatype LineRead = Line(text: string) | AtEof | Failed(partial: string)

  /** What RioReadLine with MAXLINE can deliver: a stored line holds at
      least one byte and at most MAXLINE - 1. */
  predicate Fits(r: LineRead) {
    match r
    case Line(t) => 0 < |t| < MaxLine
    case AtEof => true
    case Failed(p) => |p| < MaxLine
  }

  predicate AllFit(rs: seq<LineRead>) {
    forall i :: 0 <= i < |rs| ==> Fits(rs[i])
  }

  function Store(buf: string, r: LineRead): (b: string)
    requires |buf| == MaxLine && Fits(r)
    ensures |b| == MaxLine
    ensures r.Line? ==> b[..|r.text|] == r.text && b[|r.text|] == '\0'
    ensures r.Failed? ==> b[..|r.partial|] == r.partial && b[|r.partial|..] == buf[|r.partial|..]
    ensures r.AtEof? ==> b == buf
  {
    match r
    case Line(t) => t + ['\0'] + buf[|t| + 1..]
    case AtEof => buf
    case Failed(p) => p + buf[|p|..]
  }

  /** The loop condition of ParseRequest, negated: byte 0 or byte 1 of the
      buffer is a newline (a "\n" or "\r\n" line). */
  predicate Stops(buf: string)
    requires |buf| == MaxLine
  {
    buf[0] == '\n' || buf[1] == '\n'
  }

  /** The header line test: the buffer starts "Ran". */
  predicate IsRangeLine(buf: string)
    requires |buf| == MaxLine
  {
    buf[0] == 'R' && buf[1] == 'a' && buf[2] == 'n'
  }

  /** The range after the loop has looked at buffer `b`. */
  function Update(b: string, r: Range): (r': Range)
    requires |b| == MaxLine && RangeOk(r)
    ensures RangeOk(r')
    ensures !IsRangeLine(b) ==> r' == r
  {
    if IsRangeLine(b) then RangeLine(CStr(b), r) else r
  }

  /** A line that ends the headers as the loop sees it. */
  predicate EndsHeaders(t: string) {
    (|t| > 0 && t[0] == '\n') || (|t| > 1 && t[1] == '\n')
  }

  /** After the headers: the range, the buffer, and how many reads the loop
      made; `Waiting` when the reads given run out while the loop would go
      on reading. */
  datatype Headers = Headers(range: Range, buf: string, used: nat) | Waiting

  /** The header loop as written: read a line, scan a "Ran" line for the
      range, and go on until the buffer's byte 0 or 1 is a newline. A read
      that returns 0 or -1 is not looked at. */
  function ReadHeaders(buf: string, r: Range, rs: seq<LineRead>): (h: Headers)
    requires |buf| == MaxLine && RangeOk(r) && AllFit(rs)
    ensures h.Headers? ==> |h.buf| == MaxLine && Stops(h.buf) && RangeOk(h.range) && h.used <= |rs|
    ensures Stops(buf) ==> h == Headers(r, buf, 0)
    decreases |rs|
  {
    if Stops(buf) then Headers(r, buf, 0)
    else if |rs| == 0 then Waiting
    else
      var b := Store(buf, rs[0]);
      var r' := Update(b, r);
      var h := ReadHeaders(b, r', rs[1..]);
      if h.Waiting? then h else h.(used := h.used + 1)
  }

  /** One turn of the loop as written. */
  lemma Step(buf: string, r: Range, rs: seq<LineRead>)
    requires |buf| == MaxLine && RangeOk(r) && AllFit(rs)
    requires !Stops(buf) && |rs| > 0
    ensures var b := Store(buf, rs[0]);
      && AllFit(rs[1..])
      && var h := ReadHeaders(b, Update(b, r), rs[1..]);
         ReadHeaders(buf, r, rs) == if h.Waiting? then h else h.(used := h.used + 1)
  {
    assert AllFit(rs[1..]);
    var b := Store(buf, rs[0]);
    var r' := Update(b, r);
    var h := ReadHeaders(b, r', rs[1..]);
    assert ReadHeaders(buf, r, rs) == if h.Waiting? then h else h.(used := h.used + 1);
  }

  /** A stored line makes the loop stop exactly when it ends the headers. */
  lemma StopsOnLine(buf: string, t: string)
    requires |buf| == MaxLine && 0 < |t| < MaxLine
    ensures Stops(Store(buf, Line(t))) <==> EndsHeaders(t)
  {
    var b := Store(buf, Line(t));
    assert b[0] == t[0];
    if |t| > 1 {
      assert b[1] == t[1];
    } else {
      assert b[1] == '\0';
    }
  }

  /** With lines only, the loop makes exactly as many reads as it takes to
      reach the first line that ends the headers. */
  lemma {:induction false} HeadersEndAtFirstBlankLine(buf: string, r: Range, rs: seq<LineRead>, k: nat)
    requires |buf| == MaxLine && RangeOk(r) && !Stops(buf) && AllFit(rs)
    requires k < |rs| && forall i :: 0 <= i <= k ==> rs[i].Line?
    requires EndsHeaders(rs[k].text)
    requires forall i :: 0 <= i < k ==> !EndsHeaders(rs[i].text)
    ensures var h := ReadHeaders(buf, r, rs);
      h.Headers? && h.used == k + 1
    decreases k
  {
    if k == 0 {
      LineEnds(buf, r, rs);
    } else {
      LineContinues(buf, r, rs);
      var b := Store(buf, rs[0]);
      var tl := rs[1..];
      assert forall i :: 0 <= i < |tl| ==> tl[i] == rs[i + 1];
      HeadersEndAtFirstBlankLine(b, Update(b, r), tl, k - 1);
    }
  }

  /** A line that ends the headers ends the loop after one read. */
  lemma LineEnds(buf: string, r: Range, rs: seq<LineRead>)
    requires |buf| == MaxLine && RangeOk(r) && !Stops(buf) && AllFit(rs)
    requires |rs| > 0 && rs[0].Line? && EndsHeaders(rs[0].text)
    ensures var h := ReadHeaders(buf, r, rs);
      h.Headers? && h.used == 1
  {
    var b := Store(buf, rs[0]);
    StopsOnLine(buf, rs[0].text);
    Step(buf, r, rs);
  }

  /** A line that does not end the headers leaves the loop reading. */
  lemma LineContinues(buf: string, r: Range, rs: seq<LineRead>)
    requires |buf| == MaxLine && RangeOk(r) && !Stops(buf) && AllFit(rs)
    requires |rs| > 0 && rs[0].Line? && !EndsHeaders(rs[0].text)
    ensures var b := Store(buf, rs[0]);
      && !Stops(b) && AllFit(rs[1..])
      && var h := ReadHeaders(b, Update(b, r), rs[1..]);
         ReadHeaders(buf, r, rs) == if h.Waiting? then h else h.(used := h.used + 1)
  {
    StopsOnLine(buf, rs[0].text);
    Step(buf, r, rs);
  }

  /** A stream that ends before the empty line leaves the loop reading for
      ever: at end of file every read returns 0 and leaves the buffer as it
      was, so however many such reads come the loop never stops. */
  lemma {:induction false} EndOfStreamNeverEndsHeaders(buf: string, r: Range, n: nat)
    requires |buf| == MaxLine && RangeOk(r) && !Stops(buf)
    ensures ReadHeaders(buf, r, seq(n, _ => AtEof)) == Waiting
    decreases n
  {
    var rs: seq<LineRead> := seq(n, _ => AtEof);
    if n > 0 {
      var r' := Update(buf, r);
      assert rs[1..] == seq(n - 1, _ => AtEof);
      Step(buf, r, rs);
      EndOfStreamNeverEndsHeaders(buf, r', n - 1);
    }
  }

  /** The request "GET / HTTP/1.1" followed by end of file never gets past
      the header loop. */
  lemma TruncatedRequestSpins(junk: string, n: nat)
    requires |junk| == MaxLine
    ensures var buf := Store(junk, Line("GET / HTTP/1.1\r\n"));
      ReadHeaders(buf, Range(0, 0), seq(n, _ => AtEof)) == Waiting
  {
    var buf := Store(junk, Line("GET / HTTP/1.1\r\n"));
    assert buf[0] == 'G' && buf[1] == 'E';
    EndOfStreamNeverEndsHeaders(buf, Range(0, 0), n);
  }

  /** The header loop with the end of the stream handled: a read that
      returns 0 or -1 ends the headers as an empty line would. */
  function ReadHeadersFixed(buf: string, r: Range, rs: seq<LineRead>): (h: Headers)
    requires |buf| == MaxLine && RangeOk(r) && AllFit(rs)
    ensures h.Headers? ==> |h.buf| == MaxLine && RangeOk(h.range) && h.used <= |rs|
    ensures Stops(buf) ==> h == Headers(r, buf, 0)
    decreases |rs|
  {
    if Stops(buf) then Headers(r, buf, 0)
    else if |rs| == 0 then Waiting
    else if !rs[0].Line? then Headers(r, Store(buf, rs[0]), 1)
    else
      var b := Store(buf, rs[0]);
      var r' := Update(b, r);
      var h := ReadHeadersFixed(b, r', rs[1..]);
      if h.Waiting? then h else h.(used := h.used + 1)
  }

  /** One turn of the fixed loop on a line. */
  lemma FixedStep(buf: string, r: Range, rs: seq<LineRead>)
    requires |buf| == MaxLine && RangeOk(r) && AllFit(rs)
    requires !Stops(buf) && |rs| > 0 && rs[0].Line?
    ensures var b := Store(buf, rs[0]);
      && AllFit(rs[1..])
      && var h := ReadHeadersFixed(b, Update(b, r), rs[1..]);
         ReadHeadersFixed(buf, r, rs) == if h.Waiting? then h else h.(used := h.used + 1)
  {
  }

  /** The fixed loop ends at the first read that returns 0 or -1. */
  lemma {:induction false} FixedEndsAtEndOfStream(buf: string, r: Range, rs: seq<LineRead>, k: nat)
    requires |buf| == MaxLine && RangeOk(r) && AllFit(rs)
    requires k < |rs| && !rs[k].Line?
    ensures ReadHeadersFixed(buf, r, rs).Headers?
    decreases k, 1
  {
    if Stops(buf) || !rs[0].Line? {
      FixedStops(buf, r, rs);
    } else {
      FixedEndsLater(buf, r, rs, k);
    }
  }

  /** Below a line, the fixed loop goes on to the read that ends it. */
  lemma {:induction false} FixedEndsLater(buf: string, r: Range, rs: seq<LineRead>, k: nat)
    requires |buf| == MaxLine && RangeOk(r) && AllFit(rs)
    requires 0 < k < |rs| && !rs[k].Line?
    requires !Stops(buf) && rs[0].Line?
    ensures ReadHeadersFixed(buf, r, rs).Headers?
    decreases k, 0
  {
    var b := Store(buf, rs[0]);
    var r' := Update(b, r);
    var tl := rs[1..];
    FixedCarries(buf, r, rs);
    assert tl[k - 1] == rs[k];
    FixedEndsAtEndOfStream(b, r', tl, k - 1);
  }

  /** Below a line, the fixed loop ends where the rest of it ends. */
  lemma FixedCarries(buf: string, r: Range, rs: seq<LineRead>)
    requires |buf| == MaxLine && RangeOk(r) && AllFit(rs)
    requires !Stops(buf) && |rs| > 0 && rs[0].Line?
    ensures var b := Store(buf, rs[0]);
      && AllFit(rs[1..])
      && (ReadHeadersFixed(b, Update(b, r), rs[1..]).Headers? ==> ReadHeadersFixed(buf, r, rs).Headers?)
  {
    FixedStep(buf, r, rs);
  }

  /** A stopped buffer, or a read that is not a line, ends the fixed loop. */
  lemma FixedStops(buf: string, r: Range, rs: seq<LineRead>)
    requires |buf| == MaxLine && RangeOk(r) && AllFit(rs)
    requires Stops(buf) || (|rs| > 0 && !rs[0].Line?)
    ensures ReadHeadersFixed(buf, r, rs).Headers?
  {
  }

  /** While every read delivers a line, the fixed loop is the loop as
      written. */
  lemma {:induction false} FixedAgreesOnLines(buf: string, r: Range, rs: seq<LineRead>)
    requires |buf| == MaxLine && RangeOk(r) && AllFit(rs)
    requires forall i :: 0 <= i < |rs| ==> rs[i].Line?
    ensures ReadHeadersFixed(buf, r, rs) == ReadHeaders(buf, r, rs)
    decreases |rs|
  {
    if !Stops(buf) && |rs| > 0 {
      var b := Store(buf, rs[0]);
      var r' := Update(b, r);
      FixedStep(buf, r, rs);
      Step(buf, r, rs);
      FixedAgreesOnLines(b, r', rs[1..]);
    }
  }

  // -----------------------------------------------------------------------
  // ParseRequest

  /** The parsed request: file name and range. */
  datatype Request = Request(name: string, range: Range)

  /** NoRequest: the first read returned 0 or -1, so there is no request
      line; only the corrected ParseRequestFixed gives it. */
  datatype Parsed = Parsed(req: Request) | NoTarget | Incomplete | NoRequest

  /** ParseRequest as written: the first read goes into a buffer whose
      earlier contents are `junk` (a read that returns 0 leaves the buffer
      as it was), the header loop as written reads the rest of the head for
      the range, and only then is the target mapped to a file name.
      Incomplete: the loop is still reading when the reads given run out;
      at end of file every further read returns 0, so the source never
      leaves the loop. */
  function ParseRequest(junk: string, first: LineRead, rs: seq<LineRead>): (p: Parsed)
    requires |junk| == MaxLine && Fits(first) && AllFit(rs)
    ensures !p.NoRequest?
    ensures p.Parsed? ==> RangeOk(p.req.range)
    ensures first.Line? && NoNul(first.text) && !p.Incomplete? ==>
      (p.NoTarget? <==> RequestTarget(first.text).None?)
    ensures first.Line? && NoNul(first.text) && p.Parsed? ==>
      p.req.name == MapUri(RequestTarget(first.text).value)
    ensures !Stops(Store(junk, first)) && (forall i :: 0 <= i < |rs| ==> rs[i].AtEof?) ==> p.Incomplete?
    ensures first.Line? && !EndsHeaders(first.text) && (forall i :: 0 <= i < |rs| ==> rs[i].AtEof?) ==>
      p.Incomplete?
  {
    var buf := Store(junk, first);
    FirstReadBack(junk, first);
    EofAfterFirstRead(junk, first, rs);
    Finish(RequestTarget(CStr(buf)), ReadHeaders(buf, Range(0, 0), rs))
  }

  /** End of file after a first read that leaves the buffer without a
      newline at byte 0 or 1 keeps the loop as written reading; for a line,
      that is a line that does not end the headers. */
  lemma EofAfterFirstRead(junk: string, first: LineRead, rs: seq<LineRead>)
    requires |junk| == MaxLine && Fits(first) && AllFit(rs)
    ensures first.Line? ==> (Stops(Store(junk, first)) <==> EndsHeaders(first.text))
    ensures !Stops(Store(junk, first)) && (forall i :: 0 <= i < |rs| ==> rs[i].AtEof?) ==>
      ReadHeaders(Store(junk, first), Range(0, 0), rs).Waiting?
  {
    if first.Line? {
      StopsOnLine(junk, first.text);
    }
    if !Stops(Store(junk, first)) && (forall i :: 0 <= i < |rs| ==> rs[i].AtEof?) {
      assert rs == seq(|rs|, _ => AtEof);
      EndOfStreamNeverEndsHeaders(Store(junk, first), Range(0, 0), |rs|);
    }
  }

  /** ParseRequest with the end of the stream handled: a first read that
      returns 0 or -1 gives up at once, and the header loop ends at the
      end of the stream. */
  function ParseRequestFixed(junk: string, first: LineRead, rs: seq<LineRead>): (p: Parsed)
    requires |junk| == MaxLine && Fits(first) && AllFit(rs)
    ensures p.NoRequest? <==> !first.Line?
    ensures p.Parsed? ==> RangeOk(p.req.range)
    ensures first.Line? && NoNul(first.text) && !p.Incomplete? ==>
      (p.NoTarget? <==> RequestTarget(first.text).None?)
    ensures first.Line? && NoNul(first.text) && p.Parsed? ==>
      p.req.name == MapUri(RequestTarget(first.text).value)
    ensures (exists k :: 0 <= k < |rs| && !rs[k].Line?) ==> !p.Incomplete?
  {
    if !first.Line? then NoRequest
    else
      var buf := Store(junk, first);
      FirstReadBack(junk, first);
      FixedEndsOnEof(buf, rs);
      Finish(RequestTarget(CStr(buf)), ReadHeadersFixed(buf, Range(0, 0), rs))
  }

  lemma FixedEndsOnEof(buf: string, rs: seq<LineRead>)
    requires |buf| == MaxLine && AllFit(rs)
    ensures (exists k :: 0 <= k < |rs| && !rs[k].Line?) ==> ReadHeadersFixed(buf, Range(0, 0), rs).Headers?
  {
    if exists k :: 0 <= k < |rs| && !rs[k].Line? {
      var k :| 0 <= k < |rs| && !rs[k].Line?;
      FixedEndsAtEndOfStream(buf, Range(0, 0), rs, k);
    }
  }

  /** The request line reads back from the buffer as itself. */
  lemma FirstLineRead(junk: string, first: string)
    requires |junk| == MaxLine && 0 < |first| < MaxLine
    ensures NoNul(first) ==> CStr(Store(junk, Line(first))) == first
  {
    if NoNul(first) {
      CStrOf(Store(junk, Line(first)), |first|);
    }
  }

  lemma FirstReadBack(junk: string, first: LineRead)
    requires |junk| == MaxLine && Fits(first)
    ensures first.Line? && NoNul(first.text) ==> CStr(Store(junk, first)) == first.text
  {
    if first.Line? {
      FirstLineRead(junk, first.text);
    }
  }

  /** A connection closed before the request line: as written the loop
      reads the buffer's earlier contents and, unless they hold a newline
      at byte 0 or 1, never ends; the corrected parse gives up at once. */
  lemma ClosedBeforeRequestLine(junk: string, n: nat)
    requires |junk| == MaxLine && !Stops(junk)
    ensures ParseRequest(junk, AtEof, seq(n, _ => AtEof)) == Incomplete
    ensures ParseRequestFixed(junk, AtEof, seq(n, _ => AtEof)) == NoRequest
  {
    var rs: seq<LineRead> := seq(n, _ => AtEof);
    assert forall i :: 0 <= i < |rs| ==> rs[i].AtEof?;
  }

  /** What ParseRequest makes of the target and the header loop's end. */
  function Finish(uri: Option<string>, h: Headers): (p: Parsed)
    requires h.Headers? ==> RangeOk(h.range)
    ensures p.Incomplete? <==> h.Waiting?
    ensures p.NoTarget? <==> h.Headers? && uri.None?
    ensures p.Parsed? ==> p.req == Request(MapUri(uri.value), h.range)
  {
    if h.Waiting? then Incomplete
    else if uri.None? then NoTarget
    else Parsed(Request(MapUri(uri.value), h.range))
  }

  /** While every read delivers a line, the two agree. */
  lemma ParseFixedAgrees(junk: string, first: LineRead, rs: seq<LineRead>)
    requires |junk| == MaxLine && Fits(first) && AllFit(rs)
    requires forall i :: 0 <= i < |rs| ==> rs[i].Line?
    ensures first.Line? ==> ParseRequestFixed(junk, first, rs) == ParseRequest(junk, first, rs)
    ensures !first.Line? ==> ParseRequestFixed(junk, first, rs) == NoRequest != ParseRequest(junk, first, rs)
  {
    FixedAgreesOnLines(Store(junk, first), Range(0, 0), rs);
  }

  /** ParseRequest is the target and the loop as written, put together. */
  lemma ParseRequestIs(junk: string, first: LineRead, rs: seq<LineRead>)
    requires |junk| == MaxLine && Fits(first) && AllFit(rs)
    ensures var buf := Store(junk, first);
      ParseRequest(junk, first, rs) == Finish(RequestTarget(CStr(buf)), ReadHeaders(buf, Range(0, 0), rs))
  {
  }

  lemma ParseRequestFixedIs(junk: string, first: LineRead, rs: seq<LineRead>)
    requires |junk| == MaxLine && Fits(first) && AllFit(rs)
    ensures var buf := Store(junk, first);
      first.Line? ==>
      ParseRequestFixed(junk, first, rs) == Finish(RequestTarget(CStr(buf)), ReadHeadersFixed(buf, Range(0, 0), rs))
  {
  }

  /** "GET / HTTP/1.1" and then end of file: as written the request is
      never parsed, however many reads follow; with the fixed loop the
      first read at end of file ends the head and the current directory is
      served. */
  lemma TruncatedRequestNeverParses(junk: string, n: nat)
    requires |junk| == MaxLine
    ensures ParseRequest(junk, Line("GET / HTTP/1.1\r\n"), seq(n, _ => AtEof)) == Incomplete
    ensures n > 0 ==>
      ParseRequestFixed(junk, Line("GET / HTTP/1.1\r\n"), seq(n, _ => AtEof)) == Parsed(Request(".", Range(0, 0)))
  {
    TruncatedLine();
    EofAfterRequestLine(junk, "GET / HTTP/1.1\r\n", n);
  }

  /** The request line of the example: no empty line, target "/". */
  lemma TruncatedLine()
    ensures var first := "GET / HTTP/1.1\r\n";
      !EndsHeaders(first) && NoNul(first) && RequestTarget(first) == Some("/") && MapUri("/") == "."
  {
    ExampleSplits();
    TargetOfRequestLine("GET", "/", " HTTP/1.1\r\n");
    ExampleBytes("GET / HTTP/1.1\r\n");
  }

  lemma ExampleSplits()
    ensures "GET / HTTP/1.1\r\n" == "GET" + " " + "/" + " HTTP/1.1\r\n"
  {
  }

  lemma ExampleBytes(first: string)
    requires first == "GET / HTTP/1.1\r\n"
    ensures !EndsHeaders(first) && NoNul(first)
  {
  }

  /** End of file right after a request line that names a target. */
  lemma EofAfterRequestLine(junk: string, first: string, n: nat)
    requires |junk| == MaxLine && 0 < |first| < MaxLine && NoNul(first) && !EndsHeaders(first)
    requires RequestTarget(first).Some?
    ensures ParseRequest(junk, Line(first), seq(n, _ => AtEof)) == Incomplete
    ensures n > 0 ==>
      ParseRequestFixed(junk, Line(first), seq(n, _ => AtEof))
      == Parsed(Request(MapUri(RequestTarget(first).value), Range(0, 0)))
  {
    var rs: seq<LineRead> := seq(n, _ => AtEof);
    assert forall i :: 0 <= i < |rs| ==> rs[i].AtEof?;
    if n > 0 {
      TruncatedFixed(junk, first, rs);
    }
  }

  /** With the fixed loop, a read at end of file right after a request
      line ends the head with no range. */
  lemma TruncatedFixed(junk: string, first: string, rs: seq<LineRead>)
    requires |junk| == MaxLine && 0 < |first| < MaxLine && NoNul(first) && !EndsHeaders(first)
    requires RequestTarget(first).Some?
    requires AllFit(rs) && |rs| > 0 && rs[0].AtEof?
    ensures ParseRequestFixed(junk, Line(first), rs) == Parsed(Request(MapUri(RequestTarget(first).value), Range(0, 0)))
  {
    var buf := Store(junk, Line(first));
    StopsOnLine(junk, first);
    assert ReadHeadersFixed(buf, Range(0, 0), rs).range == Range(0, 0);
    FirstLineRead(junk, first);
    ParseRequestFixedIs(junk, Line(first), rs);
  }

  /** A request line, one header line starting "Ran" and the empty line:
      the request names the mapped target and the range that header line
      gives (RangeRoundTrip says which). */
  lemma {:induction false} ParsesRangeRequest(junk: string, first: string, hdr: string)
    requires |junk| == MaxLine
    requires 0 < |first| < MaxLine && NoNul(first) && !EndsHeaders(first) && RequestTarget(first).Some?
    requires RangeHeader(hdr)
    ensures var rs := [Line(hdr), Line("\r\n")];
      && AllFit(rs)
      && ParseRequest(junk, Line(first), rs)
         == Parsed(Request(MapUri(RequestTarget(first).value), RangeLine(hdr, Range(0, 0))))
  {
    RangeLinesFit(hdr);
    var rs := [Line(hdr), Line("\r\n")];
    var buf := Store(junk, Line(first));
    StopsOnLine(junk, first);
    RangeHeaderThenEnd(buf, hdr);
    ParsedFromHeaders(junk, first, rs);
  }

  /** A request line with a target, and a head the loop as written ends:
      the mapped target and the range the loop found. */
  lemma ParsedFromHeaders(junk: string, first: string, rs: seq<LineRead>)
    requires |junk| == MaxLine && 0 < |first| < MaxLine && AllFit(rs)
    requires NoNul(first) && RequestTarget(first).Some?
    requires ReadHeaders(Store(junk, Line(first)), Range(0, 0), rs).Headers?
    ensures ParseRequest(junk, Line(first), rs)
      == Parsed(Request(MapUri(RequestTarget(first).value), ReadHeaders(Store(junk, Line(first)), Range(0, 0), rs).range))
  {
    FirstLineRead(junk, first);
    ParseRequestIs(junk, Line(first), rs);
  }

  lemma RangeLinesFit(hdr: string)
    requires RangeHeader(hdr)
    ensures AllFit([Line(hdr), Line("\r\n")])
  {
    var rs := [Line(hdr), Line("\r\n")];
    assert Fits(rs[0]) && Fits(rs[1]);
  }

  /** The empty line after the request line ends the headers with no
      range. */
  lemma BlankLineEnds(buf: string, r: Range)
    requires |buf| == MaxLine && RangeOk(r) && !Stops(buf)
    ensures var h := ReadHeadersFixed(buf, r, [Line("\r\n")]);
      h.Headers? && h.range == r
  {
    var rs := [Line("\r\n")];
    var b := Store(buf, rs[0]);
    StopsOnLine(buf, "\r\n");
    assert !IsRangeLine(b);
    FixedStep(buf, r, rs);
  }

  /** A header line the loop scans for the range and goes on after. */
  predicate RangeHeader(hdr: string) {
    && 2 < |hdr| < MaxLine && NoNul(hdr) && !EndsHeaders(hdr)
    && hdr[0] == 'R' && hdr[1] == 'a' && hdr[2] == 'n'
  }

  lemma RangeHeaderThenEnd(buf: string, hdr: string)
    requires |buf| == MaxLine && !Stops(buf)
    requires RangeHeader(hdr)
    ensures var h := ReadHeadersFixed(buf, Range(0, 0), [Line(hdr), Line("\r\n")]);
      h.Headers? && h.range == RangeLine(hdr, Range(0, 0))
    ensures ReadHeaders(buf, Range(0, 0), [Line(hdr), Line("\r\n")])
      == ReadHeadersFixed(buf, Range(0, 0), [Line(hdr), Line("\r\n")])
  {
    var rs := [Line(hdr), Line("\r\n")];
    RangeLinesFit(hdr);
    FixedAgreesOnLines(buf, Range(0, 0), rs);
    var b1 := Store(buf, rs[0]);
    var r1 := Update(b1, Range(0, 0));
    RangeLineStored(buf, hdr, Range(0, 0));
    StopsOnLine(b1, "\r\n");
    var h1 := ReadHeadersFixed(b1, r1, rs[1..]);
    assert h1.Headers? && h1.range == r1;
  }

  /** Reading a "Ran" line that does not end the headers scans it. */
  lemma RangeLineStored(buf: string, hdr: string, r: Range)
    requires |buf| == MaxLine && RangeOk(r)
    requires RangeHeader(hdr)
    ensures var b := Store(buf, Line(hdr));
      !Stops(b) && Update(b, r) == RangeLine(hdr, r)
  {
    var b := Store(buf, Line(hdr));
    StopsOnLine(buf, hdr);
    assert b[0] == hdr[0] && b[1] == hdr[1] && b[2] == hdr[2] by {
      assert b[..|hdr|] == hdr;
    }
    assert IsRangeLine(b);
    CStrOf(b, |hdr|);
    assert CStr(b) == hdr;
  }

  // -----------------------------------------------------------------------
  // Responses

  /** A header field "name: value". */
  datatype Field = Field(name: string, value: string)

  predicate Clean(s: string) {
    '\r' !in s && '\n' !in s
  }

  predicate NameOk(name: string) {
    |name| > 0 && Clean(name) && ':' !in name
  }

  predicate FieldOk(f: Field) {
    NameOk(f.name) && Clean(f.value)
  }

  predicate FieldsOk(fs: seq<Field>) {
    forall i :: 0 <= i < |fs| ==> FieldOk(fs[i])
  }

  lemma DigitsAreClean(s: string)
    requires AllDigits(s)
    ensures Clean(s)
  {
  }

  /** "HTTP/1.1 %d %s\r\n" (section 3.1.2 of RFC 7230). */
  function StatusLine(code: nat, reason: string): string {
    "HTTP/1.1 " + Dec(code) + " " + reason + "\r\n"
  }

  /** One "name: value\r\n" line per field (section 3.2 of RFC 7230). */
  function FieldLines(fs: seq<Field>): string {
    if |fs| == 0 then [] else fs[0].name + ": " + fs[0].value + "\r\n" + FieldLines(fs[1..])
  }

  /** A status line, header fields, and the empty line that ends them. */
  function Head(code: nat, reason: string, fs: seq<Field>): string {
    StatusLine(code, reason) + FieldLines(fs) + "\r\n"
  }

  /** A response as a client splits it. */
  datatype Message = Message(code: nat, reason: string, fields: seq<Field>, body: string)

  /** The text up to the first CR, which must start a CRLF, and the text
      after that CRLF. */
  function NextLine(s: string): (r: Option<(string, string)>)
    ensures r.Some? ==> |r.value.1| < |s|
  {
    var i := IndexOf(s, '\r');
    if i + 1 < |s| && s[i + 1] == '\n' then Some((s[..i], s[i + 2..])) else None
  }

  lemma NextLineOf(l: string, rest: string)
    requires '\r' !in l
    ensures NextLine(l + "\r\n" + rest) == Some((l, rest))
  {
    var t := "\r\n" + rest;
    Assoc(l, "\r\n", rest);
    IndexOfAfter(l, t, '\r');
    Split(l, t);
    Split("\r\n", rest);
  }

  /** "HTTP/1.1 ", a decimal code, a space, and the reason up to CRLF. */
  function ParseStatus(s: string): (r: Option<(nat, string, string)>) {
    if !StartsWith(s, "HTTP/1.1 ") then None
    else
      var t := s[9..];
      var k := Span(t, IsDigit);
      if k == 0 || k >= |t| || t[k] != ' ' then None
      else
        assert AllDigits(t[..k]);
        var line := NextLine(t[k + 1..]);
        if line.None? then None else Some((ParseDec(t[..k]), line.value.0, line.value.1))
  }

  lemma ParseStatusOf(code: nat, reason: string, rest: string)
    requires Clean(reason)
    ensures ParseStatus(StatusLine(code, reason) + rest) == Some((code, reason, rest))
  {
    var u := reason + "\r\n" + rest;
    var d := Dec(code);
    var t := d + (" " + u);
    StatusLineSplits(code, reason, rest);
    Split("HTTP/1.1 ", t);
    assert ("HTTP/1.1 " + t)[9..] == t;
    SpanOf(d, " " + u, IsDigit);
    Split(d, " " + u);
    Split(" ", u);
    assert t[..|d|] == d && t[|d|] == ' ' && t[|d| + 1..] == u;
    DecRoundTrip(code);
    NextLineOf(reason, rest);
  }

  lemma StatusLineSplits(code: nat, reason: string, rest: string)
    ensures StatusLine(code, reason) + rest == "HTTP/1.1 " + (Dec(code) + (" " + (reason + "\r\n" + rest)))
  {
  }

  /** Header fields up to the empty line; what follows is the body. */
  function ParseFields(s: string): (r: Option<(seq<Field>, string)>)
    decreases |s|
  {
    var next := NextLine(s);
    if next.None? then None
    else
      var (l, rest) := next.value;
      if |l| == 0 then Some(([], rest))
      else
        var c := IndexOf(l, ':');
        if c == 0 || c + 2 > |l| || l[c + 1] != ' ' then None
        else
          var tail := ParseFields(rest);
          if tail.None? then None
          else Some(([Field(l[..c], l[c + 2..])] + tail.value.0, tail.value.1))
  }

  lemma FieldLineOf(f: Field)
    requires FieldOk(f)
    ensures var l := f.name + ": " + f.value;
      '\r' !in l && IndexOf(l, ':') == |f.name| && l[|f.name| + 1] == ' '
      && l[..|f.name|] == f.name && l[|f.name| + 2..] == f.value
  {
    var l := f.name + ": " + f.value;
    Assoc(f.name, ": ", f.value);
    IndexOfAfter(f.name, ": " + f.value, ':');
    Split(f.name, ": " + f.value);
    Split(": ", f.value);
  }

  lemma {:induction false} ParseFieldsOf(fs: seq<Field>, body: string)
    requires FieldsOk(fs)
    ensures ParseFields(FieldLines(fs) + "\r\n" + body) == Some((fs, body))
    decreases |fs|
  {
    if |fs| == 0 {
      assert FieldLines(fs) + "\r\n" + body == [] + "\r\n" + body;
      NextLineOf([], body);
    } else {
      var f := fs[0];
      var l := f.name + ": " + f.value;
      var rest := FieldLines(fs[1..]) + "\r\n" + body;
      assert FieldLines(fs) == l + "\r\n" + FieldLines(fs[1..]);
      assert FieldLines(fs) + "\r\n" + body == l + "\r\n" + rest;
      FieldLineOf(f);
      NextLineOf(l, rest);
      ParseFieldsOf(fs[1..], body);
      assert [f] + fs[1..] == fs;
    }
  }

  /** Splits a response into status code, reason, header fields and body. */
  function ParseHead(s: string): (m: Option<Message>) {
    var st := ParseStatus(s);
    if st.None? then None
    else
      var fields := ParseFields(st.value.2);
      if fields.None? then None
      else Some(Message(st.value.0, st.value.1, fields.value.0, fields.value.1))
  }

  /** A head followed by a body splits back into the parts it was built
      from. */
  lemma ParseHeadOf(code: nat, reason: string, fs: seq<Field>, body: string)
    requires Clean(reason) && FieldsOk(fs)
    ensures ParseHead(Head(code, reason, fs) + body) == Some(Message(code, reason, fs, body))
  {
    var rest := FieldLines(fs) + "\r\n" + body;
    HeadThenBody(code, reason, fs, body);
    ParseStatusOf(code, reason, rest);
    ParseFieldsOf(fs, body);
  }

  lemma HeadThenBody(code: nat, reason: string, fs: seq<Field>, body: string)
    ensures Head(code, reason, fs) + body == StatusLine(code, reason) + (FieldLines(fs) + "\r\n" + body)
  {
    var s, f := StatusLine(code, reason), FieldLines(fs);
    Assoc(s + f, "\r\n", body);
    Assoc(s, f, "\r\n" + body);
    Assoc(f, "\r\n", body);
  }

  // -----------------------------------------------------------------------
  // SendErrorToClient

  /** The text SendErrorToClient writes: the status line, a Content-length
      field, the empty line, then `longmsg`. */
  function ErrorText(status: nat, msg: string, longmsg: string): string {
    Head(status, msg, [Field("Content-length", Dec(|longmsg|))]) + longmsg
  }

  /** An error response splits into its status and reason, one
      Content-length field whose value is the length of the body, and
      `longmsg` as the body. */
  lemma ErrorIsFramed(status: nat, msg: string, longmsg: string)
    requires Clean(msg)
    ensures var m := ParseHead(ErrorText(status, msg, longmsg));
      && m.Some? && m.value.code == status && m.value.reason == msg && m.value.body == longmsg
      && m.value.fields == [Field("Content-length", Dec(|m.value.body|))]
  {
    LengthFieldOk(Dec(|longmsg|));
    ParseHeadOf(status, msg, [Field("Content-length", Dec(|longmsg|))], longmsg);
  }

  lemma LengthFieldOk(digits: string)
    requires AllDigits(digits)
    ensures FieldsOk([Field("Content-length", digits)])
  {
    DigitsAreClean(digits);
    ConstantsOk();
    assert FieldOk(Field("Content-length", digits));
  }

  // -----------------------------------------------------------------------
  // SendFileToClient

  /** "bytes first-last/complete" (section 4.2 of RFC 7233). */
  function RangeValue(first: nat, last: nat, complete: nat): string {
    "bytes " + Dec(first) + "-" + Dec(last) + "/" + Dec(complete)
  }

  /** The fields of a file response: Content-Range naming `offset`, `last`
      and the file size when the offset is positive, Accept-Ranges
      otherwise; then Cache-Control, Content-length `end - offset` in
      unsigned arithmetic, and Content-type. */
  function FileFields(offset: nat, last: nat, end: nat, total: nat): seq<Field>
    requires offset < ULongMod && end < ULongMod
  {
    (if offset > 0 then [Field("Content-Range", RangeValue(offset, last, total))]
     else [Field("Accept-Ranges", "bytes")])
    + [Field("Cache-Control", "no-cache"),
       Field("Content-length", Dec(Wrap(end - offset))),
       Field("Content-type", "text/plain")]
  }

  lemma CleanConcat(a: string, b: string)
    requires Clean(a) && Clean(b)
    ensures Clean(a + b)
  {
    assert forall c :: c in a + b ==> c in a || c in b;
  }

  lemma RangeValueClean(first: nat, last: nat, complete: nat)
    ensures Clean(RangeValue(first, last, complete))
  {
    DigitsAreClean(Dec(first));
    DigitsAreClean(Dec(last));
    DigitsAreClean(Dec(complete));
    CleanConcat("bytes ", Dec(first));
    CleanConcat("bytes " + Dec(first), "-");
    CleanConcat("bytes " + Dec(first) + "-", Dec(last));
    CleanConcat("bytes " + Dec(first) + "-" + Dec(last), "/");
    CleanConcat("bytes " + Dec(first) + "-" + Dec(last) + "/", Dec(complete));
  }

  /** The field names and fixed values this server writes. */
  lemma ConstantsOk()
    ensures NameOk("Content-Range") && NameOk("Accept-Ranges") && NameOk("Cache-Control")
    ensures NameOk("Content-length") && NameOk("Content-type") && NameOk("Content-Type")
    ensures Clean("bytes") && Clean("no-cache") && Clean("text/plain") && Clean("text/html")
  {
  }

  lemma FileFieldsOk(offset: nat, last: nat, end: nat, total: nat)
    requires offset < ULongMod && end < ULongMod
    ensures FieldsOk(FileFields(offset, last, end, total))
  {
    ConstantsOk();
    RangeValueClean(offset, last, total);
    var length := Dec(Wrap(end - offset));
    DigitsAreClean(length);
    var f0 := if offset > 0 then Field("Content-Range", RangeValue(offset, last, total))
              else Field("Accept-Ranges", "bytes");
    assert FieldOk(f0);
    var fs := [f0, Field("Cache-Control", "no-cache"), Field("Content-length", length), Field("Content-type", "text/plain")];
    assert FileFields(offset, last, end, total) == fs;
  }

  /** "206 Partial" for a positive offset, "200 OK" otherwise. */
  function FileStatus(offset: nat): (nat, string) {
    if offset > 0 then (206, "Partial") else (200, "OK")
  }

  /** The head SendFileToClient writes, as the source has it: the
      Content-Range's second number is `end`, the exclusive end. */
  function FileHead(offset: nat, end: nat, total: nat): string
    requires offset < ULongMod && end < ULongMod
  {
    Head(FileStatus(offset).0, FileStatus(offset).1, FileFields(offset, end, end, total))
  }

  /** The head splits into its status and fields, with nothing after
      them. */
  lemma FileHeadFramed(offset: nat, end: nat, total: nat)
    requires offset < ULongMod && end < ULongMod
    ensures ParseHead(FileHead(offset, end, total))
         == Some(Message(FileStatus(offset).0, FileStatus(offset).1, FileFields(offset, end, end, total), []))
  {
    FileFieldsOk(offset, end, end, total);
    ParseHeadOf(FileStatus(offset).0, FileStatus(offset).1, FileFields(offset, end, end, total), []);
    assert FileHead(offset, end, total) + [] == FileHead(offset, end, total);
  }

  /** As written, a non-empty partial range is announced as bytes offset
      to end, end - offset + 1 of them, while Content-length says
      end - offset: for "Range: bytes=1-5" on a 10-byte file (offset 1,
      end 6) the head says "bytes 1-6/10" and a length of 5. */
  lemma AsWrittenOverstates(offset: nat, end: nat, total: nat)
    requires 0 < offset < end < ULongMod
    ensures var fs := FileFields(offset, end, end, total);
      && fs[0] == Field("Content-Range", RangeValue(offset, end, total))
      && fs[2] == Field("Content-length", Dec(end - offset))
    ensures RangeValue(1, 6, 10) == "bytes 1-6/10" && Dec(6 - 1) == "5"
  {
    assert Dec(1) == "1" && Dec(6) == "6" && Dec(10) == "10" && Dec(5) == "5";
  }

  /** SendFileToClient's head with the last byte position in Content-Range,
      as section 4.2 of RFC 7233 defines it. */
  function FileHeadFixed(offset: nat, end: nat, total: nat): string
    requires offset < ULongMod && end < ULongMod
  {
    Head(FileStatus(offset).0, FileStatus(offset).1,
         FileFields(offset, if end > 0 then end - 1 else 0, end, total))
  }

  lemma FileHeadFixedFramed(offset: nat, end: nat, total: nat)
    requires offset < ULongMod && end < ULongMod
    ensures var last := if end > 0 then end - 1 else 0;
      ParseHead(FileHeadFixed(offset, end, total))
        == Some(Message(FileStatus(offset).0, FileStatus(offset).1, FileFields(offset, last, end, total), []))
  {
    var last := if end > 0 then end - 1 else 0;
    FileFieldsOk(offset, last, end, total);
    ParseHeadOf(FileStatus(offset).0, FileStatus(offset).1, FileFields(offset, last, end, total), []);
    assert FileHeadFixed(offset, end, total) + [] == FileHeadFixed(offset, end, total);
  }

  /** In the fixed head a non-empty partial range names bytes offset to
      end - 1, exactly as many as Content-length announces; a whole file
      is offered with Accept-Ranges. */
  lemma FixedRangeMatchesLength(offset: nat, end: nat, total: nat)
    requires offset < end < ULongMod
    ensures var fs := FileFields(offset, end - 1, end, total);
      && (offset > 0 ==> fs[0] == Field("Content-Range", RangeValue(offset, end - 1, total)))
      && (offset == 0 ==> fs[0] == Field("Accept-Ranges", "bytes"))
      && fs[2] == Field("Content-length", Dec((end - 1) - offset + 1))
  {
  }

  // -----------------------------------------------------------------------
  // SendDirectoryToClient

  /** What openat and fstat report for a directory entry. */
  datatype Kind = RegularFile | Subdirectory | OtherFile | Unopenable

  /** A directory entry with its modification time and size as strftime
      and FormatSize render them. */
  datatype Entry = Entry(name: string, kind: Kind, mtime: string, size: string)

  /** An entry gets a row: not "." or "..", opened, and a regular file or a
      directory. */
  predicate Listed(e: Entry) {
    e.name != "." && e.name != ".." && (e.kind == RegularFile || e.kind == Subdirectory)
  }

  /** The name as the listing links it: a directory gets a trailing '/'. */
  function Linked(e: Entry): string {
    e.name + (if e.kind == Subdirectory then "/" else "")
  }

  /** One table row; the linked name is both the link target and its
      text. */
  function Row(e: Entry): string {
    RowOpen + Linked(e) + RowTail(e)
  }

  /** What follows the name in the href: the link text and the other two
      cells. */
  function RowTail(e: Entry): string {
    "\">" + Linked(e) + "</a></td><td>" + e.mtime + "</td><td>" + e.size + "</td></tr>\n"
  }

  const RowOpen: string := "<tr><td><a href=\""

  /** The rows SendDirectoryToClient writes, in directory order. */
  function Rows(entries: seq<Entry>): (rows: seq<string>)
    ensures |rows| <= |entries|
  {
    if |entries| == 0 then []
    else (if Listed(entries[0]) then [Row(entries[0])] else []) + Rows(entries[1..])
  }

  /** The entries that get a row, in order: an independent filter. */
  function ListedEntries(entries: seq<Entry>): (r: seq<Entry>)
    ensures |r| <= |entries|
    ensures forall i :: 0 <= i < |r| ==> Listed(r[i]) && r[i] in entries
    ensures forall e :: e in entries && Listed(e) ==> e in r
  {
    if |entries| == 0 then []
    else
      var tail := ListedEntries(entries[1..]);
      assert forall e :: e in entries ==> e == entries[0] || e in entries[1..];
      (if Listed(entries[0]) then [entries[0]] else []) + tail
  }

  /** One row per listed entry, in order; "." and "..", entries that
      cannot be opened, and special files get none. */
  lemma {:induction false} RowPerListedEntry(entries: seq<Entry>)
    ensures |Rows(entries)| == |ListedEntries(entries)|
    ensures forall i :: 0 <= i < |Rows(entries)| ==> Rows(entries)[i] == Row(ListedEntries(entries)[i])
  {
    if |entries| > 0 {
      RowPerListedEntry(entries[1..]);
    }
  }

  const HtmlHead: string :=
    "<html><head><style>" + "body{font-family: monospace; font-size: 13px;}"
    + "td {padding: 1.5px 6px;}" + "</style></head><body><table>\n"

  const HtmlTail: string := "</table></body></html>"

  function Concat(ss: seq<string>): string {
    if |ss| == 0 then [] else ss[0] + Concat(ss[1..])
  }

  /** Everything SendDirectoryToClient writes: a 200 head of type
      text/html, the page head, the rows and the page end. */
  function Listing(entries: seq<Entry>): string {
    Head(200, "OK", [Field("Content-Type", "text/html")]) + HtmlHead + Concat(Rows(entries)) + HtmlTail
  }

  /** A listing splits into a 200 head with its one field and the HTML page
      as the body. */
  lemma ListingIsFramed(entries: seq<Entry>)
    ensures ParseHead(Listing(entries))
         == Some(Message(200, "OK", [Field("Content-Type", "text/html")],
                         HtmlHead + Concat(Rows(entries)) + HtmlTail))
  {
    var fs := [Field("Content-Type", "text/html")];
    var page := Concat(Rows(entries));
    Assoc(Head(200, "OK", fs) + HtmlHead, page, HtmlTail);
    Assoc(Head(200, "OK", fs), HtmlHead, page + HtmlTail);
    Assoc(HtmlHead, page, HtmlTail);
    ListingFieldOk();
    ParseHeadOf(200, "OK", fs, HtmlHead + page + HtmlTail);
  }

  lemma ListingFieldOk()
    ensures Clean("OK") && FieldsOk([Field("Content-Type", "text/html")])
  {
    ConstantsOk();
    assert FieldOk(Field("Content-Type", "text/html"));
  }

  // -----------------------------------------------------------------------
  // Process

  /** What open and fstat report for the requested name. */
  datatype Target = Missing | Regular(size: nat) | Directory(entries: seq<Entry>) | Special

  /** The status Process settles on and the text it writes. */
  datatype Response = Response(status: nat, text: string)

  /** Process: 404 when the name cannot be opened; a regular file is sent
      from the range, whose end defaults to the file size, with the head
      SendFileToClient writes; a directory is listed; anything else is a
      400. */
  function Respond(req: Request, t: Target): (resp: Response)
    requires RangeOk(req.range)
    requires t.Regular? ==> t.size < ULongMod
    ensures t.Missing? ==> resp == Response(404, ErrorText(404, "Not found", "File not found"))
    ensures t.Special? ==> resp == Response(400, ErrorText(400, "Error", "Unknow Error"))
    ensures t.Regular? ==> resp.status == (if req.range.offset > 0 then 206 else 200)
    ensures t.Regular? ==> resp.text == FileHead(req.range.offset, FileEnd(req.range, t.size), t.size)
    ensures t.Directory? ==> resp == Response(200, Listing(t.entries))
  {
    match t
    case Regular(size) =>
      Response(FileStatus(req.range.offset).0, FileHead(req.range.offset, FileEnd(req.range, size), size))
    case _ => Other(t)
  }

  /** Process with the corrected Content-Range. */
  function RespondFixed(req: Request, t: Target): (resp: Response)
    requires RangeOk(req.range)
    requires t.Regular? ==> t.size < ULongMod
    ensures t.Regular? ==> resp.status == (if req.range.offset > 0 then 206 else 200)
    ensures t.Regular? ==> resp.text == FileHeadFixed(req.range.offset, FileEnd(req.range, t.size), t.size)
    ensures !t.Regular? ==> resp == Respond(req, t)
  {
    match t
    case Regular(size) =>
      Response(FileStatus(req.range.offset).0, FileHeadFixed(req.range.offset, FileEnd(req.range, size), size))
    case _ => Other(t)
  }

  /** The end Process sends up to: the file size when the range gave none. */
  function FileEnd(r: Range, size: nat): (e: nat)
    requires RangeOk(r) && size < ULongMod
    ensures e < ULongMod
    ensures r.end != 0 ==> e == r.end
  {
    if r.end == 0 then size else r.end
  }

  /** The responses for a name that is not a regular file. */
  function Other(t: Target): (resp: Response)
    requires !t.Regular?
  {
    match t
    case Missing => Response(404, ErrorText(404, "Not found", "File not found"))
    case Directory(entries) => Response(200, Listing(entries))
    case Special => Response(400, ErrorText(400, "Error", "Unknow Error"))
  }

  /** The status Process records is the one its response carries. */
  lemma StatusIsSent(req: Request, t: Target)
    requires RangeOk(req.range)
    requires t.Regular? ==> t.size < ULongMod
    ensures var resp := Respond(req, t);
      ParseHead(resp.text).Some? && ParseHead(resp.text).value.code == resp.status
    ensures var resp := RespondFixed(req, t);
      ParseHead(resp.text).Some? && ParseHead(resp.text).value.code == resp.status
  {
    match t
    case Missing => ErrorIsFramed(404, "Not found", "File not found");
    case Special => ErrorIsFramed(400, "Error", "Unknow Error");
    case Directory(entries) => ListingIsFramed(entries);
    case Regular(size) =>
      FileHeadFramed(req.range.offset, FileEnd(req.range, size), size);
      FileHeadFixedFramed(req.range.offset, FileEnd(req.range, size), size);
  }

  /** Whole-file requests get the same response either way; a partial one
      differs only in the Content-Range field. */
  lemma RespondFixedDiffers(req: Request, size: nat)
    requires RangeOk(req.range) && size < ULongMod
    ensures req.range.offset == 0 ==> RespondFixed(req, Regular(size)) == Respond(req, Regular(size))
    ensures var a := ParseHead(Respond(req, Regular(size)).text);
      var b := ParseHead(RespondFixed(req, Regular(size)).text);
      && a.Some? && b.Some? && a.value.code == b.value.code
      && |a.value.fields| == |b.value.fields| == 4 && a.value.fields[1..] == b.value.fields[1..]
  {
    var o := req.range.offset;
    var e := FileEnd(req.range, size);
    HeadsDiffer(o, e, size);
    if o == 0 {
      WholeHeadsAgree(e, size);
    }
  }

  /** The two heads of a file response parse alike but for the first
      field. */
  lemma HeadsDiffer(o: nat, e: nat, size: nat)
    requires o < ULongMod && e < ULongMod
    ensures var a := ParseHead(FileHead(o, e, size));
      var b := ParseHead(FileHeadFixed(o, e, size));
      && a.Some? && b.Some? && a.value.code == b.value.code
      && |a.value.fields| == |b.value.fields| == 4 && a.value.fields[1..] == b.value.fields[1..]
  {
    FileHeadFramed(o, e, size);
    FileHeadFixedFramed(o, e, size);
  }

  /** Without a range the Content-Range field is absent, so both heads are
      the same text. */
  lemma WholeHeadsAgree(e: nat, size: nat)
    requires e < ULongMod
    ensures FileHeadFixed(0, e, size) == FileHead(0, e, size)
  {
    assert FileFields(0, e, e, size) == FileFields(0, if e > 0 then e - 1 else 0, e, size);
  }
}

=== FILE: key_decoder.dfy ===
/** The key decoding done by the `switch` in CmdLineEdit and in the inner
    loop of CompleteCmdLine (interpreter_command_line.c): raw input bytes
    become edit keys. Both loops read bytes the same way; they differ only in
    what an unrecognised ESC sequence does, so the decoder reports that case
    as its own key. */
module KeyDecoder {
  import opened Text
  import LineEditor

  /** The keys the editor reacts to. `Unbound` is an escape sequence both
      loops consume without effect; `EscOther` is ESC followed by a byte that
      is neither '[' nor 'O' (ignored while editing, but it leaves completion). */
  datatype Key =
    | Insert(c: char)
    | Left | Right | Backspace | Delete | Home | End
    | HistoryUp | HistoryDown
    | Complete | Accept | Cancel
    | Unbound | EscOther

  /** The control bytes of `enum Action`. */
  const CtrlB: char := 2 as char
  const CtrlC: char := 3 as char
  const CtrlF: char := 6 as char
  const Tab: char := 9 as char
  const Enter: char := 13 as char
  const BackspaceByte: char := 127 as char

  predicate IsAction(b: char) {
    b == CtrlB || b == CtrlC || b == CtrlF || b == Tab || b == Enter
    || b == LineEditor.Esc || b == BackspaceByte
  }

  /** One decoded key and the number of bytes it used. */
  datatype Decoded = Decoded(key: Key, used: nat)

  /** The key after "ESC [" and `b`, for a non-digit `b`. */
  function CsiKey(b: char): Key {
    if b == 'A' then HistoryUp
    else if b == 'B' then HistoryDown
    else if b == 'C' then Right
    else if b == 'D' then Left
    else if b == 'H' then Home
    else if b == 'F' then End
    else Unbound
  }

  /** Decodes the key at the front of `input`; None when the input ends in
      the middle of an escape sequence (the source would block in read()).
      After ESC the source always reads two more bytes, and a third one when
      the second is a digit. */
  function DecodeKey(input: string): (r: Option<Decoded>)
    requires |input| > 0
    ensures r.Some? ==> 1 <= r.value.used <= |input| && r.value.used <= 4
    ensures r.None? <==> (input[0] == LineEditor.Esc
                          && (|input| < 3 || (|input| < 4 && input[1] == '[' && IsDigit(input[2]))))
    ensures !IsAction(input[0]) ==> r == Some(Decoded(Insert(input[0]), 1))
    ensures r.Some? && r.value.key.Insert? ==> r.value == Decoded(Insert(input[0]), 1) && !IsAction(input[0])
  {
    var b := input[0];
    if b == CtrlB then Some(Decoded(Left, 1))
    else if b == CtrlC then Some(Decoded(Cancel, 1))
    else if b == CtrlF then Some(Decoded(Right, 1))
    else if b == Tab then Some(Decoded(Complete, 1))
    else if b == Enter then Some(Decoded(Accept, 1))
    else if b == BackspaceByte then Some(Decoded(Backspace, 1))
    else if b == LineEditor.Esc then
      if |input| < 3 then None
      else if input[1] == '[' then
        if IsDigit(input[2]) then
          if |input| < 4 then None
          else if input[3] == '~' && input[2] == '3' then Some(Decoded(Delete, 4))
          else Some(Decoded(Unbound, 4))
        else Some(Decoded(CsiKey(input[2]), 3))
      else if input[1] == 'O' then
        Some(Decoded(if input[2] == 'H' then Home else if input[2] == 'F' then End else Unbound, 3))
      else Some(Decoded(EscOther, 3))
    else Some(Decoded(Insert(b), 1))
  }

  /** The bytes a terminal sends for each key (the encodings the decoder
      recognises: ESC [ A/B/C/D/H/F, ESC [ 3 ~, and the control bytes). */
  function KeyBytes(k: Key): string {
    match k
    case Insert(c) => [c]
    case Left => [CtrlB]
    case Right => [CtrlF]
    case Backspace => [BackspaceByte]
    case Delete => [LineEditor.Esc, '[', '3', '~']
    case Home => [LineEditor.Esc, '[', 'H']
    case End => [LineEditor.Esc, '[', 'F']
    case HistoryUp => [LineEditor.Esc, '[', 'A']
    case HistoryDown => [LineEditor.Esc, '[', 'B']
    case Complete => [Tab]
    case Accept => [Enter]
    case Cancel => [CtrlC]
    case Unbound => [LineEditor.Esc, '[', 'Z']
    case EscOther => [LineEditor.Esc, 'x', 'x']
  }

  /** Keys are decoded exactly from their encodings, whatever follows them:
      the decoder never reads past the end of a key. */
  lemma DecodeKeyBytes(k: Key, rest: string)
    requires k.Insert? ==> !IsAction(k.c)
    ensures DecodeKey(KeyBytes(k) + rest) == Some(Decoded(k, |KeyBytes(k)|))
  {
    var input := KeyBytes(k) + rest;
    match k
    case Delete =>
      assert input[..4] == [LineEditor.Esc, '[', '3', '~'];
      assert input[3] == '~' && input[2] == '3' && input[1] == '[';
    case Home => assert input[1] == '[' && input[2] == 'H';
    case End => assert input[1] == '[' && input[2] == 'F';
    case HistoryUp => assert input[1] == '[' && input[2] == 'A';
    case HistoryDown => assert input[1] == '[' && input[2] == 'B';
    case Unbound => assert input[1] == '[' && input[2] == 'Z';
    case EscOther => assert input[1] == 'x';
    case _ =>
  }

  /** The other sequences the switch knows: ESC [ C and ESC [ D move like
      Ctrl-F and Ctrl-B, ESC O H and ESC O F are Home and End, and any
      other three-byte ESC [ x, ESC O x or four-byte ESC [ digit x sequence
      is consumed without effect; ESC followed by a byte other than '[' or
      'O' consumes three bytes and is reported as EscOther. */
  lemma OtherEscapes(b: char, c: char, d: char, rest: string)
    ensures DecodeKey([LineEditor.Esc, '[', 'C'] + rest) == Some(Decoded(Right, 3))
    ensures DecodeKey([LineEditor.Esc, '[', 'D'] + rest) == Some(Decoded(Left, 3))
    ensures DecodeKey([LineEditor.Esc, 'O', 'H'] + rest) == Some(Decoded(Home, 3))
    ensures DecodeKey([LineEditor.Esc, 'O', 'F'] + rest) == Some(Decoded(End, 3))
    ensures c != 'H' && c != 'F' ==>
      DecodeKey([LineEditor.Esc, 'O', c] + rest) == Some(Decoded(Unbound, 3))
    ensures !IsDigit(c) && c !in "ABCDHF" ==>
      DecodeKey([LineEditor.Esc, '[', c] + rest) == Some(Decoded(Unbound, 3))
    ensures IsDigit(c) && (c != '3' || d != '~') ==>
      DecodeKey([LineEditor.Esc, '[', c, d] + rest) == Some(Decoded(Unbound, 4))
    ensures b != '[' && b != 'O' ==>
      DecodeKey([LineEditor.Esc, b, c] + rest) == Some(Decoded(EscOther, 3))
  {
    assert ([LineEditor.Esc, '[', 'C'] + rest)[1..3] == ['[', 'C'];
    assert ([LineEditor.Esc, '[', 'D'] + rest)[1..3] == ['[', 'D'];
    assert ([LineEditor.Esc, 'O', 'H'] + rest)[1..3] == ['O', 'H'];
    assert ([LineEditor.Esc, 'O', 'F'] + rest)[1..3] == ['O', 'F'];
    assert ([LineEditor.Esc, 'O', c] + rest)[1..3] == ['O', c];
    assert ([LineEditor.Esc, '[', c] + rest)[1..3] == ['[', c];
    assert ([LineEditor.Esc, '[', c, d] + rest)[1..4] == ['[', c, d];
    assert ([LineEditor.Esc, b, c] + rest)[1..3] == [b, c];
  }

  /** The keys a whole byte sequence decodes to, and the unfinished escape
      sequence left at its end (empty when every byte was used). */
  function DecodeAll(input: string): (r: (seq<Key>, string))
    ensures |r.1| < 4
    ensures |r.1| > 0 ==> r.1[0] == LineEditor.Esc
    decreases |input|
  {
    if |input| == 0 then ([], [])
    else match DecodeKey(input)
      case None => ([], input)
      case Some(d) =>
        var rest := DecodeAll(input[d.used..]);
        ([d.key] + rest.0, rest.1)
  }

  /** Encoding a list of keys and decoding the bytes gives the keys back. */
  lemma {:induction false} DecodeAllRoundTrip(ks: seq<Key>)
    requires forall i :: 0 <= i < |ks| && ks[i].Insert? ==> !IsAction(ks[i].c)
    ensures DecodeAll(EncodeAll(ks)) == (ks, [])
  {
    if |ks| > 0 {
      var rest := EncodeAll(ks[1..]);
      DecodeKeyBytes(ks[0], rest);
      assert EncodeAll(ks) == KeyBytes(ks[0]) + rest;
      assert (KeyBytes(ks[0]) + rest)[|KeyBytes(ks[0])|..] == rest;
      DecodeAllRoundTrip(ks[1..]);
      assert [ks[0]] + ks[1..] == ks;
    }
  }

  function EncodeAll(ks: seq<Key>): string {
    if |ks| == 0 then [] else KeyBytes(ks[0]) + EncodeAll(ks[1..])
  }
}

=== FILE: legacy_queue.dfy ===
/** The earlier queue of queue.c. Its list operations match
    interpreter_queue.c, but q_remove_head differs in two ways: it copies the
    removed string out to a caller buffer, and it never resets the tail
    pointer. After the last node is removed, the tail still designates
    the freed node (`Freed`), and later operations that follow the tail
    touch freed memory (`UseAfterFree`). */
module LegacyQueue {
  import opened Text
  import Lists

  /** Where the tail pointer points: NULL, the node at a position of the
      list, or a node already freed. */
  datatype Tail = Null | Node(i: nat) | Freed

  datatype LQueue = LQueue(items: seq<string>, size: int, tail: Tail)

  /** The shapes q_new and the operations produce: the counter is the node
      count, a NULL tail only on an empty list, a live tail on the last node. */
  predicate Shape(q: LQueue) {
    && q.size == |q.items|
    && (q.tail.Null? ==> |q.items| == 0)
    && (q.tail.Node? ==> |q.items| > 0 && q.tail.i == |q.items| - 1)
  }

  /** The stronger shape of interpreter_queue.c: the tail is NULL exactly on
      an empty list, and is never left on a freed node. */
  predicate Valid(q: LQueue) {
    Shape(q) && !q.tail.Freed? && (q.tail.Null? <==> |q.items| == 0)
  }

  /** An operation's answer and the queue after it, or undefined behaviour.
      `HeadFreed` is the queue q_reverse leaves behind from a stale tail: it
      returns normally, but the head pointer now designates the freed node.
      The tail is on the last node of `chain`, the reversed nodes, whose first
      node no pointer of the queue reaches; `size` is the unchanged counter. */
  datatype Res = Res(ok: bool, q: Option<LQueue>) | UseAfterFree | HeadFreed(size: int, chain: seq<string>)

  /** q_new */
  function New(): (q: LQueue)
    ensures Valid(q) && q.items == []
  {
    LQueue([], 0, Null)
  }

  /** q_insert_head; the string must exist, since its length is taken before
      the queue is checked. */
  function InsertHead(q: Option<LQueue>, s: string): (r: Res)
    requires q.Some? ==> Shape(q.value)
    requires NoNul(s)
    ensures r.Res?
    ensures r.ok <==> q.Some?
    ensures !r.ok ==> r.q == q
    ensures r.ok ==> r.q.Some? && Shape(r.q.value) && r.q.value.items == [s] + q.value.items
    ensures r.ok ==> (r.q.value.tail.Freed? <==> q.value.tail.Freed?)
    ensures r.ok && Valid(q.value) ==> Valid(r.q.value)
  {
    if q.None? then Res(false, q)
    else
      var q0 := q.value;
      var tail := match q0.tail
        case Null => Node(0)
        case Node(i) => Node(i + 1)
        case Freed => Freed;
      Res(true, Some(LQueue([s] + q0.items, q0.size + 1, tail)))
  }

  /** q_insert_tail: a NULL tail makes the new node head and tail; otherwise
      the new node is linked after the tail node, which on a freed tail is a
      write to freed memory. */
  function InsertTail(q: Option<LQueue>, s: string): (r: Res)
    requires q.Some? ==> Shape(q.value)
    requires NoNul(s)
    ensures r.UseAfterFree? <==> q.Some? && q.value.tail.Freed?
    ensures r.Res? ==> (r.ok <==> q.Some?) && (!r.ok ==> r.q == q)
    ensures r.Res? && r.ok ==> r.q.Some? && Valid(r.q.value)
                               && r.q.value.items == q.value.items + [s]
  {
    if q.None? then Res(false, q)
    else
      var q0 := q.value;
      match q0.tail
      case Null => Res(true, Some(LQueue([s], q0.size + 1, Node(0))))
      case Node(_) => Res(true, Some(LQueue(q0.items + [s], q0.size + 1, Node(|q0.items|))))
      case Freed => UseAfterFree
  }

  /** What q_remove_head leaves in the caller's buffer `sp` of `bufsize`
      bytes: `strncpy` of bufsize-2 bytes of the value, then a terminator in
      the last byte. The byte just before it keeps its old content. */
  function CopyOut(value: string, sp: string, bufsize: nat): (r: string)
    requires NoNul(value) && 2 <= bufsize <= |sp|
    ensures |r| == |sp| && r[bufsize - 1] == '\0' && r[bufsize - 2] == sp[bufsize - 2]
    ensures forall i :: 0 <= i < bufsize - 2 ==> r[i] == if i < |value| then value[i] else '\0'
  {
    seq(bufsize - 2, i requires 0 <= i < bufsize - 2 => if i < |value| then value[i] else '\0')
      + [sp[bufsize - 2]] + ['\0'] + sp[bufsize..]
  }

  /** The intended copy: at most bufsize-1 bytes of the value, always
      terminated. */
  function CopyOutFixed(value: string, sp: string, bufsize: nat): (r: string)
    requires NoNul(value) && 1 <= bufsize <= |sp|
    ensures |r| == |sp|
    ensures CStr(r) == value[..Min(|value|, bufsize - 1)]
  {
    var n := bufsize - 1;
    var r := seq(n, i requires 0 <= i < n => if i < |value| then value[i] else '\0')
               + ['\0'] + sp[bufsize..];
    assert r[..Min(|value|, n)] == value[..Min(|value|, n)];
    CStrOf(r, Min(|value|, n));
    r
  }

  function Min(a: nat, b: nat): nat {
    if a < b then a else b
  }

  /** A copy that fills the first bufsize-2 bytes keeps the caller's old byte
      after them: a three-byte buffer holding "zzz" receives "az" for the
      removed value "abc", where "ab" is meant. */
  lemma CopyOutKeepsStaleByte()
    ensures CStr(CopyOut("abc", "zzz", 3)) == "az"
    ensures CStr(CopyOutFixed("abc", "zzz", 3)) == "ab"
  {
    var r := CopyOut("abc", "zzz", 3);
    assert r == "az\0";
    CStrOf(r, 2);
  }

  /** The outcome of q_remove_head: answer, queue, caller buffer after. */
  datatype Removed = Removed(ok: bool, q: LQueue, sp: Option<string>) | BadBufsize

  /** q_remove_head as written: the queue must exist (its head is read before
      the check). An empty list is refused. Otherwise the value is copied
      out when a buffer is given, and the head node is freed. The tail is
      left as it was, so removing the only node leaves it on the freed node.
      A bufsize below 2 makes bufsize-2 wrap round, and strncpy then writes
      far past the buffer. */
  function RemoveHead(q: LQueue, sp: Option<string>, bufsize: nat): (r: Removed)
    requires Shape(q) && (sp.Some? ==> bufsize <= |sp.value|)
    requires forall i :: 0 <= i < |q.items| ==> NoNul(q.items[i])
    ensures r.BadBufsize? <==> |q.items| > 0 && sp.Some? && bufsize < 2
    ensures r.Removed? ==> (r.ok <==> |q.items| > 0)
    ensures r.Removed? && !r.ok ==> r.q == q && r.sp == sp
    ensures r.Removed? && r.ok ==> Shape(r.q) && r.q.items == q.items[1..]
    ensures r.Removed? && r.ok && |q.items| == 1 && q.tail.Node? ==> r.q.tail.Freed?
  {
    if |q.items| == 0 then Removed(false, q, sp)
    else if sp.Some? && bufsize < 2 then BadBufsize
    else
      var out := if sp.Some? then Some(CopyOut(q.items[0], sp.value, bufsize)) else None;
      var tail := match q.tail
        case Node(i) => if |q.items| == 1 then Freed else Node(i - 1)
        case t => t;
      Removed(true, LQueue(q.items[1..], q.size - 1, tail), out)
  }

  /** q_remove_head corrected: the tail is reset to NULL once the list is
      empty, and at most bufsize-1 bytes are copied out. */
  function RemoveHeadFixed(q: LQueue, sp: Option<string>, bufsize: nat): (r: Removed)
    requires Valid(q) && (sp.Some? ==> bufsize <= |sp.value|)
    requires forall i :: 0 <= i < |q.items| ==> NoNul(q.items[i])
    ensures r.BadBufsize? <==> |q.items| > 0 && sp.Some? && bufsize < 1
    ensures r.Removed? ==> (r.ok <==> |q.items| > 0)
    ensures r.Removed? && !r.ok ==> r.q == q && r.sp == sp
    ensures r.Removed? && r.ok ==> Valid(r.q) && r.q.items == q.items[1..]
    ensures r.Removed? && r.ok && sp.Some? ==>
              r.sp.Some? && CStr(r.sp.value) == q.items[0][..Min(|q.items[0]|, bufsize - 1)]
  {
    if |q.items| == 0 then Removed(false, q, sp)
    else if sp.Some? && bufsize < 1 then BadBufsize
    else
      var out := if sp.Some? then Some(CopyOutFixed(q.items[0], sp.value, bufsize)) else None;
      var tail := if |q.items| == 1 then Null else Node(q.tail.i - 1);
      Removed(true, LQueue(q.items[1..], q.size - 1, tail), out)
  }

  /** q_size: 0 for a NULL queue or an empty list, else the counter. */
  function Size(q: Option<LQueue>): (n: int)
    requires q.Some? ==> Shape(q.value)
    ensures n == if q.None? then 0 else |q.value.items|
  {
    if q.None? || |q.value.items| == 0 then 0 else q.value.size
  }

  /** q_reverse: the head becomes what the tail designates and the tail the
      old head, then the links are turned round. On a freed tail nothing is
      read through it: the call returns with the head on the freed node
      (`HeadFreed`), and the fault comes with whichever later call follows
      the head. */
  function Reverse(q: Option<LQueue>): (r: Res)
    requires q.Some? ==> Shape(q.value)
    ensures !r.UseAfterFree?
    ensures r.HeadFreed? <==> q.Some? && |q.value.items| > 0 && q.value.tail.Freed?
    ensures r.HeadFreed? ==> r.size == q.value.size && r.chain == Lists.Rev(q.value.items)
                             && r.chain[|r.chain| - 1] == q.value.items[0]
    ensures r.Res? ==> r.ok && (q.None? <==> r.q.None?)
    ensures r.Res? && q.Some? ==> Shape(r.q.value) && r.q.value.items == Lists.Rev(q.value.items)
    ensures r.Res? && q.Some? && Valid(q.value) ==> Valid(r.q.value)
  {
    if q.None? || |q.value.items| == 0 then Res(true, q)
    else if q.value.tail.Freed? then HeadFreed(q.value.size, Lists.Rev(q.value.items))
    else Res(true, Some(LQueue(Lists.Rev(q.value.items), q.value.size, Node(|q.value.items| - 1))))
  }

  /** q_sort: merge sort, then the tail is found by walking to the last
      node, which also repairs a freed tail. */
  function Sort(q: Option<LQueue>): (r: Option<LQueue>)
    requires q.Some? ==> Shape(q.value)
    ensures q.None? <==> r.None?
    ensures r.Some? ==> Shape(r.value) && Lists.Sorted(r.value.items)
    ensures r.Some? ==> multiset(r.value.items) == multiset(q.value.items)
    ensures r.Some? && |q.value.items| > 0 ==> Valid(r.value)
  {
    if q.None? || |q.value.items| == 0 then q
    else
      var items := Lists.Sort(q.value.items);
      Some(LQueue(items, q.value.size, Node(|items| - 1)))
  }

  // -----------------------------------------------------------------------
  // The stale tail

  /** Insert one string at the head, remove it, then insert at the tail:
      the last step writes through the freed node. */
  lemma StaleTailFaults(s: string, t: string, sp: string, bufsize: nat)
    requires NoNul(s) && NoNul(t) && 2 <= bufsize <= |sp|
    ensures var a := InsertHead(Some(New()), s).q.value;
      var b := RemoveHead(a, Some(sp), bufsize);
      b.Removed? && b.ok && b.q.items == [] && InsertTail(Some(b.q), t) == UseAfterFree
  {
  }

  /** Remove the only node, insert two strings at the head, then reverse:
      the call returns with the head on the freed node, and the two live
      nodes are reached only through the tail. */
  lemma StaleTailReverseLosesHead(s: string, t: string, u: string)
    requires NoNul(s) && NoNul(t) && NoNul(u)
    ensures var a := InsertHead(Some(New()), s).q.value;
      var b := RemoveHead(a, None, 0);
      b.Removed? && b.ok &&
      var c := InsertHead(InsertHead(Some(b.q), t).q, u).q;
      c.Some? && c.value.items == [u, t] && Reverse(c) == HeadFreed(2, [t, u])
  {
    var a := InsertHead(Some(New()), s).q.value;
    var b := RemoveHead(a, None, 0);
    var c := InsertHead(InsertHead(Some(b.q), t).q, u).q;
    assert c.value.items == [u, t];
    assert Lists.Rev([u, t]) == [t, u];
  }

  /** With the tail reset the same steps append normally. */
  lemma FixedTailAppends(s: string, t: string, sp: string, bufsize: nat)
    requires NoNul(s) && NoNul(t) && 2 <= bufsize <= |sp|
    ensures var a := InsertHead(Some(New()), s).q.value;
      var b := RemoveHeadFixed(a, Some(sp), bufsize);
      b.Removed? && b.ok && InsertTail(Some(b.q), t) == Res(true, Some(LQueue([t], 1, Node(0))))
  {
  }

  /** Operations of the corrected queue never touch freed memory: from a
      valid queue, every step gives a valid queue. */
  lemma FixedStaysValid(q: LQueue, s: string, sp: Option<string>, bufsize: nat)
    requires Valid(q) && NoNul(s)
    requires forall i :: 0 <= i < |q.items| ==> NoNul(q.items[i])
    requires sp.Some? ==> 1 <= bufsize <= |sp.value|
    ensures Valid(InsertHead(Some(q), s).q.value)
    ensures InsertTail(Some(q), s).Res? && Valid(InsertTail(Some(q), s).q.value)
    ensures RemoveHeadFixed(q, sp, bufsize).Removed? && Valid(RemoveHeadFixed(q, sp, bufsize).q)
    ensures Reverse(Some(q)).Res? && Valid(Reverse(Some(q)).q.value)
  {
  }
}

=== FILE: line_editor.dfy ===
/** The edit state of one raw-mode line read and its editing primitives
    (interpreter_command_line.c: CmdLineState, CmdLineIns, CmdLineMoveLeft,
    CmdLineMoveRight, CmdLineBacksapce, CmdLineDel, CmdLineMoveHome,
    CmdLineMoveEnd) and the redraw serialiser `Refresh`. */
module LineEditor {
  import opened Text

  /** g_max_line: the editor never holds more bytes than this. */
  const MaxLine: nat := 4096

  /** The control byte that opens an escape sequence. */
  const Esc: char := 27 as char

  /** CmdLineState. `buf` is the whole C buffer (MaxLine + 1 bytes): the line
      handed back to the caller is the C string at its start, which is not
      always `buf[..len]`. The prompt is passed separately. */
  datatype EditState = EditState(buf: string, len: nat, pos: nat, col: nat, historyIdx: int)

  /** The shape every edit state keeps. No primitive ever writes a non-zero
      byte into the last cell, so the buffer always holds a C string. */
  ghost predicate Valid(s: EditState) {
    |s.buf| == MaxLine + 1 && s.pos <= s.len <= MaxLine && s.buf[MaxLine] == '\0'
  }

  /** The logical content of the line: the first `len` bytes. */
  function Line(s: EditState): string
    requires Valid(s)
  {
    s.buf[..s.len]
  }

  /** The state at the start of CmdLineEdit: a zeroed buffer, empty line. */
  function Fresh(col: nat): (s: EditState)
    ensures Valid(s) && Line(s) == [] && s.pos == 0 && s.historyIdx == 0
    ensures CStr(s.buf) == []
  {
    EditState(seq(MaxLine + 1, _ => '\0'), 0, 0, col, 0)
  }

  /** The outcome of one primitive: the new state, whether it calls Refresh,
      and whether it rings the bell (CmdLineBeep). */
  datatype Step = Step(st: EditState, redraw: bool, beep: bool)

  /** CmdLineIns: insert `c` at the cursor unless the line is full. */
  function Insert(s: EditState, c: char): (r: Step)
    requires Valid(s)
    ensures Valid(r.st) && !r.beep
    ensures r.st.col == s.col && r.st.historyIdx == s.historyIdx
    ensures s.len < MaxLine ==>
              && Line(r.st) == Line(s)[..s.pos] + [c] + Line(s)[s.pos..]
              && r.st.pos == s.pos + 1 && r.st.len == s.len + 1
              && r.st.buf[r.st.len] == '\0' && r.redraw
    ensures s.len == MaxLine ==> r == Step(s, false, false)
  {
    if s.len < MaxLine then
      var b := s.buf[..s.pos] + [c] + s.buf[s.pos..s.len] + ['\0'] + s.buf[s.len + 2..];
      assert b[..s.len + 1] == s.buf[..s.pos] + [c] + s.buf[s.pos..s.len];
      Step(s.(buf := b, pos := s.pos + 1, len := s.len + 1), true, false)
    else
      Step(s, false, false)
  }

  /** CmdLineBacksapce: remove the byte before the cursor, or beep at column 0. */
  function Backspace(s: EditState): (r: Step)
    requires Valid(s)
    ensures Valid(r.st)
    ensures r.st.col == s.col && r.st.historyIdx == s.historyIdx
    ensures s.pos > 0 ==>
              && Line(r.st) == Line(s)[..s.pos - 1] + Line(s)[s.pos..]
              && r.st.pos == s.pos - 1 && r.st.len == s.len - 1
              && r.st.buf[r.st.len] == '\0' && r.redraw && !r.beep
    ensures s.pos == 0 ==> r == Step(s, false, true)
  {
    if s.pos > 0 then
      var b := s.buf[..s.pos - 1] + s.buf[s.pos..s.len] + ['\0'] + s.buf[s.len..];
      assert b[..s.len - 1] == s.buf[..s.pos - 1] + s.buf[s.pos..s.len];
      Step(s.(buf := b, pos := s.pos - 1, len := s.len - 1), true, false)
    else
      Step(s, false, true)
  }

  /** CmdLineDel: remove the byte under the cursor, only when 0 < pos < len.
      The bell rings when, afterwards, the cursor is at column 0 or at the
      end of the line — so deleting the last byte both redraws and beeps. */
  function Delete(s: EditState): (r: Step)
    requires Valid(s)
    ensures Valid(r.st)
    ensures r.st.col == s.col && r.st.historyIdx == s.historyIdx && r.st.pos == s.pos
    ensures 0 < s.pos < s.len ==>
              && Line(r.st) == Line(s)[..s.pos] + Line(s)[s.pos + 1..]
              && r.st.len == s.len - 1 && r.st.buf[r.st.len] == '\0' && r.redraw
    ensures !(0 < s.pos < s.len) ==> r.st == s && !r.redraw
    ensures r.beep <==> (s.pos == 0 || s.pos == r.st.len)
  {
    if 0 < s.pos < s.len then
      var b := s.buf[..s.pos] + s.buf[s.pos + 1..s.len] + ['\0'] + s.buf[s.len..];
      assert b[..s.len - 1] == s.buf[..s.pos] + s.buf[s.pos + 1..s.len];
      var t := s.(buf := b, len := s.len - 1);
      Step(t, true, t.pos == 0 || t.pos == t.len)
    else
      Step(s, false, s.pos == 0 || s.pos == s.len)
  }

  /** CmdLineMoveLeft */
  function MoveLeft(s: EditState): (r: Step)
    requires Valid(s)
    ensures Valid(r.st) && r.st.buf == s.buf && r.st.len == s.len
    ensures s.pos > 0 ==> r == Step(s.(pos := s.pos - 1), true, false)
    ensures s.pos == 0 ==> r == Step(s, false, true)
  {
    if s.pos > 0 then Step(s.(pos := s.pos - 1), true, false) else Step(s, false, true)
  }

  /** CmdLineMoveRight */
  function MoveRight(s: EditState): (r: Step)
    requires Valid(s)
    ensures Valid(r.st) && r.st.buf == s.buf && r.st.len == s.len
    ensures s.pos < s.len ==> r == Step(s.(pos := s.pos + 1), true, false)
    ensures s.pos == s.len ==> r == Step(s, false, true)
  {
    if s.pos < s.len then Step(s.(pos := s.pos + 1), true, false) else Step(s, false, true)
  }

  /** CmdLineMoveHome: silent when already at column 0. */
  function MoveHome(s: EditState): (r: Step)
    requires Valid(s)
    ensures Valid(r.st) && r.st == s.(pos := 0) && !r.beep
    ensures r.redraw <==> s.pos != 0
  {
    if s.pos != 0 then Step(s.(pos := 0), true, false) else Step(s, false, false)
  }

  /** CmdLineMoveEnd: as written it only acts when the cursor is NOT at
      column 0, so End from the start of a non-empty line does nothing. */
  function MoveEnd(s: EditState): (r: Step)
    requires Valid(s)
    ensures Valid(r.st) && !r.beep
    ensures s.pos != 0 ==> r == Step(s.(pos := s.len), true, false)
    ensures s.pos == 0 ==> r == Step(s, false, false)
  {
    if s.pos != 0 then Step(s.(pos := s.len), true, false) else Step(s, false, false)
  }

  // -----------------------------------------------------------------------
  // Refresh

  /** The part of the line Refresh shows: it starts at byte `start`, is
      `width` bytes long, and the cursor sits `cursor` bytes into it. */
  datatype Window = Window(start: nat, width: nat, cursor: nat)

  /** The two loops at the top of Refresh: slide the start right until the
      cursor fits left of the last column, then cut the tail to the width.
      The window keeps the cursor on screen and the text within the terminal,
      slides no further than needed, and cuts the tail no shorter than needed. */
  function ComputeWindow(len: nat, pos: nat, col: nat, plen: nat): (w: Window)
    requires pos <= len && col > plen
    ensures w.start <= pos && w.cursor == pos - w.start
    ensures w.start + w.width <= len && w.cursor <= w.width
    ensures plen + w.cursor < col && plen + w.width <= col
    ensures w.start > 0 ==> plen + (pos - (w.start - 1)) >= col
    ensures w.start + w.width == len || plen + w.width == col
  {
    var start := if plen + pos >= col then plen + pos - col + 1 else 0;
    var rest := len - start;
    Window(start, if plen + rest > col then col - plen else rest, pos - start)
  }

  /** The redraw bytes: ECMA-48 EL "ESC [ 0 K" (section 8.3.41) erases to the
      end of the line, and CUF "ESC [ n C" (section 8.3.20) moves the cursor
      forward n columns after a carriage return. */
  function CursorForward(n: nat): string {
    [Esc] + "[" + Dec(n) + "C"
  }

  function EraseRight(): string {
    [Esc] + "[0K"
  }

  /** Refresh: requires the terminal to be wider than the prompt. At width
      0 the first loop's test never fails and the buffer pointer walks on
      without end; at a width from 1 to the prompt's length the size_t
      cursor counter wraps below zero before the loop ends, leaving the
      pointer past the cursor and, with the cursor at the end of the line,
      a wrapped length that reads past the buffer. The visible bytes are
      copied with strncpy, so anything after a zero byte is sent as zeros. */
  function Refresh(s: EditState, prompt: string): (out: string)
    requires Valid(s) && s.col > |prompt|
  {
    var w := ComputeWindow(s.len, s.pos, s.col, |prompt|);
    "\r" + prompt + StrncpyBytes(s.buf[w.start..w.start + w.width], w.width)
    + EraseRight() + "\r" + CursorForward(w.cursor + |prompt|)
  }

  /** On a line without zero bytes, Refresh sends the prompt, then exactly
      the window of the line that ComputeWindow picks, then puts the cursor
      back over the byte at `pos`. */
  lemma RefreshShowsWindow(s: EditState, prompt: string)
    requires Valid(s) && s.col > |prompt| && NoNul(Line(s))
    ensures var w := ComputeWindow(s.len, s.pos, s.col, |prompt|);
      Refresh(s, prompt)
      == "\r" + prompt + Line(s)[w.start..w.start + w.width] + EraseRight() + "\r"
         + CursorForward(w.cursor + |prompt|)
  {
    var w := ComputeWindow(s.len, s.pos, s.col, |prompt|);
    ShowsSlice(s, w.start, w.width);
  }

  lemma ShowsSlice(s: EditState, start: nat, width: nat)
    requires Valid(s) && NoNul(Line(s)) && start + width <= s.len
    ensures StrncpyBytes(s.buf[start..start + width], width) == Line(s)[start..start + width]
  {
    var src := s.buf[start..start + width];
    forall i | 0 <= i < width ensures src[i] == Line(s)[start..start + width][i] && src[i] != '\0' {
      assert src[i] == s.buf[start + i] == Line(s)[start + i];
    }
    StrncpyWhole(src);
  }

  // -----------------------------------------------------------------------
  // Properties relating several primitives

  /** Inserting a byte and deleting it again with Backspace restores the
      line and the cursor (when the line was not full). */
  lemma InsertBackspace(s: EditState, c: char)
    requires Valid(s) && s.len < MaxLine
    ensures var t := Backspace(Insert(s, c).st).st;
      Line(t) == Line(s) && t.pos == s.pos && t.len == s.len
  {
    var i := Insert(s, c).st;
    var t := Backspace(i).st;
    assert Line(i)[..i.pos - 1] == Line(s)[..s.pos];
    assert Line(i)[i.pos..] == Line(s)[s.pos..];
  }

  /** Typing bytes at the end of the line, then as many Backspaces, empties it. */
  function TypeAll(s: EditState, cs: string): (r: EditState)
    requires Valid(s)
    ensures Valid(r)
    decreases |cs|
  {
    if |cs| == 0 then s else TypeAll(Insert(s, cs[0]).st, cs[1..])
  }

  function BackspaceN(s: EditState, n: nat): (r: EditState)
    requires Valid(s)
    ensures Valid(r)
    decreases n
  {
    if n == 0 then s else BackspaceN(Backspace(s).st, n - 1)
  }

  /** One byte typed at the end of a line that has room is appended. */
  lemma InsertAtEnd(s: EditState, c: char)
    requires Valid(s) && s.pos == s.len < MaxLine
    ensures var i := Insert(s, c).st;
      Line(i) == Line(s) + [c] && i.pos == i.len == s.len + 1 && i.buf[i.len] == '\0'
  {
    assert Line(s)[s.pos..] == [];
  }

  /** Typing n bytes into a line whose cursor is at its end appends them. */
  lemma {:induction false} TypeAllAppends(s: EditState, cs: string)
    requires Valid(s) && s.pos == s.len && s.len + |cs| <= MaxLine
    ensures var t := TypeAll(s, cs);
      Line(t) == Line(s) + cs && t.pos == t.len == s.len + |cs|
    ensures s.buf[s.len] == '\0' ==> TypeAll(s, cs).buf[s.len + |cs|] == '\0'
    decreases |cs|
  {
    if |cs| > 0 {
      var i := Insert(s, cs[0]).st;
      InsertAtEnd(s, cs[0]);
      TypeAllAppends(i, cs[1..]);
      assert TypeAll(s, cs) == TypeAll(i, cs[1..]);
      assert [cs[0]] + cs[1..] == cs;
      Assoc(Line(s), [cs[0]], cs[1..]);
    }
  }

  lemma {:induction false} BackspaceNDrops(s: EditState, n: nat)
    requires Valid(s) && s.pos == s.len && n <= s.len
    ensures var t := BackspaceN(s, n);
      Line(t) == Line(s)[..s.len - n] && t.pos == t.len == s.len - n
    decreases n
  {
    if n > 0 {
      var b := Backspace(s).st;
      assert Line(b) == Line(s)[..s.len - 1];
      BackspaceNDrops(b, n - 1);
      assert Line(s)[..s.len - 1][..s.len - n] == Line(s)[..s.len - n];
    }
  }

  /** Round trip at the tail: type c1..cn at the end of the line, press
      Backspace n times, and the line is what it was. */
  lemma TypeThenErase(s: EditState, cs: string)
    requires Valid(s) && s.pos == s.len && s.len + |cs| <= MaxLine
    ensures var t := BackspaceN(TypeAll(s, cs), |cs|);
      Line(t) == Line(s) && t.pos == s.pos
  {
    TypeAllAppends(s, cs);
    var u := TypeAll(s, cs);
    BackspaceNDrops(u, |cs|);
    assert (Line(s) + cs)[..s.len] == Line(s);
  }
}

=== FILE: lists.dfy ===
/** The list algorithms both queue variants share (interpreter_queue.c and
    queue.c implement them identically): in-place reversal of a singly
    linked list, and top-down merge sort in strcmp order. A list is the
    sequence of values met walking from its head. */
module Lists {
  import opened Text

  /** Reference definition: the list read from the other end. */
  function Rev(s: seq<string>): (r: seq<string>)
    ensures |r| == |s|
    ensures forall i :: 0 <= i < |s| ==> r[i] == s[|s| - 1 - i]
  {
    if |s| == 0 then [] else Rev(s[1..]) + [s[0]]
  }

  lemma RevRev(s: seq<string>)
    ensures Rev(Rev(s)) == s
  {
  }

  /** The pointer-reversal loop: `prev` is the already reversed prefix,
      and each turn moves the current node in front of it. */
  method ReverseNodes(s: seq<string>) returns (r: seq<string>)
    ensures r == Rev(s)
  {
    if |s| == 0 {
      return [];
    }
    var prev := [s[0]];
    var i := 1;
    while i < |s|
      invariant 1 <= i <= |s|
      invariant |prev| == i
      invariant forall j :: 0 <= j < i ==> prev[j] == s[i - 1 - j]
    {
      prev := [s[i]] + prev;
      i := i + 1;
    }
    r := prev;
  }

  // -----------------------------------------------------------------------
  // Merge sort

  /** Ascending in strcmp order. */
  predicate Sorted(s: seq<string>) {
    forall i :: 0 < i < |s| ==> LexLeq(s[i - 1], s[i])
  }

  /** Merge: the left head goes first only when it is strictly smaller. */
  function Merge(l: seq<string>, r: seq<string>): (m: seq<string>)
    ensures |m| == |l| + |r|
    ensures multiset(m) == multiset(l) + multiset(r)
    ensures |m| > 0 ==> (|l| > 0 && m[0] == l[0]) || (|r| > 0 && m[0] == r[0])
    ensures Sorted(l) && Sorted(r) ==> Sorted(m)
    decreases |l| + |r|
  {
    if |l| == 0 then r
    else if |r| == 0 then l
    else if LexLess(l[0], r[0]) then
      var rest := Merge(l[1..], r);
      ConsMultiset(l, rest, r);
      assert Sorted(l) && Sorted(r) ==> Sorted([l[0]] + rest) by {
        if Sorted(l) && Sorted(r) {
          TailSorted(l);
          HeadFirst(l, r[0], rest);
        }
      }
      [l[0]] + rest
    else
      NotLessIsGeq(l[0], r[0]);
      var rest := Merge(l, r[1..]);
      ConsMultiset(r, rest, l);
      assert Sorted(l) && Sorted(r) ==> Sorted([r[0]] + rest) by {
        if Sorted(l) && Sorted(r) {
          TailSorted(r);
          HeadFirst(r, l[0], rest);
        }
      }
      [r[0]] + rest
  }

  lemma ConsMultiset(s: seq<string>, rest: seq<string>, other: seq<string>)
    requires |s| > 0 && multiset(rest) == multiset(s[1..]) + multiset(other)
    ensures multiset([s[0]] + rest) == multiset(s) + multiset(other)
  {
    assert s == [s[0]] + s[1..];
  }

  lemma TailSorted(s: seq<string>)
    requires Sorted(s) && |s| > 0
    ensures Sorted(s[1..])
  {
    var t := s[1..];
    forall i | 0 < i < |t| ensures LexLeq(t[i - 1], t[i]) {
      assert t[i - 1] == s[i] && t[i] == s[i + 1];
    }
  }

  /** The head of `s` may go in front of a merge of s[1..] with a list
      whose head is `y`, when it is at most `y`. */
  lemma HeadFirst(s: seq<string>, y: string, rest: seq<string>)
    requires |s| > 0 && (LexLess(s[0], y) || LexLeq(s[0], y))
    requires |rest| > 0 ==> (|s| > 1 && rest[0] == s[1]) || rest[0] == y
    requires Sorted(s) && Sorted(rest)
    ensures Sorted([s[0]] + rest)
  {
    var m := [s[0]] + rest;
    if |rest| > 0 {
      assert LexLeq(s[0], rest[0]) by {
        if rest[0] != y {
          assert rest[0] == s[1];
        }
      }
    }
    forall i | 0 < i < |m| ensures LexLeq(m[i - 1], m[i]) {
      if i > 1 {
        assert m[i - 1] == rest[i - 2] && m[i] == rest[i - 1];
      }
    }
  }

  /** The slow/fast pointer walk that finds the last node of the left half:
      `fast` runs two nodes per step and the walk stops when `fast` or the
      node after it is the end of the list. */
  function Walk(slow: nat, fast: nat, n: nat): (m: nat)
    requires fast == 2 * slow + 1 && n >= 2 && slow <= (n - 1) / 2
    ensures m == (n - 1) / 2
    decreases n - fast
  {
    if fast < n && fast + 1 < n then Walk(slow + 1, fast + 2, n) else slow
  }

  /** mergeSort: split after the node the walk stops at, sort both halves,
      merge them. */
  function Sort(s: seq<string>): (r: seq<string>)
    ensures |r| == |s|
    ensures multiset(r) == multiset(s)
    ensures Sorted(r)
    decreases |s|
  {
    if |s| <= 1 then s
    else
      var k := Walk(0, 1, |s|) + 1;
      assert s == s[..k] + s[k..];
      Merge(Sort(s[..k]), Sort(s[k..]))
  }

  /** The walk cuts the list into halves, the left one taking the odd node. */
  lemma SplitsInHalf(n: nat)
    requires n >= 2
    ensures Walk(0, 1, n) + 1 == (n + 1) / 2
  {
  }

  /** Sorting is determined by its contract: two ascending lists with the
      same elements are the same list. */
  lemma {:induction false} SortedUnique(s: seq<string>, t: seq<string>)
    requires Sorted(s) && Sorted(t) && multiset(s) == multiset(t)
    ensures s == t
    decreases |s|
  {
    assert |s| == |multiset(s)| == |t|;
    if |s| > 0 {
      SameHead(s, t);
      TailSorted(s);
      TailSorted(t);
      SameTail(s, t);
      SortedUnique(s[1..], t[1..]);
      assert s == [s[0]] + s[1..] && t == [t[0]] + t[1..];
    }
  }

  /** Two ascending lists with the same elements start alike. */
  lemma SameHead(s: seq<string>, t: seq<string>)
    requires Sorted(s) && Sorted(t) && multiset(s) == multiset(t) && |s| > 0 && |t| > 0
    ensures s[0] == t[0]
  {
    assert s[0] in multiset(t) && t[0] in multiset(s);
    var j :| 0 <= j < |t| && t[j] == s[0];
    var k :| 0 <= k < |s| && s[k] == t[0];
    FirstIsLeast(t, j);
    FirstIsLeast(s, k);
    LexLeqAntisym(s[0], t[0]);
  }

  lemma SameTail(s: seq<string>, t: seq<string>)
    requires multiset(s) == multiset(t) && |s| > 0 && |t| > 0 && s[0] == t[0]
    ensures multiset(s[1..]) == multiset(t[1..])
  {
    assert s == [s[0]] + s[1..] && t == [t[0]] + t[1..];
    assert multiset(s) == multiset{s[0]} + multiset(s[1..]);
    assert multiset(t) == multiset{t[0]} + multiset(t[1..]);
    assert multiset(s[1..]) == multiset(s) - multiset{s[0]};
    assert multiset(t[1..]) == multiset(t) - multiset{t[0]};
  }

  /** The head of an ascending list is at most each of its elements. */
  lemma {:induction false} FirstIsLeast(s: seq<string>, j: nat)
    requires Sorted(s) && j < |s|
    ensures LexLeq(s[0], s[j])
  {
    if j > 0 {
      FirstIsLeast(s, j - 1);
      LexLeqTrans(s[0], s[j - 1], s[j]);
    }
  }

  /** Sort agrees with any ascending rearrangement of its input; in
      particular a list already in order is left as it is. */
  lemma SortIsTheSortedPermutation(s: seq<string>, t: seq<string>)
    requires Sorted(t) && multiset(t) == multiset(s)
    ensures Sort(s) == t
  {
    SortedUnique(Sort(s), t);
  }
}

=== FILE: queue.dfy ===
/** The queue of interpreter_queue.c: a singly linked list of string
    copies with head and tail pointers and a size counter. The list is the
    sequence of values met from `head`; `tail` is the position of the node
    the tail pointer designates (None for NULL); a NULL queue pointer is
    None. Allocation is taken to succeed. */
module Queue {
  import opened Text
  import Lists

  datatype Queue = Queue(items: seq<string>, size: int, tail: Option<nat>)

  /** What every operation keeps: the counter is the node count, the tail is
      NULL exactly for an empty list and otherwise the last node. */
  predicate Valid(q: Queue) {
    && q.size == |q.items|
    && (q.tail.None? <==> |q.items| == 0)
    && (q.tail.Some? ==> q.tail.value == |q.items| - 1)
  }

  predicate ValidRef(q: Option<Queue>) {
    q.Some? ==> Valid(q.value)
  }

  /** The result of an operation: its boolean answer and the queue after. */
  datatype Res = Res(ok: bool, q: Option<Queue>)

  /** QueueNew: the zeroed record. */
  function QueueNew(): (q: Queue)
    ensures Valid(q) && q.items == [] && q.tail.None?
  {
    Queue([], 0, None)
  }

  /** QueueInsertHead: refused for a NULL queue or string; otherwise a copy
      of the string becomes the first node. The tail pointer is set to the
      only node on an empty list and otherwise still names the old last node. */
  function InsertHead(q: Option<Queue>, s: Option<string>): (r: Res)
    requires ValidRef(q)
    requires s.Some? ==> NoNul(s.value)
    ensures r.ok <==> q.Some? && s.Some?
    ensures !r.ok ==> r.q == q
    ensures r.ok ==> r.q.Some? && Valid(r.q.value)
    ensures r.ok ==> r.q.value.items == [s.value] + q.value.items
  {
    if q.None? || s.None? then Res(false, q)
    else
      var q0 := q.value;
      var tail := if q0.tail.None? then Some(0) else Some(q0.tail.value + 1);
      Res(true, Some(Queue([s.value] + q0.items, q0.size + 1, tail)))
  }

  /** QueueInsertTail: refused for a NULL queue or string; otherwise a copy
      of the string is linked after the tail node and becomes the tail. */
  function InsertTail(q: Option<Queue>, s: Option<string>): (r: Res)
    requires ValidRef(q)
    requires s.Some? ==> NoNul(s.value)
    ensures r.ok <==> q.Some? && s.Some?
    ensures !r.ok ==> r.q == q
    ensures r.ok ==> r.q.Some? && Valid(r.q.value)
    ensures r.ok ==> r.q.value.items == q.value.items + [s.value]
  {
    if q.None? || s.None? then Res(false, q)
    else
      var q0 := q.value;
      Res(true, Some(Queue(q0.items + [s.value], q0.size + 1, Some(|q0.items|))))
  }

  /** QueueRemoveHead: refused for a NULL or empty queue; otherwise the
      first node goes, and the tail is reset to NULL when the count reaches
      zero. */
  function RemoveHead(q: Option<Queue>): (r: Res)
    requires ValidRef(q)
    ensures r.ok <==> q.Some? && |q.value.items| > 0
    ensures !r.ok ==> r.q == q
    ensures r.ok ==> r.q.Some? && Valid(r.q.value) && r.q.value.items == q.value.items[1..]
  {
    if q.None? || |q.value.items| == 0 || q.value.size == 0 then Res(false, q)
    else
      var q0 := q.value;
      var size := q0.size - 1;
      var tail := if size == 0 then None else Some(q0.tail.value - 1);
      Res(true, Some(Queue(q0.items[1..], size, tail)))
  }

  /** QueueSize: 0 for a NULL or empty queue, else the counter. */
  function Size(q: Option<Queue>): (n: int)
    requires ValidRef(q)
    ensures n == if q.None? then 0 else |q.value.items|
  {
    if q.None? || |q.value.items| == 0 then 0 else q.value.size
  }

  /** QueueReverse: head and tail swap and every link turns round; a NULL or
      empty queue is left alone. */
  function Reverse(q: Option<Queue>): (r: Option<Queue>)
    requires ValidRef(q)
    ensures ValidRef(r)
    ensures q.None? <==> r.None?
    ensures r.Some? ==> |r.value.items| == |q.value.items|
    ensures r.Some? ==> forall i :: 0 <= i < |q.value.items| ==>
                          r.value.items[i] == q.value.items[|q.value.items| - 1 - i]
  {
    if q.None? || |q.value.items| == 0 then q
    else
      var q0 := q.value;
      Some(Queue(Lists.Rev(q0.items), q0.size, Some(|q0.items| - 1)))
  }

  /** QueueSort: merge sort of the nodes, then a walk to the new last node
      for the tail. */
  function Sort(q: Option<Queue>): (r: Option<Queue>)
    requires ValidRef(q)
    ensures ValidRef(r)
    ensures q.None? <==> r.None?
    ensures r.Some? ==> Lists.Sorted(r.value.items)
    ensures r.Some? ==> multiset(r.value.items) == multiset(q.value.items)
  {
    if q.None? || |q.value.items| == 0 then q
    else
      var q0 := q.value;
      var items := Lists.Sort(q0.items);
      Some(Queue(items, q0.size, Some(|items| - 1)))
  }

  // -----------------------------------------------------------------------
  // Laws relating the operations

  /** Removing the head just inserted restores the queue, tail pointer
      included. */
  lemma InsertHeadThenRemove(q: Queue, s: string)
    requires Valid(q) && NoNul(s)
    ensures RemoveHead(InsertHead(Some(q), Some(s)).q) == Res(true, Some(q))
  {
  }

  /** First in, first out: on a non-empty queue, appending and removing the
      head commute. */
  lemma TailAndHeadCommute(q: Queue, s: string)
    requires Valid(q) && NoNul(s) && |q.items| > 0
    ensures RemoveHead(InsertTail(Some(q), Some(s)).q)
         == InsertTail(RemoveHead(Some(q)).q, Some(s))
  {
    assert (q.items + [s])[1..] == q.items[1..] + [s];
  }

  /** Reversing twice restores the queue. */
  lemma ReverseTwice(q: Option<Queue>)
    requires ValidRef(q)
    ensures Reverse(Reverse(q)) == q
  {
    if q.Some? && |q.value.items| > 0 {
      Lists.RevRev(q.value.items);
    }
  }

  /** Sorting an already sorted queue changes nothing. */
  lemma SortTwice(q: Option<Queue>)
    requires ValidRef(q)
    ensures Sort(Sort(q)) == Sort(q)
  {
    var r := Sort(q);
    if r.Some? {
      SortSorted(r.value);
    }
  }

  /** A valid queue already in order is left as it is. */
  lemma SortSorted(q: Queue)
    requires Valid(q) && Lists.Sorted(q.items)
    ensures Sort(Some(q)) == Some(q)
  {
    if |q.items| > 0 {
      Lists.SortIsTheSortedPermutation(q.items, q.items);
      assert Sort(Some(q)) == Some(Queue(q.items, q.size, Some(|q.items| - 1)));
    }
  }
}

=== FILE: rio.dfy ===
/** The buffered reader and the write loop of interpreter_rio.c. The file
    descriptor is replaced by the sequence of results its read() or write()
    calls return; a `Blocked` outcome means the sequence ran out while
    the source would still be waiting in a system call. */
module Rio {
  import opened Text

  /** RIO_BUFSIZE: the most one read() may deliver. */
  const RioBufSize: nat := 1024

  /** One read() call: some bytes, end of file, or -1 with errno EINTR or
      another error. */
  datatype ReadCall = Data(bytes: string) | Eof | Fail(eintr: bool)

  predicate Script(s: seq<ReadCall>) {
    forall i :: 0 <= i < |s| && s[i].Data? ==> 0 < |s[i].bytes| <= RioBufSize
  }

  /** The bytes the calls still to come will deliver. */
  function Pending(s: seq<ReadCall>): string {
    if |s| == 0 then [] else (if s[0].Data? then s[0].bytes else []) + Pending(s[1..])
  }

  /** The RIO record: rio_cnt, rio_bufptr as an offset, and the bytes the
      last read() put in rio_buf. */
  datatype Rio = Rio(cnt: int, off: nat, buf: string)

  predicate Valid(rp: Rio) {
    rp.cnt >= -1 && |rp.buf| <= RioBufSize && (rp.cnt > 0 ==> rp.off + rp.cnt == |rp.buf|)
  }

  /** The bytes read from the descriptor and not yet handed out. */
  function Unread(rp: Rio): string
    requires Valid(rp)
  {
    if rp.cnt > 0 then rp.buf[rp.off..] else []
  }

  /** The stream from the reader's position: buffered bytes, then the bytes
      the calls still to come deliver. */
  function Ahead(rp: Rio, script: seq<ReadCall>): string
    requires Valid(rp)
  {
    Unread(rp) + Pending(script)
  }

  /** RioReadInit: nothing buffered. */
  function RioReadInit(): (rp: Rio)
    ensures Valid(rp) && Unread(rp) == [] && rp.cnt == 0 && rp.off == 0
  {
    Rio(0, 0, [])
  }

  // -----------------------------------------------------------------------
  // RioRead

  datatype ReadOut = ReadOut(n: int, bytes: string, rp: Rio, rest: seq<ReadCall>) | Blocked

  /** RioRead: refills the buffer only when it holds nothing, retrying after
      EINTR; 0 at end of file, -1 on another error; otherwise copies out
      min(num, rio_cnt) bytes. */
  function RioRead(rp: Rio, num: nat, script: seq<ReadCall>): (r: ReadOut)
    requires Valid(rp) && Script(script)
    ensures r.ReadOut? ==> Valid(r.rp) && Script(r.rest)
    ensures r.ReadOut? ==> r.bytes + Ahead(r.rp, r.rest) == Ahead(rp, script)
    ensures r.ReadOut? ==> -1 <= r.n <= num && (r.n <= 0 ==> r.bytes == []) && (r.n >= 0 ==> r.n == |r.bytes|)
    ensures r.ReadOut? && r.n >= 0 && num > 0 && |Unread(r.rp)| > 0 ==> r.n == num
    ensures rp.cnt > 0 ==> r.ReadOut? && r.rest == script && r.n == Min(num, rp.cnt)
    decreases |script|
  {
    if rp.cnt <= 0 then
      if |script| == 0 then Blocked
      else
        Refill(rp, script);
        match script[0]
        case Data(b) => RioRead(Rio(|b|, 0, b), num, script[1..])
        case Eof => ReadOut(0, [], rp.(cnt := 0), script[1..])
        case Fail(eintr) =>
          if eintr then RioRead(rp.(cnt := -1), num, script[1..])
          else ReadOut(-1, [], rp.(cnt := -1), script[1..])
    else FromBuffer(rp, num, script)
  }

  /** The copy out of a non-empty buffer: min(num, rio_cnt) bytes, and the
      buffer pointer advances past them. */
  function FromBuffer(rp: Rio, num: nat, script: seq<ReadCall>): (r: ReadOut)
    requires Valid(rp) && rp.cnt > 0
    ensures r.ReadOut? && Valid(r.rp) && r.rest == script && r.n == Min(num, rp.cnt)
    ensures r.bytes + Ahead(r.rp, r.rest) == Ahead(rp, script)
    ensures r.n == |r.bytes| && r.n <= num
    ensures num > 0 && |Unread(r.rp)| > 0 ==> r.n == num
  {
    var k := Min(num, rp.cnt);
    TakeBuffered(rp, script, k);
    ReadOut(k, rp.buf[rp.off..rp.off + k], Rio(rp.cnt - k, rp.off + k, rp.buf), script)
  }

  /** With the buffer empty, one read() call moves its bytes from the calls
      to come into the buffer, and an end of file or error leaves the
      stream as it was. */
  lemma Refill(rp: Rio, script: seq<ReadCall>)
    requires Valid(rp) && Script(script) && rp.cnt <= 0 && |script| > 0
    ensures Script(script[1..])
    ensures script[0].Data? ==>
      var b := script[0].bytes;
      Valid(Rio(|b|, 0, b)) && Ahead(Rio(|b|, 0, b), script[1..]) == Ahead(rp, script)
    ensures !script[0].Data? ==>
      && Ahead(rp.(cnt := 0), script[1..]) == Ahead(rp, script)
      && Ahead(rp.(cnt := -1), script[1..]) == Ahead(rp, script)
  {
    assert script == [script[0]] + script[1..];
    assert Script(script[1..]) by {
      forall i | 0 <= i < |script[1..]| && script[1..][i].Data?
        ensures 0 < |script[1..][i].bytes| <= RioBufSize
      {
        assert script[1..][i] == script[i + 1];
      }
    }
    if script[0].Data? {
      var b := script[0].bytes;
      assert Unread(Rio(|b|, 0, b)) == b;
    }
  }

  /** Taking `k` buffered bytes leaves the rest of the stream in place. */
  lemma TakeBuffered(rp: Rio, script: seq<ReadCall>, k: nat)
    requires Valid(rp) && rp.cnt > 0 && k <= rp.cnt
    ensures Valid(Rio(rp.cnt - k, rp.off + k, rp.buf))
    ensures |Unread(Rio(rp.cnt - k, rp.off + k, rp.buf))| == rp.cnt - k
    ensures |rp.buf[rp.off..rp.off + k]| == k
    ensures rp.buf[rp.off..rp.off + k] + Ahead(Rio(rp.cnt - k, rp.off + k, rp.buf), script) == Ahead(rp, script)
  {
    var r := Rio(rp.cnt - k, rp.off + k, rp.buf);
    assert rp.buf[rp.off..] == rp.buf[rp.off..rp.off + k] + rp.buf[rp.off + k..];
    if k < rp.cnt {
      assert Unread(r) == rp.buf[rp.off + k..];
    } else {
      assert Unread(r) == [] == rp.buf[rp.off + k..];
    }
    Assoc(rp.buf[rp.off..rp.off + k], Unread(r), Pending(script));
  }

  function Min(a: int, b: int): int {
    if a < b then a else b
  }

  // -----------------------------------------------------------------------
  // RioReadLine

  /** How the line loop ended: `num` is the loop counter at exit, `eofFirst`
      marks end of file before any byte, `err` a read error. `stored` holds
      the bytes written to the caller's buffer. */
  datatype LineOut = LineOut(num: nat, eofFirst: bool, err: bool, stored: string,
                             rp: Rio, rest: seq<ReadCall>)
                   | LineBlocked

  /** One turn of the loop: either the loop ends with `out`, or byte `c`,
      not a newline, is stored and the loop goes on. */
  datatype Turn = Stop(out: LineOut) | More(c: char, rp: Rio, rest: seq<ReadCall>)

  /** What one RioRead of a single byte gives, as the loop sees it. */
  predicate ByteRead(step: ReadOut, a0: string) {
    step.ReadOut? ==>
      && Valid(step.rp) && Script(step.rest)
      && step.bytes + Ahead(step.rp, step.rest) == a0
      && -1 <= step.n <= 1 && (step.n <= 0 ==> step.bytes == []) && (step.n >= 0 ==> step.n == |step.bytes|)
  }

  /** A turn of RioReadLine's loop at counter `num`, with `acc` stored: the
      byte read decides whether the loop stores it and goes on, or ends. */
  function TurnOf(step: ReadOut, num: nat, acc: string, a0: string): (t: Turn)
    requires ByteRead(step, a0) && num >= 1 && |acc| == num - 1
    ensures t.More? ==> Valid(t.rp) && Script(t.rest) && t.c != '\n' && [t.c] + Ahead(t.rp, t.rest) == a0
    ensures t.Stop? && t.out.LineOut? ==> Valid(t.out.rp) && Script(t.out.rest) && t.out.num == num
    ensures t.Stop? && t.out.LineOut? ==> t.out.stored + Ahead(t.out.rp, t.out.rest) == acc + a0
    ensures t.Stop? && t.out.LineOut? && t.out.eofFirst ==> num == 1 && t.out.stored == [] && !t.out.err
    ensures t.Stop? && t.out.LineOut? && !t.out.eofFirst ==>
              t.out.stored == acc || (t.out.stored == acc + ['\n'] && !t.out.err)
  {
    if step.Blocked? then Stop(LineBlocked)
    else if step.n == 1 then
      var c := step.bytes[0];
      assert step.bytes == [c];
      if c == '\n' then
        Prepend(acc, step.bytes, Ahead(step.rp, step.rest), a0);
        Stop(LineOut(num, false, false, acc + [c], step.rp, step.rest))
      else More(c, step.rp, step.rest)
    else if step.n == 0 then
      if num == 1 then Stop(LineOut(num, true, false, [], step.rp, step.rest))
      else Stop(LineOut(num, false, false, acc, step.rp, step.rest))
    else
      Stop(LineOut(num, false, true, acc, step.rp, step.rest))
  }

  /** The loop of RioReadLine from counter value `num`, with `acc` already
      stored: one byte per turn until a newline, end of file, an error, or
      the counter reaching max_len. */
  function LineLoop(rp: Rio, script: seq<ReadCall>, num: nat, maxLen: nat, acc: string): (r: LineOut)
    requires Valid(rp) && Script(script)
    requires num >= 1 && |acc| == num - 1 && '\n' !in acc
    ensures r.LineOut? ==> Valid(r.rp) && Script(r.rest)
    ensures r.LineOut? ==> r.stored + Ahead(r.rp, r.rest) == acc + Ahead(rp, script)
    ensures r.LineOut? && r.eofFirst ==> num == 1 && r.stored == [] && !r.err
    decreases maxLen - num
  {
    if num >= maxLen then LineOut(num, false, false, acc, rp, script)
    else
      var t := TurnOf(RioRead(rp, 1, script), num, acc, Ahead(rp, script));
      if t.Stop? then t.out
      else
        Prepend(acc, [t.c], Ahead(t.rp, t.rest), Ahead(rp, script));
        LineLoop(t.rp, t.rest, num + 1, maxLen, acc + [t.c])
  }

  /** One turn of the loop below max_len. */
  lemma LoopStep(rp: Rio, script: seq<ReadCall>, num: nat, maxLen: nat, acc: string)
    requires Valid(rp) && Script(script)
    requires num >= 1 && |acc| == num - 1 && '\n' !in acc && num < maxLen
    ensures var t := TurnOf(RioRead(rp, 1, script), num, acc, Ahead(rp, script));
      && (t.More? ==>
            && '\n' !in acc + [t.c]
            && LineLoop(rp, script, num, maxLen, acc) == LineLoop(t.rp, t.rest, num + 1, maxLen, acc + [t.c]))
      && (t.Stop? ==> LineLoop(rp, script, num, maxLen, acc) == t.out)
  {
  }

  /** Bytes already stored stay in front when a step conserves the stream. */
  lemma Prepend(acc: string, x: string, a: string, a0: string)
    requires x + a == a0
    ensures acc + x + a == acc + a0
  {
  }

  /** A newline is stored at most as the last byte. */
  lemma {:induction false} LinePrefix(rp: Rio, script: seq<ReadCall>, num: nat, maxLen: nat, acc: string)
    requires Valid(rp) && Script(script)
    requires num >= 1 && |acc| == num - 1 && '\n' !in acc
    ensures var r := LineLoop(rp, script, num, maxLen, acc);
      r.LineOut? && |r.stored| > 0 ==> '\n' !in r.stored[..|r.stored| - 1]
    decreases maxLen - num
  {
    if num < maxLen {
      var t := TurnOf(RioRead(rp, 1, script), num, acc, Ahead(rp, script));
      LoopStep(rp, script, num, maxLen, acc);
      if t.More? {
        LinePrefix(t.rp, t.rest, num + 1, maxLen, acc + [t.c]);
      } else {
        StopPrefix(t.out, acc);
      }
    } else if |acc| > 0 {
      NoNewlineBefore(acc);
    }
  }

  /** A turn that ends the loop stores `acc`, or `acc` and a newline. */
  lemma StopPrefix(out: LineOut, acc: string)
    requires '\n' !in acc
    requires out.LineOut? ==> out.stored == [] || out.stored == acc || out.stored == acc + ['\n']
    ensures out.LineOut? && |out.stored| > 0 ==> '\n' !in out.stored[..|out.stored| - 1]
  {
    if out.LineOut? && |out.stored| > 0 {
      if out.stored == acc {
        NoNewlineBefore(acc);
      } else {
        assert out.stored[..|out.stored| - 1] == acc;
      }
    }
  }

  lemma NoNewlineBefore(acc: string)
    requires '\n' !in acc && |acc| > 0
    ensures '\n' !in acc[..|acc| - 1]
  {
    var p := acc[..|acc| - 1];
    forall i | 0 <= i < |p| ensures p[i] != '\n' {
      assert p[i] == acc[i];
    }
  }

  /** The counter the loop ends with: the stored count after a newline, one
      more otherwise; and never beyond `bound` or a stored count of `bound`. */
  predicate Counted(r: LineOut, bound: nat) {
    r.LineOut? ==>
      && |r.stored| < bound
      && (!r.err && !r.eofFirst ==>
            && r.num == (if |r.stored| > 0 && r.stored[|r.stored| - 1] == '\n' then |r.stored| else |r.stored| + 1)
            && r.num <= bound
            && (r.num == |r.stored| ==> r.num < bound))
  }

  /** The loop ends with the counter Counted describes, bounded by max_len
      or by the starting counter when that is already past it. */
  lemma {:induction false} LineCount(rp: Rio, script: seq<ReadCall>, num: nat, maxLen: nat, acc: string)
    requires Valid(rp) && Script(script)
    requires num >= 1 && |acc| == num - 1 && '\n' !in acc
    ensures Counted(LineLoop(rp, script, num, maxLen, acc), if maxLen > num then maxLen else num)
    decreases maxLen - num
  {
    if num < maxLen {
      var t := TurnOf(RioRead(rp, 1, script), num, acc, Ahead(rp, script));
      LoopStep(rp, script, num, maxLen, acc);
      if t.More? {
        LineCount(t.rp, t.rest, num + 1, maxLen, acc + [t.c]);
      } else {
        StopCounted(t.out, num, acc, maxLen);
      }
    } else {
      LastNotNewline(acc);
    }
  }

  lemma LastNotNewline(acc: string)
    requires '\n' !in acc
    ensures |acc| > 0 ==> acc[|acc| - 1] != '\n'
  {
    if |acc| > 0 {
      assert acc[|acc| - 1] in acc;
    }
  }

  /** A turn that ends the loop below max_len. */
  lemma StopCounted(out: LineOut, num: nat, acc: string, maxLen: nat)
    requires num >= 1 && |acc| == num - 1 && '\n' !in acc && num < maxLen
    requires out.LineOut? ==> out.num == num
    requires out.LineOut? && out.eofFirst ==> out.stored == [] && !out.err
    requires out.LineOut? && !out.eofFirst ==> out.stored == acc || (out.stored == acc + ['\n'] && !out.err)
    ensures Counted(out, maxLen)
  {
    LastNotNewline(acc);
  }

  /** RioReadLine's loop from its start. */
  function ReadLine(rp: Rio, maxLen: nat, script: seq<ReadCall>): (r: LineOut)
    requires Valid(rp) && Script(script)
    ensures r.LineOut? ==> Valid(r.rp) && Script(r.rest)
    ensures r.LineOut? ==> r.stored + Ahead(r.rp, r.rest) == Ahead(rp, script)
    ensures r.LineOut? ==> |r.stored| <= (if maxLen > 1 then maxLen - 1 else 0)
    ensures r.LineOut? && |r.stored| > 0 ==> '\n' !in r.stored[..|r.stored| - 1]
    ensures r.LineOut? && !r.err && !r.eofFirst ==>
              if |r.stored| > 0 && r.stored[|r.stored| - 1] == '\n' then r.num == |r.stored|
              else r.num == |r.stored| + 1
  {
    LinePrefix(rp, script, 1, maxLen, []);
    LineCount(rp, script, 1, maxLen, []);
    LineLoop(rp, script, 1, maxLen, [])
  }

  /** Every call still to come delivers bytes: no end of file, no error. */
  predicate AllData(s: seq<ReadCall>) {
    forall i :: 0 <= i < |s| ==> s[i].Data?
  }

  /** On a stream that has bytes ahead and only data calls to come, a
      one-byte RioRead hands out the next byte of the stream. */
  lemma ReadsNextByte(rp: Rio, script: seq<ReadCall>)
    requires Valid(rp) && Script(script) && AllData(script) && |Ahead(rp, script)| > 0
    ensures var step := RioRead(rp, 1, script);
      && step.ReadOut? && step.n == 1 && step.bytes == [Ahead(rp, script)[0]]
      && AllData(step.rest) && Ahead(step.rp, step.rest) == Ahead(rp, script)[1..]
    decreases |script|
  {
    var step := RioRead(rp, 1, script);
    if rp.cnt > 0 {
      assert step == FromBuffer(rp, 1, script);
    } else {
      assert Unread(rp) == [];
      assert |script| > 0;
      Refill(rp, script);
      var b := script[0].bytes;
      assert step == RioRead(Rio(|b|, 0, b), 1, script[1..]);
      assert AllData(script[1..]) by {
        forall i | 0 <= i < |script[1..]| ensures script[1..][i].Data? {
          assert script[1..][i] == script[i + 1];
        }
      }
    }
    var a := Ahead(rp, script);
    assert step.bytes + Ahead(step.rp, step.rest) == a;
    assert |step.bytes| == 1;
    assert step.bytes == a[..1] && Ahead(step.rp, step.rest) == a[1..];
  }

  /** While every call delivers bytes and a newline lies ahead, the loop
      from counter `num` stores the bytes of the stream up to and including
      that newline, or the first `maxLen - num` of them when the counter
      reaches max_len first. */
  lemma {:induction false} LoopReadsLine(rp: Rio, script: seq<ReadCall>, num: nat, maxLen: nat, acc: string)
    requires Valid(rp) && Script(script) && AllData(script)
    requires num >= 1 && |acc| == num - 1 && '\n' !in acc
    requires '\n' in Ahead(rp, script)
    ensures var a := Ahead(rp, script);
      var r := LineLoop(rp, script, num, maxLen, acc);
      && r.LineOut? && !r.err && !r.eofFirst
      && r.stored == acc + a[..Min(IndexOf(a, '\n') + 1, if maxLen > num then maxLen - num else 0)]
    decreases maxLen - num, 1
  {
    var a := Ahead(rp, script);
    if num >= maxLen {
      FullStops(rp, script, num, maxLen, acc);
    } else if a[0] == '\n' {
      NewlineNext(rp, script, num, maxLen, acc);
    } else {
      ByteNext(rp, script, num, maxLen, acc);
    }
  }

  /** At max_len the loop ends with nothing more stored. */
  lemma FullStops(rp: Rio, script: seq<ReadCall>, num: nat, maxLen: nat, acc: string)
    requires Valid(rp) && Script(script)
    requires num >= 1 && |acc| == num - 1 && '\n' !in acc && num >= maxLen
    ensures var a := Ahead(rp, script);
      var r := LineLoop(rp, script, num, maxLen, acc);
      r.LineOut? && !r.err && !r.eofFirst && r.stored == acc + a[..Min(IndexOf(a, '\n') + 1, 0)]
  {
    var a := Ahead(rp, script);
    assert acc + a[..Min(IndexOf(a, '\n') + 1, 0)] == acc;
  }

  /** The next byte is the newline: it is stored and the loop ends. */
  lemma NewlineNext(rp: Rio, script: seq<ReadCall>, num: nat, maxLen: nat, acc: string)
    requires Valid(rp) && Script(script) && AllData(script)
    requires num >= 1 && |acc| == num - 1 && '\n' !in acc && num < maxLen
    requires |Ahead(rp, script)| > 0 && Ahead(rp, script)[0] == '\n'
    ensures var a := Ahead(rp, script);
      var r := LineLoop(rp, script, num, maxLen, acc);
      r.LineOut? && !r.err && !r.eofFirst && r.stored == acc + a[..Min(IndexOf(a, '\n') + 1, maxLen - num)]
  {
    var a := Ahead(rp, script);
    ReadsNextByte(rp, script);
    var step := RioRead(rp, 1, script);
    ByteTurn(step, num, acc, a);
    LoopStep(rp, script, num, maxLen, acc);
    var t := TurnOf(step, num, acc, a);
    assert t.Stop? && t.out.stored == acc + a[..1];
    assert IndexOf(a, '\n') == 0 && Min(1, maxLen - num) == 1;
  }

  /** The next byte is not a newline: it is stored and the loop goes on
      with the rest of the stream. */
  lemma {:induction false} ByteNext(rp: Rio, script: seq<ReadCall>, num: nat, maxLen: nat, acc: string)
    requires Valid(rp) && Script(script) && AllData(script)
    requires num >= 1 && |acc| == num - 1 && '\n' !in acc && num < maxLen
    requires '\n' in Ahead(rp, script) && Ahead(rp, script)[0] != '\n'
    ensures var a := Ahead(rp, script);
      var r := LineLoop(rp, script, num, maxLen, acc);
      && r.LineOut? && !r.err && !r.eofFirst
      && r.stored == acc + a[..Min(IndexOf(a, '\n') + 1, maxLen - num)]
    decreases maxLen - num, 0
  {
    var a := Ahead(rp, script);
    ReadsNextByte(rp, script);
    var step := RioRead(rp, 1, script);
    ByteTurn(step, num, acc, a);
    LoopStep(rp, script, num, maxLen, acc);
    NextIndex(a, '\n');
    LoopReadsLine(step.rp, step.rest, num + 1, maxLen, acc + [a[0]]);
    SliceAfterFirst(a, acc, IndexOf(a, '\n') + 1, maxLen - num);
  }

  /** The turn a one-byte read of the stream's next byte gives. */
  lemma ByteTurn(step: ReadOut, num: nat, acc: string, a: string)
    requires |a| > 0 && ByteRead(step, a) && num >= 1 && |acc| == num - 1
    requires step.ReadOut? && step.n == 1 && step.bytes == [a[0]]
    ensures var t := TurnOf(step, num, acc, a);
      && (a[0] == '\n' ==> t == Stop(LineOut(num, false, false, acc + a[..1], step.rp, step.rest)))
      && (a[0] != '\n' ==> t == More(a[0], step.rp, step.rest))
  {
    assert a[..1] == [a[0]];
  }

  /** Storing the first byte, then the first m - 1 of the rest. */
  lemma SliceAfterFirst(a: string, acc: string, k: nat, b: nat)
    requires |a| > 0 && 1 < k <= |a| && b > 0
    ensures acc + [a[0]] + a[1..][..Min(k - 1, b - 1)] == acc + a[..Min(k, b)]
  {
    var m := Min(k, b);
    assert a[..m] == [a[0]] + a[1..][..m - 1];
  }

  /** The first `c` after a first byte that is not `c`. */
  lemma NextIndex(a: string, c: char)
    requires |a| > 0 && a[0] != c
    ensures IndexOf(a, c) == IndexOf(a[1..], c) + 1
    ensures c in a ==> c in a[1..] && IndexOf(a, c) < |a|
  {
    if c in a {
      var j :| 0 <= j < |a| && a[j] == c;
      assert a[1..][j - 1] == c;
    }
  }

  /** RioReadLine reads a whole line: when every call delivers bytes and
      the first newline ahead is at offset `k`, the stored bytes are the
      stream up to and including that newline, or its first max_len - 1
      bytes if those end sooner. */
  lemma ReadLineReadsLine(rp: Rio, maxLen: nat, script: seq<ReadCall>, k: nat)
    requires Valid(rp) && Script(script) && AllData(script)
    requires k < |Ahead(rp, script)| && Ahead(rp, script)[k] == '\n'
    requires '\n' !in Ahead(rp, script)[..k]
    ensures var r := ReadLine(rp, maxLen, script);
      && r.LineOut? && !r.err && !r.eofFirst
      && r.stored == Ahead(rp, script)[..Min(k + 1, if maxLen > 1 then maxLen - 1 else 0)]
  {
    var a := Ahead(rp, script);
    EmptyPrefix(a, k, maxLen);
    FirstIndex(a, '\n', k);
    ReadLineIsLoop(rp, maxLen, script);
    LoopReadsLine(rp, script, 1, maxLen, []);
  }

  lemma ReadLineIsLoop(rp: Rio, maxLen: nat, script: seq<ReadCall>)
    requires Valid(rp) && Script(script)
    ensures ReadLine(rp, maxLen, script) == LineLoop(rp, script, 1, maxLen, [])
  {
  }

  lemma EmptyPrefix(a: string, k: nat, maxLen: nat)
    requires k < |a|
    ensures var f := a[..Min(k + 1, if maxLen > 1 then maxLen - 1 else 0)];
      [] + f == f
  {
  }

  /** The first occurrence of `c` is the one IndexOf finds. */
  lemma FirstIndex(s: string, c: char, k: nat)
    requires k < |s| && s[k] == c && c !in s[..k]
    ensures IndexOf(s, c) == k
  {
    forall i | 0 <= i < k
      ensures s[i] != c
    {
      assert s[i] == s[..k][i];
    }
  }

  /** The value RioReadLine returns as written: 0 at end of file before any
      byte, -1 on error, and otherwise the loop counter, which is one more
      than the bytes stored unless the line ended in a newline. */
  function ReadLineRet(r: LineOut): (ret: int)
    requires r.LineOut?
    ensures r.err ==> ret == -1
    ensures !r.err && r.eofFirst ==> ret == 0
  {
    if r.err then -1 else if r.eofFirst then 0 else r.num
  }

  /** The value intended (the count of bytes read, as the header states):
      the loop counter bumped on a newline, less one. */
  function ReadLineRetFixed(r: LineOut): (ret: int)
    requires r.LineOut?
  {
    if r.err then -1
    else if r.eofFirst then 0
    else
      var endsInNewline := |r.stored| > 0 && r.stored[|r.stored| - 1] == '\n';
      (if endsInNewline then r.num + 1 else r.num) - 1
  }

  /** The corrected return value is the stored count on every line the loop
      produces. */
  lemma FixedRetIsStored(rp: Rio, maxLen: nat, script: seq<ReadCall>)
    requires Valid(rp) && Script(script)
    ensures var r := ReadLine(rp, maxLen, script);
      r.LineOut? && !r.err && !r.eofFirst ==> ReadLineRetFixed(r) == |r.stored|
  {
  }

  /** The return value as written over-counts a line cut by end of file:
      "a" then end of file stores one byte and returns 2. */
  lemma RetOverCountsAtEof()
    ensures var r := ReadLine(RioReadInit(), 10, [Data("a"), Eof]);
      r.LineOut? && r.stored == "a" && ReadLineRet(r) == 2 && ReadLineRetFixed(r) == 1
  {
    var s := [Data("a"), Eof];
    var r1 := RioRead(RioReadInit(), 1, s);
    assert r1 == ReadOut(1, "a", Rio(0, 1, "a"), [Eof]);
    var t1 := TurnOf(r1, 1, [], Ahead(RioReadInit(), s));
    assert t1 == More('a', r1.rp, r1.rest);
    LoopStep(RioReadInit(), s, 1, 10, []);
    var r2 := RioRead(r1.rp, 1, r1.rest);
    assert r2 == ReadOut(0, [], Rio(0, 1, "a"), []);
    var t2 := TurnOf(r2, 2, "a", Ahead(r1.rp, r1.rest));
    assert t2 == Stop(LineOut(2, false, false, "a", r2.rp, []));
    LoopStep(r1.rp, r1.rest, 2, 10, "a");
  }

  /** ... and a line that fills the buffer: with max_len 2, "ab" stores one
      byte and returns 2. */
  lemma RetOverCountsWhenFull()
    ensures var r := ReadLine(RioReadInit(), 2, [Data("ab")]);
      r.LineOut? && r.stored == "a" && ReadLineRet(r) == 2 && ReadLineRetFixed(r) == 1
  {
    var r1 := RioRead(RioReadInit(), 1, [Data("ab")]);
    assert r1 == ReadOut(1, "a", Rio(1, 1, "ab"), []);
  }

  /** Successive calls: the lines handed out, in order, followed by what is
      still buffered and to come, are the whole stream. */
  function ReadLines(rp: Rio, maxLen: nat, script: seq<ReadCall>, k: nat): (r: (string, Rio, seq<ReadCall>))
    requires Valid(rp) && Script(script)
    ensures Valid(r.1) && Script(r.2)
    ensures r.0 + Ahead(r.1, r.2) == Ahead(rp, script)
    decreases k
  {
    if k == 0 then ([], rp, script)
    else
      var line := ReadLine(rp, maxLen, script);
      if line.LineBlocked? then ([], rp, script)
      else
        var more := ReadLines(line.rp, maxLen, line.rest, k - 1);
        Chain(line.stored, more.0, Ahead(more.1, more.2), Ahead(line.rp, line.rest), Ahead(rp, script));
        (line.stored + more.0, more.1, more.2)
  }

  lemma Chain(a: string, b: string, a2: string, a1: string, a0: string)
    requires a + a1 == a0 && b + a2 == a1
    ensures (a + b) + a2 == a0
  {
  }

  /** Lines delivered so far are a prefix of the stream. */
  lemma LinesArePrefix(maxLen: nat, script: seq<ReadCall>, k: nat)
    requires Script(script)
    ensures StartsWith(Pending(script), ReadLines(RioReadInit(), maxLen, script, k).0)
  {
    var r := ReadLines(RioReadInit(), maxLen, script, k);
    assert Ahead(RioReadInit(), script) == Pending(script);
    assert Pending(script)[..|r.0|] == (r.0 + Ahead(r.1, r.2))[..|r.0|];
  }

  // -----------------------------------------------------------------------
  // WriteNum

  /** One write() call: a positive count accepted, or a return of 0 or -1,
      with whether errno is then EINTR. A count above the request cannot
      be returned, and is taken as the whole request. */
  datatype WriteCall = Wrote(n: nat) | WriteFail(eintr: bool)

  predicate WriteScript(s: seq<WriteCall>) {
    forall i :: 0 <= i < |s| && s[i].Wrote? ==> s[i].n > 0
  }

  /** WriteNum's outcome: its return value, how many bytes went out, how
      many write() calls it made. */
  datatype WriteOut = WriteOut(ret: int, sent: nat, calls: nat) | WriteBlocked

  /** Reference definition of the write loop, from `sent` bytes onward. */
  function WriteFrom(total: nat, sent: nat, script: seq<WriteCall>, calls: nat): (r: WriteOut)
    requires sent <= total && WriteScript(script)
    ensures r.WriteOut? ==> r.sent <= total && r.calls >= calls
    ensures r.WriteOut? ==> (r.ret == total && r.sent == total) || (r.ret == -1 && r.sent < total)
    decreases |script|
  {
    if sent == total then WriteOut(total, sent, calls)
    else if |script| == 0 then WriteBlocked
    else match script[0]
      case Wrote(n) => WriteFrom(total, sent + Min(n, total - sent), script[1..], calls + 1)
      case WriteFail(eintr) =>
        if eintr then WriteFrom(total, sent, script[1..], calls + 1)
        else WriteOut(-1, sent, calls + 1)
  }

  /** WriteNum: loops until every byte is accepted; EINTR restarts the call,
      any other failure returns -1. */
  method WriteNum(len: nat, script: seq<WriteCall>) returns (r: WriteOut)
    requires WriteScript(script)
    ensures r == WriteFrom(len, 0, script, 0)
    ensures r.WriteOut? && r.ret != -1 ==> r.ret == len && r.sent == len
  {
    var left := len;
    var i := 0;
    while left > 0
      invariant 0 <= left <= len && i <= |script|
      invariant WriteFrom(len, 0, script, 0) == WriteFrom(len, len - left, script[i..], i)
      decreases |script| - i
    {
      if i == |script| {
        return WriteBlocked;
      }
      assert script[i..][1..] == script[i + 1..];
      var written := 0;
      match script[i] {
        case Wrote(n) =>
          written := Min(n, left);
        case WriteFail(eintr) =>
          if !eintr {
            return WriteOut(-1, len - left, i + 1);
          }
      }
      left := left - written;
      i := i + 1;
    }
    r := WriteOut(len, len, i);
  }

  /** Interrupted calls are retried: an EINTR failure in front changes
      nothing but the call count. */
  lemma InterruptIsRetried(total: nat, sent: nat, script: seq<WriteCall>, calls: nat)
    requires sent < total && WriteScript(script)
    ensures WriteFrom(total, sent, [WriteFail(true)] + script, calls)
         == WriteFrom(total, sent, script, calls + 1)
  {
    assert ([WriteFail(true)] + script)[1..] == script;
  }
}

=== FILE: text.dfy ===
/** C-string and character helpers shared by every component.
    A `string` here is a sequence of bytes: each `char` stands for one byte
    of the C program's `char` arrays. */
module Text {

  /** A value that may be absent: C's NULL pointer or "no result". */
  datatype Option<T> = None | Some(value: T)

  /** `isspace` in the "C" locale: space, \t, \n, \v, \f, \r. */
  predicate IsSpace(c: char) {
    c == ' ' || c == '\t' || c == '\n' || c as int == 11 || c as int == 12 || c == '\r'
  }

  /** `isalpha` in the "C" locale. */
  predicate IsAlpha(c: char) {
    ('a' <= c <= 'z') || ('A' <= c <= 'Z')
  }

  predicate IsDigit(c: char) {
    '0' <= c <= '9'
  }

  /** A well-formed C string holds no terminator byte. */
  predicate NoNul(s: string) {
    forall i :: 0 <= i < |s| ==> s[i] != '\0'
  }

  predicate StartsWith(s: string, p: string) {
    |p| <= |s| && s[..|p|] == p
  }

  /** Index of the first occurrence of `c` in `s`, or |s| when there is none. */
  function IndexOf(s: string, c: char): (k: nat)
    ensures k <= |s|
    ensures forall i :: 0 <= i < k ==> s[i] != c
    ensures k < |s| ==> s[k] == c
  {
    if |s| == 0 then 0
    else if s[0] == c then 0
    else 1 + IndexOf(s[1..], c)
  }

  /** Length of the longest prefix of `s` whose bytes all satisfy `p`. */
  function Span(s: string, p: char -> bool): (k: nat)
    ensures k <= |s|
    ensures forall i :: 0 <= i < k ==> p(s[i])
    ensures k < |s| ==> !p(s[k])
  {
    if |s| == 0 || !p(s[0]) then 0 else 1 + Span(s[1..], p)
  }

  /** A run of bytes satisfying `p` followed by one that does not (or by
      nothing) spans exactly the run. */
  lemma SpanOf(a: string, b: string, p: char -> bool)
    requires forall i :: 0 <= i < |a| ==> p(a[i])
    requires |b| > 0 ==> !p(b[0])
    ensures Span(a + b, p) == |a|
  {
    assert forall i :: 0 <= i < |a| ==> p((a + b)[i]);
    assert |b| > 0 ==> !p((a + b)[|a|]);
  }

  /** The two halves of a concatenation. */
  lemma Split(a: string, b: string)
    ensures |a + b| == |a| + |b|
    ensures (a + b)[..|a|] == a && (a + b)[|a|..] == b
  {
  }

  lemma Assoc(a: string, b: string, c: string)
    ensures a + b + c == a + (b + c)
  {
  }

  /** Number of leading isspace bytes. */
  function LeadingSpaces(s: string): (k: nat)
    ensures k <= |s|
    ensures forall i :: 0 <= i < k ==> IsSpace(s[i])
    ensures k < |s| ==> !IsSpace(s[k])
  {
    Span(s, IsSpace)
  }

  /** The first `c` of `a + b` is the head of `b` when `a` holds none. */
  lemma IndexOfAfter(a: string, b: string, c: char)
    requires c !in a && |b| > 0 && b[0] == c
    ensures IndexOf(a + b, c) == |a|
  {
    assert forall i :: 0 <= i < |a| ==> (a + b)[i] != c;
    assert (a + b)[|a|] == c;
  }

  /** What C code reads as a string at the start of a byte buffer: the bytes
      before the first terminator. */
  function CStr(s: string): (r: string)
    ensures NoNul(r)
    ensures StartsWith(s, r)
    ensures |r| < |s| ==> s[|r|] == '\0'
    ensures NoNul(s) ==> r == s
  {
    s[..IndexOf(s, '\0')]
  }

  /** A buffer whose first n bytes are free of terminators and whose byte n
      is one reads as exactly those n bytes. */
  lemma CStrOf(s: string, n: nat)
    requires n < |s| && NoNul(s[..n]) && s[n] == '\0'
    ensures CStr(s) == s[..n]
  {
  }

  /** `strncpy(dst, src, n)` as seen in the n destination bytes: the bytes of
      `src` up to its first terminator, then terminators up to length n. */
  function StrncpyBytes(src: string, n: nat): (r: string)
    requires n <= |src|
    ensures |r| == n
    ensures forall i :: 0 <= i < n ==> r[i] == (if i < IndexOf(src, '\0') then src[i] else '\0')
  {
    var k := IndexOf(src, '\0');
    if k >= n then src[..n] else src[..k] + seq(n - k, _ => '\0')
  }

  /** strncpy of a whole terminator-free source copies it unchanged. */
  lemma StrncpyWhole(src: string)
    requires NoNul(src)
    ensures StrncpyBytes(src, |src|) == src
  {
    assert IndexOf(src, '\0') == |src|;
  }

  // ---------------------------------------------------------------------
  // Decimal numerals, as printed by `%d` / `%lu` and read by `%lu`.

  function DigitChar(d: nat): (c: char)
    requires d < 10
    ensures IsDigit(c)
  {
    ('0' as int + d) as char
  }

  function DigitValue(c: char): (d: nat)
    requires IsDigit(c)
    ensures d < 10
    ensures DigitChar(d) == c
  {
    c as int - '0' as int
  }

  predicate AllDigits(s: string) {
    forall i :: 0 <= i < |s| ==> IsDigit(s[i])
  }

  /** The shortest decimal numeral of n. */
  function Dec(n: nat): (r: string)
    ensures |r| > 0 && AllDigits(r)
    ensures |r| > 1 ==> r[0] != '0'
  {
    if n < 10 then [DigitChar(n)] else Dec(n / 10) + [DigitChar(n % 10)]
  }

  /** The value of a decimal numeral. */
  function ParseDec(s: string): nat
    requires AllDigits(s)
  {
    if |s| == 0 then 0 else 10 * ParseDec(s[..|s| - 1]) + DigitValue(s[|s| - 1])
  }

  lemma {:induction false} DecRoundTrip(n: nat)
    ensures ParseDec(Dec(n)) == n
  {
    if n >= 10 {
      var d := Dec(n / 10) + [DigitChar(n % 10)];
      assert d[..|d| - 1] == Dec(n / 10);
      DecRoundTrip(n / 10);
    }
  }

  lemma DecInjective(m: nat, n: nat)
    requires Dec(m) == Dec(n)
    ensures m == n
  {
    DecRoundTrip(m);
    DecRoundTrip(n);
  }

  // ---------------------------------------------------------------------
  // `strcmp` order on C strings (byte-lexicographic).

  /** strcmp(a, b) < 0 */
  predicate LexLess(a: string, b: string)
    decreases |a|
  {
    if |a| == 0 then |b| > 0
    else if |b| == 0 then false
    else if a[0] != b[0] then a[0] < b[0]
    else LexLess(a[1..], b[1..])
  }

  predicate LexLeq(a: string, b: string) {
    LexLess(a, b) || a == b
  }

  lemma {:induction false} LexTotal(a: string, b: string)
    ensures LexLess(a, b) || a == b || LexLess(b, a)
    decreases |a|
  {
    if |a| > 0 && |b| > 0 && a[0] == b[0] {
      LexTotal(a[1..], b[1..]);
      if a[1..] == b[1..] {
        assert a == [a[0]] + a[1..] && b == [b[0]] + b[1..];
      }
    }
  }

  lemma {:induction false} LexIrreflexive(a: string)
    ensures !LexLess(a, a)
    decreases |a|
  {
    if |a| > 0 {
      LexIrreflexive(a[1..]);
    }
  }

  lemma {:induction false} LexAsymmetric(a: string, b: string)
    requires LexLess(a, b)
    ensures !LexLess(b, a)
    decreases |a|
  {
    if |a| > 0 && |b| > 0 && a[0] == b[0] {
      LexAsymmetric(a[1..], b[1..]);
    }
  }

  /** Where strcmp(a, b) is not negative, b sorts no later than a. */
  lemma NotLessIsGeq(a: string, b: string)
    requires !LexLess(a, b)
    ensures LexLeq(b, a)
  {
    LexTotal(a, b);
  }

  lemma {:induction false} LexTrans(a: string, b: string, c: string)
    requires LexLess(a, b) && LexLess(b, c)
    ensures LexLess(a, c)
    decreases |a|
  {
    if |a| > 0 && a[0] == b[0] && b[0] == c[0] {
      LexTrans(a[1..], b[1..], c[1..]);
    }
  }

  lemma LexLeqTrans(a: string, b: string, c: string)
    requires LexLeq(a, b) && LexLeq(b, c)
    ensures LexLeq(a, c)
  {
    if a != b && b != c {
      LexTrans(a, b, c);
    }
  }

  lemma LexLeqAntisym(a: string, b: string)
    requires LexLeq(a, b) && LexLeq(b, a)
    ensures a == b
  {
    if a != b {
      LexAsymmetric(a, b);
    }
  }
}
